=== FILE: README.md ===
# Fianco engine core in Dafny

A model of the game logic and search engine of a Fianco player. Fianco is
played on a 9 x 9 board. WHITE (player 1) moves towards row 8 and BLACK
(player 2) towards row 0. A piece steps one square forward or sideways, or
jumps diagonally forward over an enemy piece. Capturing is mandatory, and a
side wins by reaching the far row. The model covers:

- the set-of-coordinates board of `board.py`: move generation in both
  styles, move and undo, the win test, the checked move, and the Zobrist hash
  with its incremental update (modules `SetBoard`, `Zobrist`), and its
  `move` / `undomove` as the moves the search makes (module `BoardGame`);
- the 81-bit bitboard of `chessboard.py`: legal moves with mandatory
  capture, `move` / `move_no_check` / `undo` over a bounded difference
  history, `check_winner`, piece positions and counts (module `Bitboard`);
- the standalone hash helpers of `utils.py` (module `UtilsHash`);
- the transposition tables:
  - the 64-bit entry word and its packing and unpacking (module `TTPack`);
  - the probe and store of `enginewithtt.py` and the tag probe of
    `engine.py` (module `TTable`);
  - the C array of `transposition_table.c` (module `CTable`);
- the search:
  - the evaluation and `negamax_root` of `engine.py` (module `Engine`);
  - the negamax, quiescence and null-move search of `quiescentengine.py`
    (module `Search`) and its iterative-deepening root (module
    `QuiescentRoot`);
  - the negamax and root of `improvedengine.py` (module `Improved`);
  - the running best value and first best move that all three roots keep
    (module `Best`).

Python integers are unbounded and non-negative where the source uses them as
bit sets. They are modelled as `set<nat>` of bit positions, with XOR as
symmetric difference (module `Bits`). The packed TT word is a `nat`, with
shifts, masks and OR written out (module `TTPack`). The search works over an
abstract position type. The board operations it calls (`evaluation_function`,
`checkwin`, `generate_moves`, `move`, `undomove`, `zobrist_move`) are fields
of a `Game` record. The engine's mutable fields (board, `player_at_turn`,
`self.null`, the table) are threaded through an explicit `State`. A Python
exception (`KeyError`, `UnboundLocalError`, `OverflowError` from
`np.uint64`) becomes a `None` result. Constants that `parameters.py` does not
define are parameters: `FORWARD_DIRECTIONS`, `CAPTURED_PIECE_OFFSET`,
`WINNING_WHITES`, `ALL_CELLS`, `R`, `ROW7`, `ROW1`, the flag values and the
Zobrist keys. `SetBoard.StandardRules` is their obvious instance. The search's
reading of a stored value is a parameter too: `AsWritten` is the decoding of
quiescentengine.py:31, and `SignMagnitude` is the corrected one (see
Findings).

## Model

| member | source | states |
|---|---|---|
| Coords.Opponent | quiescentengine.py:124 | toggling the side with `^= 3` maps WHITE and BLACK to each other, and toggling twice gives back the side |
| Coords.AddTuples | board.py:162-163 | the componentwise sum of two squares; subtracting either summand gives back the other |
| SetBoard.GenerateMovesUnordered | board.py:15-38 | the one-pass loop with its `capture` flag and `moves.clear()` returns exactly the generation order: all jumps if any piece has one, otherwise every piece's forward step then its lateral steps |
| SetBoard.CollectJumps | board.py:21-28 | one piece's capture loop: the first jump clears the quiet moves collected so far, and later jumps are appended |
| SetBoard.CollectQuiet | board.py:30-37 | one piece's forward step (only the row bounds-checked) and lateral steps (only the column bounds-checked), onto squares free of both sides |
| SetBoard.GenerateMovesIsLegal | board.py:41-64 | whatever order the pieces are visited in, `generate_moves` yields exactly the legal move set, and with `capture=True` exactly the jumps |
| SetBoard.OrderedGenerationSameMoves | board.py:41-64 | sorting the pieces by row (either direction) or not sorting them changes only the order of the generated moves, not the set |
| SetBoard.MandatoryCapture | board.py:15-38 | when a jump exists the legal moves are exactly the jumps; every jump moves two rows; without jumps no legal move is a jump |
| SetBoard.LegalMoveValid | board.py:20-37 | a legal move starts on a mover's piece and lands on an on-board free square, and a jump passes over an opponent piece |
| SetBoard.ApplyMove | board.py:66-73 | `move` succeeds exactly when the piece is the mover's and a jumped square holds an opponent piece (else `KeyError`); the piece then stands on the target |
| SetBoard.UndoMove | board.py:106-113 | `undomove` succeeds exactly when the mover has a piece on the target, which then returns to its origin |
| SetBoard.MoveUndoRoundTrip | board.py:66-113 | undo after move restores both piece sets exactly |
| SetBoard.MovePreservesCounts | board.py:66-73 | a move keeps the sets disjoint and on the board and keeps the mover's count; the opponent loses one piece exactly when the move is a jump |
| SetBoard.LegalMoveRoundTrip | board.py:66-113 | every legal move can be applied, keeps the board consistent, and is undone exactly |
| SetBoard.CheckWin | board.py:116-121 | 1 exactly when a white piece is on a white winning square, 2 exactly when not and a black piece is on a black winning square, 0 otherwise |
| SetBoard.CheckWinIgnoresElimination | board.py:116-121 | a side with no pieces left is not reported as having lost |
| SetBoard.MoveCheck | board.py:146-152 | a move outside the side-to-move's generated moves returns False and changes nothing; an accepted one is legal, and the result is exactly the board after `move` with the turn passed; a legal move that `move` can make is always accepted, and the only failure is a legal move that `move` refuses |
| SetBoard.MoveCheckLegal | board.py:146-152 | a legal move of the side to move is accepted and is undone exactly by `undomove` |
| SetBoard.SecondLastButWinNested | board.py:82-103 | the cones are nested: a piece that passes three rows from its goal passes two rows from it, and one that passes two rows from it passes one row from it, on the same column |
| SetBoard.SecondLastButWinOutsideCone | board.py:80-103 | a piece more than three rows from its goal row needs no free cell and always passes |
| SetBoard.SecondLastButWinStandard | board.py:75-103 | on the standard board a piece that passes one row from its goal stands on columns 1 to 7 and its forward square is an empty winning square; one that passes three rows away stands on columns 3 to 5 |
| SetBoard.SecondLastButWinOffBoard | board.py:102-103 | a cone square off the board (column -1) is never in `ALL_CELLS`, so a white piece on row 7 at column 0 fails the test |
| Zobrist.ZobristHash | board.py:124-131 | the XOR of the white keys, the black keys and the side-to-move key stays a 64-bit word when the keys are |
| Zobrist.ZobristMoveConsistent | board.py:124-144 | the incremental update of the hash before a move equals the full hash after it, with the turn passed |
| Zobrist.ZobristMoveInvolution | board.py:133-144 | applying the same update twice gives back the hash |
| Zobrist.ZobristUndoConsistent | board.py:133-144 | the update maps the hash after a move back to the hash before it |
| Zobrist.LegalMoveHashConsistent | board.py:124-144 | for every legal move the incremental and full hashes agree |
| Bitboard.Position | chessboard.py:56-57 | `1 << (y*9+x)` is the single bit `y*9+x`; a negative shift count raises |
| Bitboard.InitialState | chessboard.py:29-54 | the start has fifteen pieces a side, disjoint words, empty squares the rest of the 81 bits, WHITE to move and no history |
| Bitboard.InitialPositionsAgree | chessboard.py:29-48 | the bitboard's start position has the same white and black squares as the set board's |
| Bitboard.LegalMoves | chessboard.py:59-94 | the capture moves if there are any, else the quiet moves |
| Bitboard.QuietMovesExactly | chessboard.py:77-82 | a quiet move is generated exactly when it is one of the mover's pieces stepping in one of its directions onto an empty in-bounds square |
| Bitboard.CaptureMovesExactly | chessboard.py:84-91 | a capture is generated exactly when the pattern passes over an opponent piece onto an empty in-bounds square |
| Bitboard.LegalMovesMandatoryCapture | chessboard.py:59-94 | with a capture available the legal moves are exactly the captures (two rows each), else exactly the quiet steps; every target is empty |
| Bitboard.QuietMovesDirection | chessboard.py:20-23 | a quiet move is one square, and never backwards for its player |
| Bitboard.DiffWords | chessboard.py:170-176 | XORing the saved difference triple onto the new words gives back the old ones |
| Bitboard.Push | chessboard.py:54 | `deque(maxlen=MAX_HISTORY).append`: the newest entry is last; a full deque drops its oldest entry |
| Bitboard.HistoryBounded | chessboard.py:54 | after any pushes the history is the newest `MAX_HISTORY` of all entries ever pushed |
| Bitboard.Undo | chessboard.py:96-109 | with history, the newest entry is popped and the player toggled; without history nothing changes |
| Bitboard.MoveNoCheck | chessboard.py:111-131 | any move is made without a legality test; the history gets the difference triple and the player toggles |
| Bitboard.Play | chessboard.py:139-182 | a move outside the cached legal set changes nothing; a legal one toggles the player, records its difference and caches the new position's legal moves |
| Bitboard.MoveNoCheckEffect | chessboard.py:111-131 | a mover's piece stepping onto an empty square and jumping only an opponent piece moves exactly those bits: the mover loses the origin and gains the target, the opponent loses the jumped piece, and the three words stay a partition of the 81 squares |
| Bitboard.PlayEffect | chessboard.py:139-182 | a legal move starts on a mover's piece, ends on an empty square and jumps only an opponent piece; `move` then moves exactly those bits, keeps the partition, passes the turn and caches the new legal moves |
| Bitboard.MoveNoCheckUndo | chessboard.py:96-131 | undo after `move_no_check` restores the three words and the side to move |
| Bitboard.PlayUndo | chessboard.py:139-182 | undo after a legal `move` restores the three words and the side to move |
| Bitboard.CheckWinner | chessboard.py:133-138 | 1 exactly when white has a bit in `0x1FF000000`, 2 exactly when not and black has a bit in `0x1FF`, 0 otherwise |
| Bitboard.CheckWinnerInitialAsWritten | chessboard.py:134 | the mask as written reports a white win in the starting position |
| Bitboard.CheckWinnerRow8 | chessboard.py:133-138 | the corrected test: 1 exactly when white has a bit on row 8 (bits 72..80), 2 exactly when not and black has one on row 0 |
| Bitboard.CheckWinnerRow8Initial | chessboard.py:133-138 | the corrected test reports no winner in the starting position |
| Bitboard.CheckWinnerRow8AgreesWithSetBoard | chessboard.py:133-138 | the corrected test agrees with the set board's `checkwin` on every consistent position |
| Bitboard.PiecePositions | chessboard.py:187-194 | a square is reported exactly when it is on the board and its bit is set in the player's word |
| Bitboard.CountPieces | chessboard.py:208-217 | the population count of the player's word; any player other than 1 or 2 raises `ValueError` |
| UtilsHash.InitTable | utils.py:15-18 | the key table has 2 x 9 x 9 entries |
| UtilsHash.InitTableConstant | utils.py:10-18 | reseeding before every draw makes all 162 keys the same number |
| UtilsHash.InitTableSeededOnce | utils.py:15-18 | the corrected table, drawn from one seeded stream, has the same shape |
| UtilsHash.SeededOnceDistinctDraws | utils.py:15-18 | in the corrected table, distinct cells get distinct keys whenever the stream's first 162 draws are distinct |
| UtilsHash.PyIndex | utils.py:29 | Python list indexing: an index in `-len..len-1` is accepted, a negative one counting from the end; any other raises |
| UtilsHash.EmptyBoardHash | utils.py:21-34 | the hash of an empty board is the player number |
| UtilsHash.ComputeHashSetCell | utils.py:25-34 | placing a piece on an empty cell XORs exactly that cell's key into the hash |
| UtilsHash.InitTableHashCollides | utils.py:10-34 | with the table as written, any two boards whose piece counts have the same parity get the same hash |
| TTPack.BoundFlag | enginewithtt.py:31-36 | UPPERBOUND exactly when the value is at most the original alpha, LOWERBOUND exactly when above it and at least beta, EXACT exactly when strictly between |
| TTPack.Pack | enginewithtt.py:37-45 | the packed word fits 64 bits or the store raises; a depth of 16 or more always raises |
| TTPack.Decode | enginewithtt.py:56-64 | every unpacked field fits its width and the move's nibbles are non-negative |
| TTPack.DecodePack | enginewithtt.py:37-64 | for fields that fit their widths, unpacking the packed word gives back depth, flag, signed value and move |
| TTPack.DecodeValueAsWritten | quiescentengine.py:31 | the value as decoded by the search engines is always a non-negative 40-bit number |
| TTPack.DecodeValueAsWrittenShifts | quiescentengine.py:31 | it returns a stored non-negative value unchanged and a stored negative value `v` as `2^40 + v` |
| TTPack.DecodeValueAsWrittenCounterexample | quiescentengine.py:31 | a stored -5 comes back as 1099511627771, while the unpacking of enginewithtt.py gives -5 |
| TTPack.DecodeValue | enginewithtt.py:59-64 | the corrected value decoding: magnitude below `2^40`, non-negative when the sign bit is clear |
| TTPack.DecodeValuePack | enginewithtt.py:37-64 | the corrected decoding gives back every stored value, negative ones included |
| TTable.Index | enginewithtt.py:23 | the index keeps exactly the low 23 bits of the hash |
| TTable.Retrieve | enginewithtt.py:22-27 | a probe hits exactly when the slot's stored hash equals the query, and then returns the slot's word |
| TTable.Store | enginewithtt.py:44-45 | a store overwrites its hash's slot and no other |
| TTable.StoreThenRetrieve | enginewithtt.py:22-45 | a probe after a store of the same hash returns the stored word |
| TTable.StoreKeepsOtherProbes | enginewithtt.py:22-45 | a store leaves every probe of another slot unchanged |
| TTable.CollisionMisses | enginewithtt.py:22-45 | a store evicts a different hash that shares its slot |
| TTable.FreshTableHitsZero | enginewithtt.py:17 | the zeroed table hits hash 0 with an all-zero word, which decodes to an exact depth-0 entry of value 0 |
| TTable.StoreTT | enginewithtt.py:29-45 | `storett` succeeds only for a 64-bit hash and never for depth 16 or more |
| TTable.StoreTTRetrieve | enginewithtt.py:29-45 | after a successful `storett` the probe of its hash returns the packed entry with the chosen bound flag |
| TTable.StoreTTThenProbe | enginewithtt.py:29-64 | store then probe through the packing gives back depth, bound flag, value and move for fields that fit |
| TTable.Tag | engine.py:115 | `zobrist >> 23`: bit `k` of the tag is bit `k+23` of the hash |
| TTable.IndexAndTagDetermineHash | engine.py:114-115 | index and tag together determine the hash |
| TTable.TagRetrieve | engine.py:113-122 | the tag probe hits exactly when the slot's first field equals the hash's tag |
| TTable.TagRetrieveNeedsShortHash | engine.py:113-122 | a 16-bit slot field can only match a hash below `2^39` |
| TTable.FreshTagTableHits | engine.py:113-122 | the zeroed table hits every hash below `2^23` |
| CTable.Store | transposition_table.c:14-19 | all eight fields of the entry at the index are written and every other entry is unchanged |
| CTable.Retrieve | transposition_table.c:21-27 | the entry exactly when its stored hash matches, NULL otherwise |
| CTable.StoreThenRetrieve | transposition_table.c:14-27 | retrieve after store at the same index with the same hash returns exactly the stored fields |
| CTable.StoreKeepsOtherIndices | transposition_table.c:14-27 | a store changes no retrieval at any other index |
| CTable.FreshRetrieveZero | transposition_table.c:5-12 | the table has 16777216 entries, and the zeroed table answers hash 0 at every index with an all-zero entry |
| Engine.EvaluationWinLoss | engine.py:28-50 | on a consistent board the evaluation is +10000 exactly when the player has won, -10000 exactly when the opponent has, and strictly between otherwise |
| Engine.ScoresBounded | engine.py:36-48 | the material-and-row scores of both views stay strictly inside +-10000 |
| Engine.EvaluationAddWhite | engine.py:36-48 | one more white piece on row `y` (no winner before or after) adds `5 + y*y` to WHITE's view and subtracts `5 + y` from BLACK's |
| Engine.NegamaxRoot | engine.py:60-76 | the values are each move's search under the alpha raised so far; the search stops only on a cutoff; the result is the first move of greatest value, None when no value exceeds `-sys.maxsize` |
| Best.PeakBounds | engine.py:67-70 | the running best value is at least the floor and every value seen, and is the floor or one of the values |
| Best.FirstBestMeaning | engine.py:67-70 | the chosen index is the first position of the greatest value, and there is none exactly when no value beats the floor |
| Sorting.Sort | quiescentengine.py:90 | `sorted` by a key, either direction: a permutation of the input, ordered by the key |
| Sorting.SortKeepsElements | quiescentengine.py:90 | sorting keeps exactly the elements |
| Sorting.SortStable | quiescentengine.py:90 | the sort is stable: the elements of each key appear in the same order as in the input |
| Search.StoreIn | enginewithtt.py:29-45 | `store_tt` changes only the table and succeeds exactly when `storett` does |
| Search.WithTTLeaf | enginewithtt.py:66-67 | the static evaluation is the result exactly at depth 0 or when a winner exists |
| Search.Probe | quiescentengine.py:28-31 | the probe hits exactly when the table does; the value is read with the engine's own decoding as written (`2^40 + v` for a stored negative `v`) or, as a parameter, with the sign-magnitude decoding of enginewithtt.py |
| Search.Tighten | quiescentengine.py:28-35 | a usable entry only narrows the window; no entry, or a shallower one, leaves it alone |
| Search.Quiesce | quiescentengine.py:112-147 | at depth 0 the stand-pat value is stored and returned; stand pat at or above beta returns beta; otherwise, for a non-empty window, the result lies within `[max(alpha, stand pat), beta]`; board and side restored |
| Search.QuiesceLoop | quiescentengine.py:122-131 | the capture loop returns a value within the window and restores board and side |
| Search.MoveNegamax | improvedengine.py:62-67 | make, toggle, search the child, toggle back, undo: board, side and null flag are restored |
| Search.Negamax | quiescentengine.py:24-70 | a usable exact entry returns its value; a usable bound that closes the window returns its value; a win for the side to move returns 1000; depth 0 goes to quiescence with the tightened window |
| Search.NegamaxAsWrittenCounterexample | quiescentengine.py:24-35 | with the decoding as written, a stored depth-1 lower bound of -5 is read as `2^40 - 5`, closes the window (-100, 100) and is returned as the node's value |
| Search.NegamaxSignMagnitudeProbe | quiescentengine.py:28-35 | with the sign-magnitude decoding the same entry reads -5, raises alpha to -5 and decides nothing |
| Search.NegamaxRest | quiescentengine.py:53-70 | after the stored move, the null-move search then the move loop; board, side and null flag restored |
| Search.NullSearch | quiescentengine.py:150-163 | off unless `self.null`, depth above `R`, no endgame and no critical row; returns beta or nothing; board, side and null flag restored |
| Search.NegamaxLoop | quiescentengine.py:59-68 | the best value never drops below its start, and a fail-high leaves an entry under the node's hash |
| BoardGame.BoardApply | board.py:66-73 | a move is made exactly when it is applicable (the piece is the mover's, the target free, a jumped square the opponent's), and then as `move` makes it |
| BoardGame.BoardGameRoundTrip | board.py:66-113 | the set board's `move` and `undomove` meet the round trip the search relies on: every move made is undone exactly |
| BoardGame.LegalMovesApply | board.py:15-113 | every legal move of a consistent board is made, keeps the board consistent, and is undone exactly |
| Improved.Without | improvedengine.py:60-61 | the loop visits exactly the generated moves other than the stored one |
| Improved.Child | improvedengine.py:62-67 | make, toggle, search with the updated hash, toggle back, undo: board, side and null flag are restored |
| Improved.Negamax | improvedengine.py:19-76 | a probe that decides returns the stored value unchanged; otherwise depth 0 gives the static evaluation; the stored move is searched first whenever an entry exists |
| Improved.Loop | improvedengine.py:58-73 | the moves searched are exactly the generated moves other than the stored one, so a fail-high does not end the loop; the best value never drops |
| Improved.LoopFailHighStores | improvedengine.py:65-73 | a searched move whose value beats the best and reaches beta is stored before the loop goes on: the loop fails exactly when the store does, the table then holds that move with its value and bound under the node's hash, the loop continues from the state the store leaves, and when it was the last move its entry is still there at the end and its value is the result |
| Improved.TTMoveValueDropped | improvedengine.py:37-55 | when the stored move is the only move and does not fail high, its value is discarded and the node returns -1000000 |
| Improved.RootDepth | improvedengine.py:84-99 | one depth searches each move in turn as `-negamax(depth - 1, -beta, -alpha, ...)` under the alpha raised so far, raises alpha to the greatest value seen, stops early exactly after the first move that brings alpha to beta, restores board and side, and its best move is the first move of strictly greatest value above -100000 |
| Improved.RecordDepth | improvedengine.py:82-101 | appending one depth keeps alpha non-decreasing across depths and limits a depth that starts cut off to one move |
| Improved.Root | improvedengine.py:78-101 | depths 2 to `max_depth` run in turn with alpha never reset; once alpha reaches beta each later depth searches one move; the result is a generated move or None |
| Improved.NextTurn | improvedengine.py:103-105 | the turn counter advances by one and both the hit and node counters restart at 0 |
| QuiescentRoot.DictKeys | quiescentengine.py:78-82 | the dict's keys are the generated moves, each once, in order of first occurrence |
| QuiescentRoot.RootOrder | quiescentengine.py:90 | at depth 1 the dict order, later the moves sorted by score, descending; always the same moves |
| QuiescentRoot.RootDepth | quiescentengine.py:87-105 | each move is searched under the alpha raised so far; the depth stops exactly after the first value that brings the running best to beta; for distinct moves each move's score is its value, or the initial alpha once the time is up without a cutoff, and every move after the cutoff scores the initial alpha; the best move is the first move of strictly greatest value above the initial alpha; board and side are restored |
| QuiescentRoot.Deepening | quiescentengine.py:84-106 | no depth runs exactly when `max_depth <= 1` or the time is already up; the ordered moves are always a permutation of the root moves; when a depth ran, the loop stopped after the last depth that ran (the range ended or the time was up before the next), the ordered moves are that depth's, its searches are traced move by move, and the best move is that depth's first move of greatest value above the initial alpha (None when no value beat it) |
| QuiescentRoot.Fallback | quiescentengine.py:108 | the corrected last line: the best move if any; without one, the first ordered move when a depth ran (None for an empty order), else the first root move |
| QuiescentRoot.FallbackAsWritten | quiescentengine.py:108 | as written, the last line raises exactly when no best move was found and no depth ran; a best move is returned as is; without one, after a depth ran, it returns the first ordered move (None for an empty order) |
| QuiescentRoot.Root | quiescentengine.py:72-109 | corrected: a single root move is returned at once; otherwise a root move is returned exactly when there is one; when no depth ran it is the first root move; when one ran, it is the last depth's best move (its first move of greatest value above alpha, each move searched under the alpha the earlier ones raised), else that depth's first ordered move |
| QuiescentRoot.RootAsWritten | quiescentengine.py:72-109 | as written: with other than exactly one root move and no depth run, the root raises `UnboundLocalError` |

## Left out

- I/O and instrumentation: `display`, `__repr__`, `print`, `pprint`, logging, and the `hits`, `nodes` and `evaluation` counters (apart from `next_turn`).
- Wall clock: `timeup` and `time.time()` become the parameters `depthTimeUp` and `moveTimeUp`.
- Randomness: the key table of `board.py` (`ZOBRIST_ARRAY`, `ZOBRIST_PLAYER`) is a parameter. The generator behind `random.randint` is a function of seed and draw number.
- `board.menace` and the `reverse=False` ordering it selects at quiescentengine.py:76-79: `menace` is not part of this model, so the root takes its moves as given.
- `Chessboard.hash` (chessboard.py:184-185) reads attributes the class never sets, so it always raises. It is not modelled.
- `move_negamax`, `store_tt` and `retrieve_tt` of the search engines are not part of this model. They are modelled after the visible `storett` and `retrieve_tt` of enginewithtt.py and the make/search/undo pattern of improvedengine.py:62-67.
- `negamax` of enginewithtt.py calls `board.undo` (enginewithtt.py:75, 90), and `negamax` and `negamax_root` of engine.py call `board.legal_moves`, `board.legalmoves` and `board.undo` (engine.py:57-58, 65, 96-105). `Board` defines none of these; it has `generate_moves` and `undomove`. Of enginewithtt.py's `negamax` only the leaf rule (`Search.WithTTLeaf`) and the TT word handling are modelled. Of engine.py's root, the loop is modelled with the move list and the child search as parameters (`Engine.NegamaxRoot`).
- Null-move pruning: `self.null` starts False (quiescentengine.py:22) and is only ever restored to its earlier value, so `nullsearch` never searches in practice. The model keeps the flag as state and gates on it.
- The bitboard's `legal_moves` cache is recomputed after `move` and `undo`. The model keeps the cached set as a field. After a legal `move` the cache is stated to equal `Bitboard.LegalMoves` of the new position; after `move_no_check`, which does not recompute it, it is left as it was.
- Search.Probe: the word from the table is read as a Python `int`, as enginewithtt.py:56 converts it with `int(...)`. quiescentengine.py:26-35 and improvedengine.py:21-38 decode the `numpy.uint64` element directly, so the fields come out as unsigned 64-bit values: a hit's value negated by the parent wraps modulo `2^64`, the stored move's row difference can wrap, and under NumPy 1.x the shift itself raises. None of this is modelled. TTable.Retrieve returns the word in the same way.
- Engine.Evaluation: the sums walk the 81 board squares, so only on-board pieces are scored, while engine.py:38-48 scores every piece in the sets. The two agree on consistent boards, which every lemma about the evaluation requires.
- Search.Negamax: a generator's moves are fixed when the loop starts, each generated move is searched exactly once, and the order is the one the game's move function returns. board.py:41-64 is a lazy generator. Without `sorted_moves` it iterates the live `white_pieces`/`black_pieces` set (board.py:45, 48 and 57), and the loop body changes that set between yields: `move` removes and adds a piece and `undomove` reverses it (board.py:66-73, 106-113). A CPython set keeps its size through that, but the piece re-added can land in another slot, and an add can rebuild the table. The set iterator goes on from its slot index, so these loops may yield a piece's moves twice or skip a piece without raising. This affects the capture loop of `quiescent_search` (quiescentengine.py:122-131) and the root loop of improvedengine.py:85-97. The sorted loops (quiescentengine.py:59, improvedengine.py:58) iterate a sorted list, and the root of quiescentengine.py:78-82 consumes its generator before moving, so neither is affected. Search.QuiesceLoop and Improved.Root assume the well-behaved iteration.
- Fixed-width integers: `np.uint64` conversion of the hash and the packed word is modelled as failing (None) above 64 bits. The `uint16` fields of engine.py's table and the C `uint32_t`/`uint8_t` arguments are modelled by their ranges only.
- Search.NegamaxLoop: on a fail-high it states only that an entry exists under the node's hash, not its decoded contents, because a later store from a child search may share the slot.
- Search.Negamax: the contract states the probe, win and depth-0 branches; the branches with moves are stated through NegamaxRest, NegamaxLoop and NullSearch.
- Improved.Negamax: the move branch is stated through Improved.Loop and Improved.TTMoveValueDropped rather than in its own contract.
- Improved.Root: the time control of the other root is absent here, and the result is stated as a generated move or None, not as the best one. The moves are generated once and searched in that one order at every depth, while improvedengine.py:85 calls `generate_moves` again at each depth. That yields the same moves, but possibly in another order.
- Engine.NegamaxRoot: the search of each child is a parameter, so the result is stated relative to the values it returns.
- BoardGame.BoardApply: a move onto an occupied square is refused (None), while board.py's `move` makes it and merges the two pieces, after which `undomove` cannot restore the board. The searches only make generated moves, and every one of those is made (`BoardGame.LegalMovesApply`).
- Zobrist.ZobristHash: only the 81 on-board squares contribute. board.py's NumPy lookup would wrap a negative coordinate or raise for one past the edge, and a consistent board has no such piece.
- CTable.Retrieve: returns a copy of the entry, not a pointer into the table, so a caller's later write through the pointer is not modelled. transposition_table.c's callers are not part of this model.
- SetBoard.SecondLastButWin: its own contract only unfolds the subset test. What the test means is stated by the SecondLastButWin lemmas.
- SetBoard.GenerateMovesUnordered: Python set iteration order is unspecified, so the pieces are visited in a given enumeration and the result is stated for every enumeration.

## Findings

| source | as written | input that shows it | evidently intended | confidence | as-written member | corrected member |
|---|---|---|---|---|---|---|
| chessboard.py:134 | the white win mask `0x1FF000000` covers bits 24..32 (rows 2 and 3) | the starting position: white has bits 24, 30 and 32, so `check_winner` reports a white win before any move | the mask of row 8, bits 72..80 (`0x1FF << 72`) | high, not executed | Bitboard.CheckWinnerInitialAsWritten | Bitboard.CheckWinnerRow8 |
| quiescentengine.py:31 | `-(p >> 16) & 0xFFFFFFFFFF` negates before masking, so a stored negative value `v` decodes as `2^40 + v` | an entry stored at depth 1 as a lower bound of -5 decodes as 1099511627771, so a depth-1 search in the window (-100, 100) returns 1099511627771 at once | the signed value `storett` packed, as the unpacking of enginewithtt.py reads it | high, not executed | Search.NegamaxAsWrittenCounterexample | TTPack.DecodeValuePack |
| utils.py:10-18 | `random_int` reseeds with 420 before every draw, so all 162 keys of `init_table` are equal | any two boards whose piece counts have the same parity, such as the empty board and a board with two pieces | seed once, then draw 162 keys | high, not executed | UtilsHash.InitTableHashCollides | UtilsHash.SeededOnceDistinctDraws |
| quiescentengine.py:108 | `current_moves` is bound only inside the depth loop | `max_depth=1` with two distinct root moves: the loop body never runs and the last line raises `UnboundLocalError` | fall back to the first root move when no depth ran | high, not executed | QuiescentRoot.RootAsWritten | QuiescentRoot.Root |

=== FILE: best.dfy ===
/** The running best of a root loop: every root of the three engines keeps a
    best value, starting from a floor (`-sys.maxsize` in engine.py, -100000
    in improvedengine.py, the initial alpha in quiescentengine.py), replaces
    it and the best move on a strictly greater value, and so keeps the first
    move of greatest value. A root alpha raised to every value is the peak
    with the initial alpha as its floor. */
module Best {
  import opened Wrappers

  /** The best value after the values `vs`, starting from `floor`. */
  function Peak(floor: int, vs: seq<int>): int
    decreases |vs|
  {
    if vs == [] then floor
    else
      var p := Peak(floor, vs[..|vs| - 1]);
      if p < vs[|vs| - 1] then vs[|vs| - 1] else p
  }

  lemma PeakSnoc(floor: int, vs: seq<int>, v: int)
    ensures Peak(floor, vs + [v]) == if Peak(floor, vs) < v then v else Peak(floor, vs)
  {
    assert (vs + [v])[..|vs|] == vs;
  }

  /** Every value seen, and the floor, is at most the peak; the peak is the
      floor or one of the values. */
  lemma {:induction false} PeakBounds(floor: int, vs: seq<int>)
    ensures forall k :: 0 <= k < |vs| ==> vs[k] <= Peak(floor, vs)
    ensures Peak(floor, vs) >= floor
    ensures Peak(floor, vs) == floor || Peak(floor, vs) in vs
    decreases |vs|
  {
    if vs != [] {
      PeakBounds(floor, vs[..|vs| - 1]);
    }
  }

  /** The index of the first value strictly greater than every value before
      it and than `floor`, scanning to the end; -1 if there is none. */
  function FirstBest(floor: int, vs: seq<int>): (i: int)
    ensures -1 <= i < |vs|
    decreases |vs|
  {
    if vs == [] then -1
    else if vs[|vs| - 1] > Peak(floor, vs[..|vs| - 1]) then |vs| - 1
    else FirstBest(floor, vs[..|vs| - 1])
  }

  /** `FirstBest` is the first position of the greatest value, provided that
      value beats the floor; it is -1 exactly when none does. */
  lemma {:induction false} FirstBestMeaning(floor: int, vs: seq<int>)
    ensures FirstBest(floor, vs) == -1 <==> forall k :: 0 <= k < |vs| ==> vs[k] <= floor
    ensures FirstBest(floor, vs) == -1 ==> Peak(floor, vs) == floor
    ensures FirstBest(floor, vs) != -1 ==>
      var i := FirstBest(floor, vs);
      vs[i] > floor && vs[i] == Peak(floor, vs)
      && (forall j :: 0 <= j < i ==> vs[j] < vs[i])
      && (forall j :: 0 <= j < |vs| ==> vs[j] <= vs[i])
    decreases |vs|
  {
    PeakBounds(floor, vs);
    if vs != [] {
      var prefix := vs[..|vs| - 1];
      FirstBestMeaning(floor, prefix);
      PeakBounds(floor, prefix);
      PeakSnoc(floor, prefix, vs[|vs| - 1]);
      assert vs == prefix + [vs[|vs| - 1]];
      if vs[|vs| - 1] > Peak(floor, prefix) {
        assert vs[|vs| - 1] > floor;
      }
    }
  }

  /** One more value moves the first best index to it exactly when it beats
      the peak so far. */
  lemma FirstBestSnoc(floor: int, vs: seq<int>, v: int)
    ensures FirstBest(floor, vs + [v]) == if v > Peak(floor, vs) then |vs| else FirstBest(floor, vs)
  {
    assert (vs + [v])[..|vs|] == vs;
  }

  /** No cutoff before the last value: alpha, raised to each earlier
      value, stayed below beta. */
  predicate NoCutBefore(alpha: int, beta: int, vs: seq<int>) {
    forall k :: 1 <= k < |vs| ==> Peak(alpha, vs[..k]) < beta
  }

  lemma NoCutBeforeSnoc(alpha: int, beta: int, vs: seq<int>, v: int)
    requires NoCutBefore(alpha, beta, vs) && (vs != [] ==> Peak(alpha, vs) < beta)
    ensures NoCutBefore(alpha, beta, vs + [v])
  {
    assert forall k :: 0 <= k <= |vs| ==> (vs + [v])[..k] == vs[..k];
  }

  /** The move at the first best index, None when no value beats the
      floor. */
  function BestMove<M>(floor: int, moves: seq<M>, vs: seq<int>): (r: Option<M>)
    requires |vs| <= |moves|
    ensures r.Some? ==> r.value in moves
  {
    var i := FirstBest(floor, vs);
    if i == -1 then None else Some(moves[i])
  }
}

=== FILE: bitboard.dfy ===
/** The bitboard position of chessboard.py: one 81-bit word per side and one
    for the empty squares (bit `9 * y + x` is square `(y, x)`), the side to
    move, the cached legal moves and a bounded history of XOR differences
    used to undo moves. */
module Bitboard {
  import opened Coords
  import opened Wrappers
  import opened Bits
  import SetBoard

  /** The three words `white_pieces`, `black_pieces`, `empty_squares`; a
      history entry is a triple of the same shape holding XOR differences. */
  datatype Words = Words(white: Bits, black: Bits, empty: Bits)

  /** `Chessboard`. `history` is the deque `previous`, oldest entry first. */
  datatype Chessboard = Chessboard(
    w: Words,
    player: int,
    legal: set<Move>,
    history: seq<Words>)

  /** The words XORed with a difference triple, word by word. */
  function XorWords(a: Words, d: Words): Words {
    Words(Xor(a.white, d.white), Xor(a.black, d.black), Xor(a.empty, d.empty))
  }

  /** The difference triple that takes `before` to `after`. */
  function DiffWords(after: Words, before: Words): (d: Words)
    ensures XorWords(after, d) == before
  {
    XorAssoc(after.white, after.white, before.white);
    XorAssoc(after.black, after.black, before.black);
    XorAssoc(after.empty, after.empty, before.empty);
    XorSelf(after.white);
    XorSelf(after.black);
    XorSelf(after.empty);
    XorZero(before.white);
    XorZero(before.black);
    XorZero(before.empty);
    XorWords(after, before)
  }

  /** `get_bitboard_position(y, x)` is `1 << (y * 9 + x)`; a negative shift
      count raises `ValueError`. */
  function BitIndex(y: int, x: int): int {
    y * 9 + x
  }

  function Position(y: int, x: int): (r: Option<Bits>)
    ensures r.Some? <==> BitIndex(y, x) >= 0
    ensures r.Some? ==> r.value == {BitIndex(y, x) as nat}
  {
    if BitIndex(y, x) >= 0 then Some({BitIndex(y, x) as nat}) else None
  }

  /** `MOVEMENT_DIRECTIONS`: player 1 steps down, right, left; player 2 up,
      right, left. */
  function Directions(p: int): seq<Square> {
    if p == 1 then [Square(1, 0), Square(0, 1), Square(0, -1)]
    else [Square(-1, 0), Square(0, 1), Square(0, -1)]
  }

  /** `CAPTURE_PATTERNS`: two rows forward and two columns sideways. */
  function CapturePatterns(p: int): seq<Square> {
    if p == 1 then [Square(2, 2), Square(2, -2)] else [Square(-2, 2), Square(-2, -2)]
  }

  predicate ValidPlayer(p: int) { p == 1 || p == 2 }

  // ---------------------------------------------------------------------------
  // Initial position (chessboard.py:29-54)
  // ---------------------------------------------------------------------------

  /** Bits 0..8 (row 0) and the outposts (1,1), (1,7), (2,2), (2,6), (3,3),
      (3,5), as `__init__` ORs them in. */
  function InitialWhite(): Bits {
    Range(0, 9) + {10, 16, 20, 24, 30, 32}
  }

  /** Bits 72..80 (row 8) and the outposts (7,1), (7,7), (6,2), (6,6), (5,3),
      (5,5). */
  function InitialBlack(): Bits {
    Range(72, 81) + {64, 70, 56, 60, 48, 50}
  }

  /** `__init__`: white moves first, the empty squares are the 81-bit mask
      `(1 << 81) - 1` with every piece cleared, the legal moves are the
      precomputed `INITIAL_LEGAL_MOVES`, and the history is empty. */
  function Initial(initialLegal: set<Move>): Chessboard {
    Chessboard(Words(InitialWhite(), InitialBlack(), Range(0, 81) - InitialWhite() - InitialBlack()),
               1, initialLegal, [])
  }

  /** Every one of the 81 squares is exactly one of white, black or empty, and
      no bit lies beyond the board. */
  predicate Partition(w: Words) {
    && w.white !! w.black && w.white !! w.empty && w.black !! w.empty
    && w.white + w.black + w.empty == Range(0, 81)
  }

  /** The starting position: fifteen pieces a side, disjoint words, and the
      empty word the 81-bit complement of the pieces. */
  lemma InitialState(initialLegal: set<Move>)
    ensures |Initial(initialLegal).w.white| == 15 && |Initial(initialLegal).w.black| == 15
    ensures Partition(Initial(initialLegal).w)
    ensures Initial(initialLegal).w.empty == Range(0, 81) - (InitialWhite() + InitialBlack())
    ensures Initial(initialLegal).player == 1 && Initial(initialLegal).history == []
  {
    InitialWhiteCount();
    InitialBlackCount();
    InitialDisjoint();
    SubsetPartition(InitialWhite(), InitialBlack());
  }

  lemma InitialDisjoint()
    ensures InitialWhite() !! InitialBlack()
    ensures InitialWhite() <= Range(0, 81) && InitialBlack() <= Range(0, 81)
  {
    forall i | i in InitialWhite() ensures i !in InitialBlack() && i < 81 {
      assert i <= 32;
    }
  }

  lemma InitialWhiteCount()
    ensures |InitialWhite()| == 15
  {
    RangeSize(0, 9);
    var extra: set<nat> := {10, 16, 20, 24, 30, 32};
    assert |extra| == 6;
    assert Range(0, 9) * extra == {};
  }

  lemma InitialBlackCount()
    ensures |InitialBlack()| == 15
  {
    RangeSize(72, 81);
    var extra: set<nat> := {64, 70, 56, 60, 48, 50};
    assert |extra| == 6;
    assert Range(72, 81) * extra == {};
  }

  lemma SubsetPartition(a: Bits, b: Bits)
    requires a <= Range(0, 81) && b <= Range(0, 81) && a !! b
    ensures Partition(Words(a, b, Range(0, 81) - a - b))
  {
  }

  // ---------------------------------------------------------------------------
  // Move generation (chessboard.py:59-94)
  // ---------------------------------------------------------------------------

  function Mine(w: Words, p: int): Bits {
    if p == 1 then w.white else w.black
  }

  function Theirs(w: Words, p: int): Bits {
    if p == 1 then w.black else w.white
  }

  predicate InBounds(y: int, x: int) {
    0 <= y < 9 && 0 <= x < 9
  }

  /** The move of the piece on bit `i` by `d`: `divmod(i, 9)` gives its row
      and column. */
  function Step(i: nat, d: Square): Move {
    Move(i / 9, i % 9, i / 9 + d.row, i % 9 + d.col)
  }

  /** A quiet step lands on an empty in-bounds square. */
  predicate StepOk(w: Words, i: nat, d: Square) {
    var m := Step(i, d);
    InBounds(m.y2, m.x2) && BitIndex(m.y2, m.x2) in w.empty
  }

  /** A capture pattern passes over an opponent piece (at `d // 2`) onto an
      empty in-bounds square. */
  predicate CaptureOk(w: Words, p: int, i: nat, d: Square) {
    var m := Step(i, d);
    && InBounds(m.y2, m.x2)
    && BitIndex(i / 9 + d.row / 2, i % 9 + d.col / 2) in Theirs(w, p)
    && BitIndex(m.y2, m.x2) in w.empty
  }

  function QuietMoves(w: Words, p: int): set<Move> {
    set i, d | i in Mine(w, p) && d in Directions(p) && StepOk(w, i, d) :: Step(i, d)
  }

  function CaptureMoves(w: Words, p: int): set<Move> {
    set i, d | i in Mine(w, p) && d in CapturePatterns(p) && CaptureOk(w, p, i, d) :: Step(i, d)
  }

  /** `legalmoves()`: the captures if there are any, else the quiet steps. */
  function LegalMoves(c: Chessboard): (ms: set<Move>)
    requires ValidPlayer(c.player)
    ensures CaptureMoves(c.w, c.player) != {} ==> ms == CaptureMoves(c.w, c.player)
    ensures CaptureMoves(c.w, c.player) == {} ==> ms == QuietMoves(c.w, c.player)
  {
    var caps := CaptureMoves(c.w, c.player);
    if caps != {} then caps else QuietMoves(c.w, c.player)
  }

  /** The same moves described square by square, independently of the bit
      loop: the from-square holds a piece of `p`, the step is one of the
      player's directions, and the target is an empty square of the board. */
  predicate IsQuiet(w: Words, p: int, m: Move) {
    && 0 <= m.y1 && 0 <= m.x1 < 9 && BitIndex(m.y1, m.x1) in Mine(w, p)
    && Square(m.y2 - m.y1, m.x2 - m.x1) in Directions(p)
    && InBounds(m.y2, m.x2) && BitIndex(m.y2, m.x2) in w.empty
  }

  predicate IsCapture(w: Words, p: int, m: Move) {
    && 0 <= m.y1 && 0 <= m.x1 < 9 && BitIndex(m.y1, m.x1) in Mine(w, p)
    && Square(m.y2 - m.y1, m.x2 - m.x1) in CapturePatterns(p)
    && InBounds(m.y2, m.x2) && BitIndex(m.y2, m.x2) in w.empty
    && BitIndex((m.y1 + m.y2) / 2, (m.x1 + m.x2) / 2) in Theirs(w, p)
  }

  lemma StepDecode(i: nat, d: Square)
    ensures BitIndex(Step(i, d).y1, Step(i, d).x1) == i && 0 <= Step(i, d).x1 < 9 && 0 <= Step(i, d).y1
    ensures Square(Step(i, d).y2 - Step(i, d).y1, Step(i, d).x2 - Step(i, d).x1) == d
  {
  }

  lemma StepEncode(m: Move)
    requires 0 <= m.y1 && 0 <= m.x1 < 9
    ensures BitIndex(m.y1, m.x1) / 9 == m.y1 && BitIndex(m.y1, m.x1) % 9 == m.x1
    ensures Step(BitIndex(m.y1, m.x1) as nat, Square(m.y2 - m.y1, m.x2 - m.x1)) == m
  {
    var i := BitIndex(m.y1, m.x1);
    assert i / 9 == m.y1 && i % 9 == m.x1;
  }

  /** A quiet move is generated exactly when it is a step of the mover onto
      an empty in-bounds square. */
  lemma QuietMovesExactly(w: Words, p: int, m: Move)
    ensures m in QuietMoves(w, p) <==> IsQuiet(w, p, m)
  {
    if m in QuietMoves(w, p) {
      var i, d :| i in Mine(w, p) && d in Directions(p) && StepOk(w, i, d) && m == Step(i, d);
      StepIsQuiet(w, p, i, d);
    }
    if IsQuiet(w, p, m) {
      QuietFound(w, p, m);
    }
  }

  lemma StepIsQuiet(w: Words, p: int, i: nat, d: Square)
    requires i in Mine(w, p) && d in Directions(p) && StepOk(w, i, d)
    ensures IsQuiet(w, p, Step(i, d))
  {
    StepDecode(i, d);
  }

  lemma QuietFound(w: Words, p: int, m: Move)
    requires IsQuiet(w, p, m)
    ensures m in QuietMoves(w, p)
  {
    var i: nat := BitIndex(m.y1, m.x1) as nat;
    var d := Square(m.y2 - m.y1, m.x2 - m.x1);
    StepEncode(m);
    assert StepOk(w, i, d);
    assert i in Mine(w, p) && d in Directions(p) && m == Step(i, d);
  }

  /** `(y + dy // 2, x + dx // 2)` is the midpoint `((y0 + y1) // 2, (x0 + x1) // 2)`
      of a capture pattern. */
  lemma MidOfPattern(y: int, x: int, p: int, d: Square)
    requires d in CapturePatterns(p)
    ensures y + d.row / 2 == (y + (y + d.row)) / 2 && x + d.col / 2 == (x + (x + d.col)) / 2
  {
  }

  lemma CaptureGenerated(w: Words, p: int, m: Move)
    requires m in CaptureMoves(w, p)
    ensures IsCapture(w, p, m)
  {
    var i, d :| i in Mine(w, p) && d in CapturePatterns(p) && CaptureOk(w, p, i, d) && m == Step(i, d);
    StepIsCapture(w, p, i, d);
  }

  /** A capture pattern that passes its test is a capture. */
  lemma StepIsCapture(w: Words, p: int, i: nat, d: Square)
    requires i in Mine(w, p) && d in CapturePatterns(p) && CaptureOk(w, p, i, d)
    ensures IsCapture(w, p, Step(i, d))
  {
    var y, x := i / 9, i % 9;
    var m := Step(i, d);
    StepDecode(i, d);
    assert m == Move(y, x, y + d.row, x + d.col);
    MidOfPattern(y, x, p, d);
    assert BitIndex(y + d.row / 2, x + d.col / 2) in Theirs(w, p);
    CaptureOfParts(w, p, m, i, d);
  }

  lemma CaptureOfParts(w: Words, p: int, m: Move, i: nat, d: Square)
    requires BitIndex(m.y1, m.x1) == i && 0 <= m.y1 && 0 <= m.x1 < 9
    requires Square(m.y2 - m.y1, m.x2 - m.x1) == d
    requires i in Mine(w, p) && d in CapturePatterns(p)
    requires InBounds(m.y2, m.x2) && BitIndex(m.y2, m.x2) in w.empty
    requires BitIndex((m.y1 + m.y2) / 2, (m.x1 + m.x2) / 2) in Theirs(w, p)
    ensures IsCapture(w, p, m)
  {
  }

  lemma CaptureFound(w: Words, p: int, m: Move)
    requires IsCapture(w, p, m)
    ensures m in CaptureMoves(w, p)
  {
    var i: nat := BitIndex(m.y1, m.x1) as nat;
    var d := Square(m.y2 - m.y1, m.x2 - m.x1);
    StepEncode(m);
    CaptureOkOf(w, p, m, i, d);
    assert i in Mine(w, p) && d in CapturePatterns(p) && m == Step(i, d);
  }

  /** The pattern test, read back from a capture's own coordinates. */
  lemma CaptureOkOf(w: Words, p: int, m: Move, i: nat, d: Square)
    requires IsCapture(w, p, m) && d == Square(m.y2 - m.y1, m.x2 - m.x1)
    requires i / 9 == m.y1 && i % 9 == m.x1
    ensures CaptureOk(w, p, i, d)
  {
    MidOfPattern(m.y1, m.x1, p, d);
    assert i / 9 + d.row / 2 == (m.y1 + m.y2) / 2 && i % 9 + d.col / 2 == (m.x1 + m.x2) / 2;
    assert Step(i, d).y2 == m.y2 && Step(i, d).x2 == m.x2;
  }

  /** A capture is generated exactly when the pattern passes over an opponent
      piece onto an empty in-bounds square. */
  lemma CaptureMovesExactly(w: Words, p: int, m: Move)
    ensures m in CaptureMoves(w, p) <==> IsCapture(w, p, m)
  {
    if m in CaptureMoves(w, p) {
      CaptureGenerated(w, p, m);
    }
    if IsCapture(w, p, m) {
      CaptureFound(w, p, m);
    }
  }

  /** Mandatory capture: when any capture exists, exactly the captures are
      legal, each changing the row by two; otherwise exactly the single steps
      onto empty squares are. */
  lemma LegalMovesMandatoryCapture(c: Chessboard, m: Move)
    requires ValidPlayer(c.player)
    ensures CaptureMoves(c.w, c.player) != {} ==> (m in LegalMoves(c) <==> IsCapture(c.w, c.player, m))
    ensures CaptureMoves(c.w, c.player) == {} ==> (m in LegalMoves(c) <==> IsQuiet(c.w, c.player, m))
    ensures m in LegalMoves(c) ==> InBounds(m.y2, m.x2) && BitIndex(m.y2, m.x2) in c.w.empty
    ensures m in LegalMoves(c) && CaptureMoves(c.w, c.player) != {} ==> Abs(m.y2 - m.y1) == 2
  {
    CaptureMovesExactly(c.w, c.player, m);
    QuietMovesExactly(c.w, c.player, m);
  }

  /** Player 1 never steps to a lower row, player 2 never to a higher one;
      every quiet move is a single orthogonal step. */
  lemma QuietMovesDirection(w: Words, p: int, m: Move)
    requires ValidPlayer(p) && m in QuietMoves(w, p)
    ensures p == 1 ==> m.y2 >= m.y1
    ensures p == 2 ==> m.y2 <= m.y1
    ensures Abs(m.y2 - m.y1) + Abs(m.x2 - m.x1) == 1
  {
    QuietMovesExactly(w, p, m);
  }

  // ---------------------------------------------------------------------------
  // History, moves and undo (chessboard.py:54, 96-131, 139-182)
  // ---------------------------------------------------------------------------

  /** `deque.append` on a deque of `maxlen` `maxHistory`: when full, the
      oldest entry falls out. */
  function Push(history: seq<Words>, d: Words, maxHistory: nat): (h: seq<Words>)
    requires |history| <= maxHistory
    ensures |h| <= maxHistory
    ensures maxHistory > 0 ==> |h| > 0 && h[|h| - 1] == d
    ensures |history| < maxHistory ==> h == history + [d]
    ensures |history| == maxHistory > 0 ==> h == history[1..] + [d]
  {
    if maxHistory == 0 then []
    else if |history| < maxHistory then history + [d]
    else history[1..] + [d]
  }

  /** `undo()`: with history, toggle the player, XOR the newest differences
      back out and recompute the legal moves; without history, nothing
      happens. */
  function Undo(c: Chessboard): (r: Chessboard)
    requires ValidPlayer(c.player)
    ensures c.history == [] ==> r == c
    ensures c.history != [] ==> r.history == c.history[..|c.history| - 1] && r.player == Opponent(c.player)
    ensures ValidPlayer(r.player)
  {
    if c.history == [] then c
    else
      var r := c.(w := XorWords(c.w, c.history[|c.history| - 1]),
                  player := Opponent(c.player),
                  history := c.history[..|c.history| - 1]);
      r.(legal := LegalMoves(r))
  }

  /** The bit of the jumped square. Its index is never negative when both
      squares' indices are not: the rows differ by two, so their sum is even. */
  function MidBit(m: Move): (r: Bits)
    requires Abs(m.y2 - m.y1) == 2 && BitIndex(m.y1, m.x1) >= 0 && BitIndex(m.y2, m.x2) >= 0
    ensures r == {BitIndex((m.y1 + m.y2) / 2, (m.x1 + m.x2) / 2) as nat}
  {
    assert (m.y1 + m.y2) % 2 == 0;
    {BitIndex((m.y1 + m.y2) / 2, (m.x1 + m.x2) / 2) as nat}
  }

  /** The jumped square's bit on a two-row move, nothing otherwise. */
  function Jumped(m: Move): (r: Bits)
    requires BitIndex(m.y1, m.x1) >= 0 && BitIndex(m.y2, m.x2) >= 0
    ensures Abs(m.y2 - m.y1) != 2 ==> r == {}
  {
    if Abs(m.y2 - m.y1) == 2 then MidBit(m) else {}
  }

  /** The words after a move of `p` from bit `f` to bit `t` that jumps the
      bits `jumped`: the mover's word loses `f` and gains `t`, the other
      word loses the jumped bits, and the empty word loses `t` and gains `f`
      and the jumped bits. */
  predicate Moved(before: Words, after: Words, p: int, f: nat, t: nat, jumped: Bits) {
    && Mine(after, p) == Mine(before, p) - {f} + {t}
    && Theirs(after, p) == Theirs(before, p) - jumped
    && after.empty == before.empty - {t} + {f} + jumped
  }

  /** `move_no_check(player, y0, x0, y1, x1)`: no legality test at all. The
      mover's word (white for player 1) toggles both squares, a jump clears
      the jumped square from the other word and marks it empty, the empty word
      toggles both squares, the differences are recorded and the turn passes.
      A negative bit index raises before anything changes. */
  function MoveNoCheck(c: Chessboard, player: int, m: Move, maxHistory: nat): (r: Option<Chessboard>)
    requires |c.history| <= maxHistory
    ensures r.Some? <==> BitIndex(m.y1, m.x1) >= 0 && BitIndex(m.y2, m.x2) >= 0
    ensures r.Some? ==> r.value.player == Opponent(c.player) && r.value.legal == c.legal
    ensures r.Some? && maxHistory > 0 ==>
              |r.value.history| > 0 && XorWords(r.value.w, r.value.history[|r.value.history| - 1]) == c.w
  {
    var from :- Position(m.y1, m.x1);
    var to :- Position(m.y2, m.x2);
    var after := NoCheckWords(c.w, player, m);
    Some(Chessboard(after, Opponent(c.player), c.legal, Push(c.history, DiffWords(after, c.w), maxHistory)))
  }

  /** The words after `move_no_check` moves `m` for `player`: the mover's
      word and the empty word toggle both squares, and a jumped square is
      cleared from the other word and set in the empty one. */
  function NoCheckWords(w: Words, player: int, m: Move): Words
    requires BitIndex(m.y1, m.x1) >= 0 && BitIndex(m.y2, m.x2) >= 0
  {
    var shift := {BitIndex(m.y1, m.x1) as nat, BitIndex(m.y2, m.x2) as nat};
    var jumped := Jumped(m);
    var white := if player == 1 then Xor(w.white, shift) else w.white - jumped;
    var black := if player == 1 then w.black - jumped else Xor(w.black, shift);
    Words(white, black, Xor(w.empty + jumped, shift))
  }

  /** The words after `move` plays `m` for `player`: a jump toggles the
      jumped square in the other side's word and in the empty word, then the
      mover's word and the empty word toggle both squares. */
  function PlayWords(w: Words, player: int, m: Move): Words
    requires BitIndex(m.y1, m.x1) >= 0 && BitIndex(m.y2, m.x2) >= 0
  {
    var shift := {BitIndex(m.y1, m.x1) as nat, BitIndex(m.y2, m.x2) as nat};
    var jumped := Jumped(m);
    var white := if player == 1 then Xor(w.white, shift) else Xor(w.white, jumped);
    var black := if player == 1 then Xor(w.black, jumped) else Xor(w.black, shift);
    Words(white, black, Xor(Xor(w.empty, jumped), shift))
  }

  /** `move(player, movefrom, moveto)`: only a move in the cached legal set is
      played. A jump toggles the jumped square in the other side's word and in
      the empty word, then the mover's word and the empty word toggle both
      squares, the differences are recorded, the turn passes and the legal
      moves are recomputed. Any other move changes nothing. */
  function Play(c: Chessboard, player: int, m: Move, maxHistory: nat): (r: Option<Chessboard>)
    requires |c.history| <= maxHistory && ValidPlayer(c.player)
    ensures r.Some? <==> BitIndex(m.y1, m.x1) >= 0 && BitIndex(m.y2, m.x2) >= 0
    ensures r.Some? && m !in c.legal ==> r.value == c
    ensures r.Some? && m in c.legal ==> r.value.player == Opponent(c.player)
    ensures r.Some? && m in c.legal ==> r.value.legal == LegalMoves(r.value)
    ensures r.Some? && m in c.legal && maxHistory > 0 ==>
              |r.value.history| > 0 && XorWords(r.value.w, r.value.history[|r.value.history| - 1]) == c.w
  {
    var from :- Position(m.y1, m.x1);
    var to :- Position(m.y2, m.x2);
    if m !in c.legal then Some(c)
    else
      var after := PlayWords(c.w, player, m);
      var r := Chessboard(after, Opponent(c.player), c.legal, Push(c.history, DiffWords(after, c.w), maxHistory));
      Some(r.(legal := LegalMoves(r)))
  }

  /** `move_no_check` of a piece of `player` onto an empty square, jumping
      only an opponent piece, moves exactly those bits and keeps the three
      words a partition of the board. */
  lemma MoveNoCheckEffect(c: Chessboard, player: int, m: Move, maxHistory: nat)
    requires ValidPlayer(player) && |c.history| <= maxHistory && Partition(c.w)
    requires BitIndex(m.y1, m.x1) >= 0 && BitIndex(m.y2, m.x2) >= 0
    requires BitIndex(m.y1, m.x1) as nat in Mine(c.w, player) && BitIndex(m.y2, m.x2) as nat in c.w.empty
    requires Jumped(m) <= Theirs(c.w, player)
    ensures MoveNoCheck(c, player, m, maxHistory).Some?
    ensures var a := MoveNoCheck(c, player, m, maxHistory).value;
      Partition(a.w) && Moved(c.w, a.w, player, BitIndex(m.y1, m.x1) as nat, BitIndex(m.y2, m.x2) as nat, Jumped(m))
  {
    NoCheckWordsEffect(c.w, player, m);
  }

  /** The word arithmetic of `move_no_check` on a partition. */
  lemma NoCheckWordsEffect(w: Words, player: int, m: Move)
    requires ValidPlayer(player) && Partition(w)
    requires BitIndex(m.y1, m.x1) >= 0 && BitIndex(m.y2, m.x2) >= 0
    requires BitIndex(m.y1, m.x1) as nat in Mine(w, player) && BitIndex(m.y2, m.x2) as nat in w.empty
    requires Jumped(m) <= Theirs(w, player)
    ensures Partition(NoCheckWords(w, player, m))
    ensures Moved(w, NoCheckWords(w, player, m), player, BitIndex(m.y1, m.x1) as nat, BitIndex(m.y2, m.x2) as nat,
                  Jumped(m))
  {
    var a := NoCheckWords(w, player, m);
    var f, t := BitIndex(m.y1, m.x1) as nat, BitIndex(m.y2, m.x2) as nat;
    assert f != t;
    assert Mine(a, player) == Xor(Mine(w, player), {f, t});
    assert Theirs(a, player) == Theirs(w, player) - Jumped(m);
    assert a.empty == Xor(w.empty + Jumped(m), {f, t});
  }

  /** A legal move starts on a piece of the side to move, ends on an empty
      square, and jumps only an opponent piece. */
  lemma LegalMoveBits(c: Chessboard, m: Move)
    requires ValidPlayer(c.player) && m in LegalMoves(c)
    ensures BitIndex(m.y1, m.x1) >= 0 && BitIndex(m.y2, m.x2) >= 0
    ensures BitIndex(m.y1, m.x1) as nat in Mine(c.w, c.player) && BitIndex(m.y2, m.x2) as nat in c.w.empty
    ensures Jumped(m) <= Theirs(c.w, c.player)
  {
    LegalMovesMandatoryCapture(c, m);
    if CaptureMoves(c.w, c.player) == {} {
      var d := Square(m.y2 - m.y1, m.x2 - m.x1);
      assert d in Directions(c.player);
      assert Abs(m.y2 - m.y1) <= 1;
    }
  }

  /** `move` of a legal move by the side to move, in a position whose cached
      moves are its legal moves, moves exactly those bits, keeps the three
      words a partition of the board and caches the new position's legal
      moves. */
  lemma PlayEffect(c: Chessboard, m: Move, maxHistory: nat)
    requires ValidPlayer(c.player) && |c.history| <= maxHistory && Partition(c.w)
    requires c.legal == LegalMoves(c) && m in c.legal
    ensures BitIndex(m.y1, m.x1) >= 0 && BitIndex(m.y2, m.x2) >= 0
    ensures BitIndex(m.y1, m.x1) as nat in Mine(c.w, c.player) && BitIndex(m.y2, m.x2) as nat in c.w.empty
    ensures Jumped(m) <= Theirs(c.w, c.player)
    ensures Play(c, c.player, m, maxHistory).Some?
    ensures var a := Play(c, c.player, m, maxHistory).value;
      && Partition(a.w)
      && Moved(c.w, a.w, c.player, BitIndex(m.y1, m.x1) as nat, BitIndex(m.y2, m.x2) as nat, Jumped(m))
      && a.player == Opponent(c.player) && a.legal == LegalMoves(a)
  {
    LegalMoveBits(c, m);
    PlayWordsEffect(c.w, c.player, m);
  }

  /** The word arithmetic of `move` on a partition. */
  lemma PlayWordsEffect(w: Words, player: int, m: Move)
    requires ValidPlayer(player) && Partition(w)
    requires BitIndex(m.y1, m.x1) >= 0 && BitIndex(m.y2, m.x2) >= 0
    requires BitIndex(m.y1, m.x1) as nat in Mine(w, player) && BitIndex(m.y2, m.x2) as nat in w.empty
    requires Jumped(m) <= Theirs(w, player)
    ensures Partition(PlayWords(w, player, m))
    ensures Moved(w, PlayWords(w, player, m), player, BitIndex(m.y1, m.x1) as nat, BitIndex(m.y2, m.x2) as nat,
                  Jumped(m))
  {
    var a := PlayWords(w, player, m);
    var f, t := BitIndex(m.y1, m.x1) as nat, BitIndex(m.y2, m.x2) as nat;
    assert f != t;
    assert Mine(a, player) == Xor(Mine(w, player), {f, t});
    assert Theirs(a, player) == Xor(Theirs(w, player), Jumped(m));
    assert a.empty == Xor(Xor(w.empty, Jumped(m)), {f, t});
  }

  /** Undo after `move_no_check` restores the three words and the side to
      move exactly, for any move and any position, and recomputes the legal
      moves of the restored position; the history is restored too unless the
      deque was full and dropped its oldest entry. */
  lemma MoveNoCheckUndo(c: Chessboard, player: int, m: Move, maxHistory: nat)
    requires ValidPlayer(c.player) && |c.history| <= maxHistory && maxHistory > 0
    requires BitIndex(m.y1, m.x1) >= 0 && BitIndex(m.y2, m.x2) >= 0
    ensures MoveNoCheck(c, player, m, maxHistory).Some?
    ensures var r := Undo(MoveNoCheck(c, player, m, maxHistory).value);
            && r.w == c.w && r.player == c.player && r.legal == LegalMoves(c)
            && (|c.history| < maxHistory ==> r.history == c.history)
            && (|c.history| == maxHistory ==> r.history == c.history[1..])
  {
    var a := MoveNoCheck(c, player, m, maxHistory).value;
    var r := Undo(a);
    assert r.w == c.w && r.player == c.player;
    assert a.history[..|a.history| - 1] == if |c.history| < maxHistory then c.history else c.history[1..];
  }

  /** The same round trip for a played legal move; a move that is not legal
      leaves the position as it was. */
  lemma PlayUndo(c: Chessboard, player: int, m: Move, maxHistory: nat)
    requires ValidPlayer(c.player) && |c.history| <= maxHistory && maxHistory > 0
    requires BitIndex(m.y1, m.x1) >= 0 && BitIndex(m.y2, m.x2) >= 0 && m in c.legal
    ensures Play(c, player, m, maxHistory).Some?
    ensures var r := Undo(Play(c, player, m, maxHistory).value);
            && r.w == c.w && r.player == c.player && r.legal == LegalMoves(c)
            && (|c.history| < maxHistory ==> r.history == c.history)
  {
    var a := Play(c, player, m, maxHistory).value;
    var r := Undo(a);
    assert r.w == c.w && r.player == c.player;
  }

  /** The history after pushing every entry of `ds`, oldest first. */
  function PushAll(history: seq<Words>, ds: seq<Words>, maxHistory: nat): (h: seq<Words>)
    requires |history| <= maxHistory
    ensures |h| <= maxHistory
  {
    if ds == [] then history
    else Push(PushAll(history, ds[..|ds| - 1], maxHistory), ds[|ds| - 1], maxHistory)
  }

  /** The newest `k` entries of `s` (all of them when there are fewer). */
  function Window(s: seq<Words>, k: nat): seq<Words> {
    s[|s| - Min(|s|, k)..]
  }

  /** Pushing onto the window of `s` gives the window of `s` extended. */
  lemma PushWindow(s: seq<Words>, d: Words, k: nat)
    ensures Push(Window(s, k), d, k) == Window(s + [d], k)
  {
    var h, all := Window(s, k), s + [d];
    if k > 0 && |h| == k {
      var lhs, rhs := h[1..] + [d], all[|all| - k..];
      assert |lhs| == |rhs| == k;
      forall i | 0 <= i < k ensures lhs[i] == rhs[i] {
        if i < k - 1 {
          assert lhs[i] == s[|s| - k + 1 + i];
        }
      }
    } else if k > 0 {
      assert h == s;
      assert all[|all| - Min(|all|, k)..] == all;
    }
  }

  /** The deque always holds the newest `maxHistory` of all entries ever
      pushed, so `undo` can go back at most that far. */
  lemma {:induction false} HistoryBounded(history: seq<Words>, ds: seq<Words>, maxHistory: nat)
    requires |history| <= maxHistory
    ensures PushAll(history, ds, maxHistory) == Window(history + ds, maxHistory)
    decreases |ds|
  {
    if ds == [] {
      assert history + ds == history;
    } else {
      var n := |ds| - 1;
      HistoryBounded(history, ds[..n], maxHistory);
      assert history + ds == (history + ds[..n]) + [ds[n]];
      PushWindow(history + ds[..n], ds[n], maxHistory);
    }
  }

  function Min(a: int, b: int): int { if a <= b then a else b }

  // ---------------------------------------------------------------------------
  // Win test and queries (chessboard.py:133-138, 187-217)
  // ---------------------------------------------------------------------------

  /** `check_winner`: 1 if white has a bit in `0x1FF000000` (bits 24..32),
      else 2 if black has a bit in `0x1FF` (bits 0..8), else 0. */
  function CheckWinner(c: Chessboard): (w: int)
    ensures w == 1 <==> c.w.white * Range(24, 33) != {}
    ensures w == 2 <==> c.w.white * Range(24, 33) == {} && c.w.black * Range(0, 9) != {}
    ensures w == 0 || w == 1 || w == 2
  {
    if c.w.white * Range(24, 33) != {} then 1
    else if c.w.black * Range(0, 9) != {} then 2
    else 0
  }

  /** As written, the white mask `0x1FF000000` covers bits 24..32, rows 2
      and 3, where white stands from the start: the initial position already
      reports a white win. */
  lemma CheckWinnerInitialAsWritten(initialLegal: set<Move>)
    ensures CheckWinner(Initial(initialLegal)) == 1
  {
    assert 24 in Initial(initialLegal).w.white * Range(24, 33);
  }

  /** The test the game's rules call for: white wins on row 8 (bits 72..80,
      mask `0x1FF << 72`), black on row 0 (bits 0..8). */
  function CheckWinnerRow8(c: Chessboard): (w: int)
    ensures w == 1 <==> c.w.white * Range(72, 81) != {}
    ensures w == 2 <==> c.w.white * Range(72, 81) == {} && c.w.black * Range(0, 9) != {}
    ensures w == 0 || w == 1 || w == 2
  {
    if c.w.white * Range(72, 81) != {} then 1
    else if c.w.black * Range(0, 9) != {} then 2
    else 0
  }

  lemma CheckWinnerRow8Initial(initialLegal: set<Move>)
    ensures CheckWinnerRow8(Initial(initialLegal)) == 0
  {
    var c := Initial(initialLegal);
    forall i | i in c.w.white ensures i !in Range(72, 81) {
      assert i <= 32;
    }
    forall i | i in c.w.black ensures i !in Range(0, 9) {
      assert i >= 48;
    }
  }

  /** The corrected test agrees with the set board's `checkwin` under the
      standard rules, on the squares the two words describe. */
  lemma CheckWinnerRow8AgreesWithSetBoard(c: Chessboard)
    requires Partition(c.w)
    ensures CheckWinnerRow8(c)
         == SetBoard.CheckWin(SetBoard.StandardRules(),
                              SetBoard.Board(PiecePositions(c, 1), PiecePositions(c, 2), c.player))
  {
    RowHit(c, 1, 8);
    RowHit(c, 2, 0);
  }

  lemma ColumnsExactly(x: int)
    ensures x in SetBoard.Columns() <==> 0 <= x < 9
  {
  }

  /** A word has a bit in row `y` exactly when its squares meet that row. */
  lemma RowHit(c: Chessboard, p: int, y: int)
    requires 0 <= y < 9
    ensures (Mine(c.w, p) * Range(9 * y, 9 * y + 9) != {}) <==> (PiecePositions(c, p) * SetBoard.RowSquares(y) != {})
  {
    var pos := PiecePositions(c, p);
    if Mine(c.w, p) * Range(9 * y, 9 * y + 9) != {} {
      var i :| i in Mine(c.w, p) * Range(9 * y, 9 * y + 9);
      var s := Square(y, i - 9 * y);
      assert 0 <= s.col < 9 && BitIndex(s.row, s.col) == i;
      assert s in pos;
      ColumnsExactly(s.col);
      assert s in pos * SetBoard.RowSquares(y);
    }
    if pos * SetBoard.RowSquares(y) != {} {
      var s :| s in pos * SetBoard.RowSquares(y);
      assert BitIndex(s.row, s.col) in Mine(c.w, p) * Range(9 * y, 9 * y + 9);
    }
  }

  /** `get_piece_positions(player)`: the square `divmod(bit, 9)` of every set
      bit below 81 of the player's word (white for 1, black otherwise). */
  function PiecePositions(c: Chessboard, player: int): (s: set<Square>)
    ensures forall y, x :: Square(y, x) in s <==> InBounds(y, x) && BitIndex(y, x) in Mine(c.w, player)
  {
    var pieces := Mine(c.w, player);
    var r := set i | i in pieces && i < 81 :: Square(i / 9, i % 9);
    assert forall y, x :: InBounds(y, x) && BitIndex(y, x) in pieces ==> Square(y, x) in r by {
      forall y, x | InBounds(y, x) && BitIndex(y, x) in pieces ensures Square(y, x) in r {
        var i := BitIndex(y, x);
        assert i / 9 == y && i % 9 == x;
      }
    }
    r
  }

  /** `count_pieces(player)`: the population count of the player's word; any
      other player id raises `ValueError`. */
  function CountPieces(c: Chessboard, player: int): (n: Option<nat>)
    ensures n.Some? <==> ValidPlayer(player)
    ensures n.Some? ==> n.value == |Mine(c.w, player)|
  {
    if player == 1 then Some(|c.w.white|)
    else if player == 2 then Some(|c.w.black|)
    else None
  }

  /** The two representations start from the same position. */
  lemma InitialPositionsAgree(initialLegal: set<Move>)
    ensures PiecePositions(Initial(initialLegal), 1) == SetBoard.InitialBoard().white
    ensures PiecePositions(Initial(initialLegal), 2) == SetBoard.InitialBoard().black
  {
    InitialWhitePositions(initialLegal);
    InitialBlackPositions(initialLegal);
  }

  lemma SubsetAntisymmetric(a: set<Square>, b: set<Square>)
    requires a <= b && b <= a
    ensures a == b
  {
  }

  lemma InitialWhitePositions(initialLegal: set<Move>)
    ensures PiecePositions(Initial(initialLegal), 1) == SetBoard.InitialBoard().white
  {
    WhitePositions(Initial(initialLegal));
  }

  lemma WhitePositions(c: Chessboard)
    requires c.w.white == InitialWhite()
    ensures PiecePositions(c, 1) == SetBoard.InitialBoard().white
  {
    var pos := PiecePositions(c, 1);
    WhitePositionsWithin(pos);
    WhitePositionsCover(pos);
    SubsetAntisymmetric(pos, SetBoard.InitialBoard().white);
  }

  lemma WhitePositionsWithin(pos: set<Square>)
    requires forall y, x :: Square(y, x) in pos <==> InBounds(y, x) && BitIndex(y, x) in InitialWhite()
    ensures pos <= SetBoard.InitialBoard().white
  {
    forall s | s in pos ensures s in SetBoard.InitialBoard().white {
      var y, x := s.row, s.col;
      assert Square(y, x) in pos;
      WhiteSquare(y, x);
    }
  }

  lemma WhitePositionsCover(pos: set<Square>)
    requires forall y, x :: Square(y, x) in pos <==> InBounds(y, x) && BitIndex(y, x) in InitialWhite()
    ensures SetBoard.InitialBoard().white <= pos
  {
    forall s | s in SetBoard.InitialBoard().white ensures s in pos {
      var y, x := s.row, s.col;
      assert Square(y, x) in SetBoard.InitialBoard().white;
      WhiteSquare(y, x);
    }
  }

  lemma InitialBlackPositions(initialLegal: set<Move>)
    ensures PiecePositions(Initial(initialLegal), 2) == SetBoard.InitialBoard().black
  {
    BlackPositions(Initial(initialLegal));
  }

  lemma BlackPositions(c: Chessboard)
    requires c.w.black == InitialBlack()
    ensures PiecePositions(c, 2) == SetBoard.InitialBoard().black
  {
    var pos := PiecePositions(c, 2);
    BlackPositionsWithin(pos);
    BlackPositionsCover(pos);
    SubsetAntisymmetric(pos, SetBoard.InitialBoard().black);
  }

  lemma BlackPositionsWithin(pos: set<Square>)
    requires forall y, x :: Square(y, x) in pos <==> InBounds(y, x) && BitIndex(y, x) in InitialBlack()
    ensures pos <= SetBoard.InitialBoard().black
  {
    forall s | s in pos ensures s in SetBoard.InitialBoard().black {
      var y, x := s.row, s.col;
      assert Square(y, x) in pos;
      BlackSquare(y, x);
    }
  }

  lemma BlackPositionsCover(pos: set<Square>)
    requires forall y, x :: Square(y, x) in pos <==> InBounds(y, x) && BitIndex(y, x) in InitialBlack()
    ensures SetBoard.InitialBoard().black <= pos
  {
    forall s | s in SetBoard.InitialBoard().black ensures s in pos {
      var y, x := s.row, s.col;
      assert Square(y, x) in SetBoard.InitialBoard().black;
      BlackSquare(y, x);
    }
  }

  lemma WhiteSquare(y: int, x: int)
    ensures InBounds(y, x) && BitIndex(y, x) in InitialWhite() <==> Square(y, x) in SetBoard.InitialBoard().white
  {
  }

  lemma BlackSquare(y: int, x: int)
    ensures InBounds(y, x) && BitIndex(y, x) in InitialBlack() <==> Square(y, x) in SetBoard.InitialBoard().black
  {
  }
}

=== FILE: bits.dfy ===
/** Non-negative integers as the finite sets of their 1-bits. Python's `^`,
    `&`, `|` and `& ~` on such integers are symmetric difference,
    intersection, union and difference; an unsigned 64-bit word is a set of
    positions below 64. */
module Bits {

  type Bits = set<nat>

  /** Bitwise exclusive or. */
  function Xor(a: Bits, b: Bits): (r: Bits)
    ensures forall i :: i in r <==> (i in a) != (i in b)
  {
    (a - b) + (b - a)
  }

  /** All bits of `w` lie below position `n`. */
  predicate Below(w: Bits, n: nat) {
    forall i :: i in w ==> i < n
  }

  /** The positions `lo .. hi - 1`: the mask `((1 << hi) - 1) & ~((1 << lo) - 1)`. */
  function Range(lo: nat, hi: nat): (r: Bits)
    ensures forall i :: i in r <==> lo <= i < hi
  {
    var s := seq(if lo <= hi then hi - lo else 0, (j: nat) => lo + j);
    var r := set i | i in s;
    assert forall i :: lo <= i < hi ==> i in r by {
      forall i | lo <= i < hi ensures i in r {
        assert s[i - lo] == i;
      }
    }
    r
  }

  lemma {:induction false} RangeSize(lo: nat, hi: nat)
    requires lo <= hi
    ensures |Range(lo, hi)| == hi - lo
    decreases hi - lo
  {
    if lo < hi {
      RangeSize(lo, hi - 1);
      assert Range(lo, hi) == Range(lo, hi - 1) + {hi - 1};
    }
  }

  lemma XorZero(a: Bits)
    ensures Xor(a, {}) == a && Xor({}, a) == a
  {
  }

  lemma XorSelf(a: Bits)
    ensures Xor(a, a) == {}
  {
  }

  lemma XorComm(a: Bits, b: Bits)
    ensures Xor(a, b) == Xor(b, a)
  {
  }

  lemma XorAssoc(a: Bits, b: Bits, c: Bits)
    ensures Xor(Xor(a, b), c) == Xor(a, Xor(b, c))
  {
  }

  /** The two last operands of a chain of XORs may trade places. */
  lemma XorSwap(a: Bits, b: Bits, c: Bits)
    ensures Xor(Xor(a, b), c) == Xor(Xor(a, c), b)
  {
  }

  /** XOR never sets a bit neither operand had. */
  lemma XorBelow(a: Bits, b: Bits, n: nat)
    requires Below(a, n) && Below(b, n)
    ensures Below(Xor(a, b), n)
  {
  }
}

=== FILE: boardgame.dfy ===
/** board.py's `move` and `undomove` as the moves of the search: a move is
    made only when it is applicable (its piece is there, its target is free,
    a jump passes over an opponent piece), so that `undomove` restores the
    board. Every legal move is applicable, so the guard refuses only moves
    that no generator yields. */
module BoardGame {
  import opened Coords
  import opened Wrappers
  import opened SetBoard
  import opened Search

  /** `move`, refused when it is not applicable. */
  function BoardApply(b: Board, p: int, m: Move): (res: Option<Board>)
    ensures res.Some? <==> Applicable(b, p, m)
    ensures res.Some? ==> res == ApplyMove(b, p, m)
  {
    if Applicable(b, p, m) then ApplyMove(b, p, m) else None
  }

  /** A game whose moves are made with `BoardApply` and undone with
      `UndoMove` meets the round trip the search relies on. */
  lemma BoardGameRoundTrip(g: Game<Board>)
    requires forall b, p, m :: g.apply(b, p, m) == BoardApply(b, p, m)
    requires forall b, p, m :: g.undo(b, p, m) == UndoMove(b, p, m)
    ensures RoundTrip(g)
  {
    forall b, p, m | g.apply(b, p, m).Some?
      ensures g.undo(g.apply(b, p, m).value, p, m) == Some(b)
    {
      MoveUndoRoundTrip(b, p, m);
    }
  }

  /** Every legal move of a consistent board is made, keeps the board
      consistent, and is undone. */
  lemma LegalMovesApply(r: Rules, b: Board, p: int, m: Move)
    requires ValidPlayer(p) && WellFormed(r) && Consistent(b)
    requires m in Legal(r, b, p)
    ensures BoardApply(b, p, m).Some? && Consistent(BoardApply(b, p, m).value)
    ensures UndoMove(BoardApply(b, p, m).value, p, m) == Some(b)
  {
    LegalMoveValid(r, b, p, m);
    LegalMoveRoundTrip(r, b, p, m);
  }
}

=== FILE: coords.dfy ===
/** Squares, moves and players of a 9x9 Fianco board (board.py, chessboard.py). */
module Coords {

  /** Side of the board: the number of rows and of columns. */
  const BoardSize: int := 9

  /** Player ids: WHITE starts on row 0 and moves towards higher rows. */
  const White: int := 1
  const Black: int := 2

  /** A board coordinate `(y, x)`: row first, then column. */
  datatype Square = Square(row: int, col: int)

  /** A move `(y1, x1, y2, x2)`: from-square then to-square. */
  datatype Move = Move(y1: int, x1: int, y2: int, x2: int) {
    function From(): Square { Square(y1, x1) }
    function To(): Square { Square(y2, x2) }
  }

  function Abs(n: int): nat { if n < 0 then -n else n }

  /** The side that moves after `p`: Python's `p ^ 3` and `3 - p` agree on {1, 2}. */
  function Opponent(p: int): (q: int)
    ensures p == White ==> q == Black
    ensures p == Black ==> q == White
    ensures 3 - q == p
  {
    3 - p
  }

  predicate OnBoard(s: Square) {
    0 <= s.row < BoardSize && 0 <= s.col < BoardSize
  }

  /** `add_tuples`: component-wise sum of two pairs. */
  function AddTuples(a: Square, b: Square): (r: Square)
    ensures SubTuples(r, b) == a
    ensures SubTuples(r, a) == b
  {
    Square(a.row + b.row, a.col + b.col)
  }

  /** Component-wise difference, the inverse of `AddTuples`. */
  function SubTuples(a: Square, b: Square): Square {
    Square(a.row - b.row, a.col - b.col)
  }

  /** A move is a capture exactly when it changes the row by two. */
  predicate IsJump(m: Move) {
    Abs(m.y1 - m.y2) == 2
  }

  /** The square jumped over, `((y1 + y2) // 2, (x1 + x2) // 2)`. Python's `//`
      floors; Dafny's `/` by a positive divisor floors as well. */
  function Mid(m: Move): (s: Square)
    ensures IsJump(m) ==> s.row != m.y1 && s.row != m.y2
  {
    Square((m.y1 + m.y2) / 2, (m.x1 + m.x2) / 2)
  }

  /** Every coordinate fits the 4 bits a packed move allots it. */
  predicate Nibbles(m: Move) {
    0 <= m.y1 < 16 && 0 <= m.x1 < 16 && 0 <= m.y2 < 16 && 0 <= m.x2 < 16
  }

  /** No square occurs twice. */
  predicate Distinct(order: seq<Square>) {
    forall i, j :: 0 <= i < j < |order| ==> order[i] != order[j]
  }

  /** The 81 squares in row-major order. */
  function BoardOrder(): seq<Square> {
    seq(81, k => Square(k / 9, k % 9))
  }

  lemma BoardOrderComplete(s: Square)
    ensures s in BoardOrder() <==> OnBoard(s)
  {
    if OnBoard(s) {
      assert BoardOrder()[s.row * 9 + s.col] == s;
    }
  }

  lemma BoardOrderDistinct()
    ensures Distinct(BoardOrder())
  {
  }
}

=== FILE: ctable.dfy ===
/** transposition_table.c: a global, zero-initialised array of
    `TABLE_SIZE` entries, a `store` that overwrites one entry's eight fields
    and a `retrieve` that returns the entry when its hash matches. */
module CTable {
  import opened Wrappers

  newtype U8 = x: int | 0 <= x < 0x100
  newtype U64 = x: int | 0 <= x < 0x1_0000_0000_0000_0000

  /** `ENTRY_SIZE` and `TABLE_SIZE` (512 MiB of 32-byte entries). */
  const EntrySize: nat := 32
  const TableSize: nat := 512 * 1024 * 1024 / EntrySize

  /** `TranspositionEntry`. */
  datatype Entry = Entry(hash: U64, startRow: U8, startCol: U8, endRow: U8, endCol: U8,
                         flag: U8, score: U8, depth: U8)

  const ZeroEntry: Entry := Entry(0, 0, 0, 0, 0, 0, 0, 0)

  /** The array, with every index not yet stored to still all zero bits. */
  type Table = map<nat, Entry>

  function At(t: Table, index: nat): Entry {
    if index in t then t[index] else ZeroEntry
  }

  /** `store`: writes all eight fields of entry `index`. C does no bounds
      check, so an index inside the array is the caller's obligation. */
  function Store(t: Table, index: nat, hash: U64, startRow: U8, startCol: U8, endRow: U8,
                 endCol: U8, flag: U8, score: U8, depth: U8): (r: Table)
    requires index < TableSize
    ensures At(r, index).hash == hash && At(r, index).depth == depth
    ensures At(r, index).startRow == startRow && At(r, index).startCol == startCol
    ensures At(r, index).endRow == endRow && At(r, index).endCol == endCol
    ensures At(r, index).flag == flag && At(r, index).score == score
    ensures forall j :: j != index ==> At(r, j) == At(t, j)
  {
    t[index := Entry(hash, startRow, startCol, endRow, endCol, flag, score, depth)]
  }

  /** `retrieve`: the entry at `index` if its stored hash equals `hash`,
      NULL (None) otherwise. */
  function Retrieve(t: Table, index: nat, hash: U64): (r: Option<Entry>)
    requires index < TableSize
    ensures r.Some? <==> At(t, index).hash == hash
    ensures r.Some? ==> r.value == At(t, index)
  {
    var entry := At(t, index);
    if entry.hash == hash then Some(entry) else None
  }

  /** Store then retrieve at the same index with the same hash returns
      exactly the stored fields. */
  lemma StoreThenRetrieve(t: Table, index: nat, hash: U64, startRow: U8, startCol: U8,
                          endRow: U8, endCol: U8, flag: U8, score: U8, depth: U8)
    requires index < TableSize
    ensures Retrieve(Store(t, index, hash, startRow, startCol, endRow, endCol, flag, score, depth),
                     index, hash)
         == Some(Entry(hash, startRow, startCol, endRow, endCol, flag, score, depth))
  {
  }

  /** A store at one index changes no retrieval at any other index. */
  lemma StoreKeepsOtherIndices(t: Table, index: nat, hash: U64, startRow: U8, startCol: U8,
                               endRow: U8, endCol: U8, flag: U8, score: U8, depth: U8,
                               other: nat, query: U64)
    requires index < TableSize && other < TableSize && other != index
    ensures Retrieve(Store(t, index, hash, startRow, startCol, endRow, endCol, flag, score, depth),
                     other, query)
         == Retrieve(t, other, query)
  {
  }

  /** The zero-initialised table answers a query for hash 0 at any index
      with an all-zero entry, although nothing was stored there. */
  lemma FreshRetrieveZero(index: nat)
    requires index < TableSize
    ensures Retrieve(map[], index, 0) == Some(ZeroEntry)
    ensures TableSize == 16777216
  {
  }
}

=== FILE: engine.dfy ===
/** engine.py: the static evaluation of a set-of-coordinates position and
    the move choice of `negamax_root`. (Its `retrieve_tt` is `TagRetrieve`
    in the TTable module.) */
module Engine {
  import opened Coords
  import opened Wrappers
  import opened SetBoard
  import opened Best

  // ---------------------------------------------------------------------------
  // evaluation_function (engine.py:28-50)
  // ---------------------------------------------------------------------------

  /** The sum of `f` over the squares of `order` that hold a piece of
      `pieces`; over `BoardOrder()` this is the sum over the on-board pieces,
      each counted once. */
  function SumOver(pieces: set<Square>, f: Square -> int, order: seq<Square>): int
    decreases |order|
  {
    if order == [] then 0
    else
      var last := order[|order| - 1];
      SumOver(pieces, f, order[..|order| - 1]) + (if last in pieces then f(last) else 0)
  }

  /** The per-piece terms: a piece's row, its distance from row 8, and their
      squares. */
  function Row(s: Square): int { s.row }
  function RowSquared(s: Square): int { s.row * s.row }
  function Distance(s: Square): int { 8 - s.row }
  function DistanceSquared(s: Square): int { (8 - s.row) * (8 - s.row) }

  /** WHITE's view: 5 per piece of material ahead, the square of each white
      piece's row, minus each black piece's distance from row 8. */
  function WhiteScore(b: Board): int {
    (|b.white| - |b.black|) * 5
    + SumOver(b.white, RowSquared, BoardOrder())
    - SumOver(b.black, Distance, BoardOrder())
  }

  /** BLACK's view, mirrored: the square of each black piece's distance from
      row 8, minus each white piece's row. */
  function BlackScore(b: Board): int {
    (|b.black| - |b.white|) * 5
    + SumOver(b.black, DistanceSquared, BoardOrder())
    - SumOver(b.white, Row, BoardOrder())
  }

  /** `evaluation_function(board, player)`: +10000 when `player` has won,
      -10000 when `3 - player` has, otherwise the side's score; any id other
      than WHITE gets BLACK's score, as the source's `else` does. */
  function Evaluation(r: Rules, b: Board, player: int): int {
    var winner := CheckWin(r, b);
    if winner == player then 10000
    else if winner == 3 - player then -10000
    else if player == White then WhiteScore(b)
    else BlackScore(b)
  }

  /** A sum of terms each between 0 and `c` lies between 0 and `c` times the
      number of squares summed over. */
  lemma {:induction false} SumOverBounds(pieces: set<Square>, f: Square -> int, order: seq<Square>, c: int)
    requires forall i :: 0 <= i < |order| ==> 0 <= f(order[i]) <= c
    ensures 0 <= SumOver(pieces, f, order) <= c * |order|
    decreases |order|
  {
    if order != [] {
      var n := |order| - 1;
      SumOverBounds(pieces, f, order[..n], c);
      assert c * |order| == c * n + c;
    }
  }

  /** Adding a piece on a square of a repetition-free order adds its term. */
  lemma {:induction false} SumOverAdd(pieces: set<Square>, f: Square -> int, order: seq<Square>, s: Square)
    requires Distinct(order) && s !in pieces
    ensures SumOver(pieces + {s}, f, order) == SumOver(pieces, f, order) + (if s in order then f(s) else 0)
    decreases |order|
  {
    if order != [] {
      var prefix := order[..|order| - 1];
      assert Distinct(prefix);
      SumOverAdd(pieces, f, prefix, s);
      if order[|order| - 1] == s {
        assert s !in prefix;
      } else {
        assert s in order <==> s in prefix;
      }
    }
  }

  /** The squares of a sequence number at most its length. */
  lemma {:induction false} ElementsCount(order: seq<Square>)
    ensures |set s | s in order| <= |order|
    decreases |order|
  {
    if order != [] {
      var prefix := order[..|order| - 1];
      ElementsCount(prefix);
      assert (set s | s in order) == (set s | s in prefix) + {order[|order| - 1]};
    }
  }

  /** Pieces on the board number at most 81. */
  lemma OnBoardCount(pieces: set<Square>)
    requires forall s :: s in pieces ==> OnBoard(s)
    ensures |pieces| <= 81
  {
    var all := set s | s in BoardOrder();
    forall s | s in pieces ensures s in all {
      BoardOrderComplete(s);
    }
    ElementsCount(BoardOrder());
    assert all == pieces + (all - pieces);
  }

  /** Without a winner, both scores of a consistent board stay strictly
      between -10000 and 10000. */
  lemma ScoresBounded(b: Board)
    requires Consistent(b)
    ensures -10000 < WhiteScore(b) < 10000
    ensures -10000 < BlackScore(b) < 10000
  {
    OnBoardCount(b.white);
    OnBoardCount(b.black);
    var order := BoardOrder();
    forall i | 0 <= i < |order| ensures 0 <= order[i].row <= 8 {
      BoardOrderComplete(order[i]);
    }
    SumOverBounds(b.white, RowSquared, order, 64);
    SumOverBounds(b.black, Distance, order, 8);
    SumOverBounds(b.black, DistanceSquared, order, 64);
    SumOverBounds(b.white, Row, order, 8);
  }

  /** On a consistent board the evaluation is +10000 exactly when `player`
      has won and -10000 exactly when the opponent has; without a winner it
      lies strictly between. */
  lemma EvaluationWinLoss(r: Rules, b: Board, player: int)
    requires Consistent(b) && ValidPlayer(player)
    ensures Evaluation(r, b, player) == 10000 <==> CheckWin(r, b) == player
    ensures Evaluation(r, b, player) == -10000 <==> CheckWin(r, b) == Opponent(player)
    ensures CheckWin(r, b) == 0 ==> -10000 < Evaluation(r, b, player) < 10000
  {
    ScoresBounded(b);
  }

  /** One more white piece on row `y`, with no winner before or after, raises
      WHITE's evaluation by `5 + y*y` and lowers BLACK's by `5 + y`. */
  lemma EvaluationAddWhite(r: Rules, b: Board, s: Square)
    requires Consistent(b) && OnBoard(s) && s !in b.white && s !in b.black
    requires CheckWin(r, b) == 0
    requires CheckWin(r, Board(b.white + {s}, b.black, b.player)) == 0
    ensures Evaluation(r, Board(b.white + {s}, b.black, b.player), White)
         == Evaluation(r, b, White) + 5 + s.row * s.row
    ensures Evaluation(r, Board(b.white + {s}, b.black, b.player), Black)
         == Evaluation(r, b, Black) - 5 - s.row
  {
    BoardOrderDistinct();
    BoardOrderComplete(s);
    SumOverAdd(b.white, RowSquared, BoardOrder(), s);
    SumOverAdd(b.white, Row, BoardOrder(), s);
  }

  // ---------------------------------------------------------------------------
  // negamax_root (engine.py:52-76)
  // ---------------------------------------------------------------------------

  /** `sys.maxsize` on a 64-bit interpreter. */
  const MaxSize: int := 0x7FFF_FFFF_FFFF_FFFF

  function Max(a: int, b: int): int { if a < b then b else a }

  /** The root's alpha after the values `vs`: raised to the best value once
      some value has beaten `-sys.maxsize`, untouched before. */
  function RootAlpha(alpha0: int, vs: seq<int>): int {
    if Peak(-MaxSize, vs) > -MaxSize then Max(alpha0, Peak(-MaxSize, vs)) else alpha0
  }

  /** Each value is the search of its move under the alpha the earlier
      values produced. */
  predicate Trace(moves: seq<Move>, search: (Move, int, int) -> int, alpha0: int, beta: int, vs: seq<int>) {
    |vs| <= |moves|
    && forall k :: 0 <= k < |vs| ==> vs[k] == search(moves[k], RootAlpha(alpha0, vs[..k]), beta)
  }

  /** No cut-off happened before the last value. */
  predicate Continued(alpha0: int, beta: int, vs: seq<int>) {
    forall k :: 1 <= k < |vs| ==> RootAlpha(alpha0, vs[..k]) < beta
  }

  /** One more searched move extends the trace, the peak, the first best
      index and the alpha as the loop body does. */
  lemma RootStep(moves: seq<Move>, search: (Move, int, int) -> int, alpha0: int, beta: int, vs: seq<int>, v: int)
    requires Trace(moves, search, alpha0, beta, vs) && |vs| < |moves|
    requires v == search(moves[|vs|], RootAlpha(alpha0, vs), beta)
    requires Continued(alpha0, beta, vs) && (vs != [] ==> RootAlpha(alpha0, vs) < beta)
    ensures Trace(moves, search, alpha0, beta, vs + [v]) && Continued(alpha0, beta, vs + [v])
    ensures Peak(-MaxSize, vs + [v]) == Max(Peak(-MaxSize, vs), v)
    ensures FirstBest(-MaxSize, vs + [v]) == if v > Peak(-MaxSize, vs) then |vs| else FirstBest(-MaxSize, vs)
    ensures RootAlpha(alpha0, vs + [v])
         == if v > Peak(-MaxSize, vs) then Max(RootAlpha(alpha0, vs), v) else RootAlpha(alpha0, vs)
  {
    var next := vs + [v];
    assert next[..|vs|] == vs;
    assert forall k :: 0 <= k <= |vs| ==> next[..k] == vs[..k];
    PeakSnoc(-MaxSize, vs, v);
    PeakBounds(-MaxSize, vs);
  }

  /** `negamax_root`: each move in order is searched (`search(m, alpha, beta)`
      stands for making `m`, the negated child search with window
      `(-beta, -alpha)`, and the undo); the move kept is the one at
      `FirstBest` of the values seen; alpha rises only on an improvement; the
      loop stops once alpha reaches beta. `values` is the list the source
      logs. */
  method NegamaxRoot(moves: seq<Move>, search: (Move, int, int) -> int, alpha0: int, beta: int)
    returns (best: Option<Move>, values: seq<int>)
    ensures Trace(moves, search, alpha0, beta, values)
    ensures |values| < |moves| ==> values != [] && RootAlpha(alpha0, values) >= beta
    ensures Continued(alpha0, beta, values)
    ensures best == BestMove(-MaxSize, moves, values)
  {
    var alpha := alpha0;
    var bestValue := -MaxSize;
    best := None;
    values := [];
    while |values| < |moves|
      invariant Trace(moves, search, alpha0, beta, values) && Continued(alpha0, beta, values)
      invariant bestValue == Peak(-MaxSize, values) && alpha == RootAlpha(alpha0, values)
      invariant values != [] ==> alpha < beta
      invariant best == BestMove(-MaxSize, moves, values)
    {
      var value := search(moves[|values|], alpha, beta);
      RootStep(moves, search, alpha0, beta, values, value);
      if value > bestValue {
        bestValue := value;
        best := Some(moves[|values|]);
        alpha := Max(alpha, value);
      }
      values := values + [value];
      if alpha >= beta {
        break;
      }
    }
  }
}

=== FILE: improved.dfy ===
/** The search of improvedengine.py: negamax with the same TT probe and
    window tightening as quiescentengine.py, but with the static evaluation
    at depth 0, the stored move searched first whenever an entry exists, and
    a move loop that stores a fail-high without stopping; and an
    iterative-deepening root over depths 2 to `max_depth` whose alpha is
    never reset. State threading and exceptions are as in the Search
    module. */
module Improved {
  import opened Coords
  import opened Wrappers
  import opened Bits
  import opened TTPack
  import opened TTable
  import opened Search
  import opened Best

  /** The moves of `moves` other than `skip`, in order. */
  function Without(moves: seq<Move>, skip: Option<Move>): (r: seq<Move>)
    ensures forall m :: m in r <==> m in moves && Some(m) != skip
    ensures |r| <= |moves|
  {
    if moves == [] then []
    else (if Some(moves[0]) == skip then [] else [moves[0]]) + Without(moves[1..], skip)
  }

  /** Make `m` for `player`, toggle the side, search the child at one ply
      less with the negated window and the hash updated for the new side to
      move, toggle back, undo `m` for `player`. `Search.MoveNegamax` has the
      same shape over the other engine's `Negamax`; each is mutually
      recursive with its own search. */
  function Child<P(!new)>(g: Game<P>, prm: Params, s: State<P>, player: int, m: Move, depth: nat,
                          alpha: int, beta: int, z: Bits)
    : (r: Option<(int, State<P>)>)
    requires GameOk(g) && Valid(s) && depth > 0
    ensures r.Some? ==> Restored(s, r.value.1)
    decreases depth, 0, 0
  {
    var p1 :- g.apply(s.pos, player, m);
    var s1 := s.(pos := p1, turn := 3 - s.turn);
    var child :- Negamax(g, prm, s1, depth - 1, -beta, -alpha, g.rehash(z, s1.turn, m));
    var s2 := child.1.(turn := 3 - child.1.turn);
    var p3 := g.undo(s2.pos, player, m);
    if p3.None? then None else Some((-child.0, s2.(pos := p3.value)))
  }

  /** True when the probe alone decides `negamax`: a usable exact entry, or
      a usable bound that closes the tightened window. */
  predicate ProbeDecides(prm: Params, e: Option<Entry>, depth: nat, alpha: int, beta: int) {
    var w := Tighten(prm, e, depth, alpha, beta);
    e.Some? && e.value.depth >= depth && (e.value.flag == prm.flags.exact || w.0 >= w.1)
  }

  /** `negamax` of improvedengine.py. */
  function Negamax<P(!new)>(g: Game<P>, prm: Params, s: State<P>, depth: nat, alpha: int, beta: int, z: Bits)
    : (r: Option<(int, State<P>)>)
    requires GameOk(g) && Valid(s)
    ensures r.Some? ==> Restored(s, r.value.1)
    ensures ProbeDecides(prm, Probe(prm, s, z), depth, alpha, beta) ==> r == Some((Probe(prm, s, z).value.value, s))
    ensures !ProbeDecides(prm, Probe(prm, s, z), depth, alpha, beta) && depth == 0
            ==> r == Some((g.eval(s.pos, s.turn), s))
    ensures var e := Probe(prm, s, z);
      var w := Tighten(prm, e, depth, alpha, beta);
      !ProbeDecides(prm, e, depth, alpha, beta) && depth > 0 && e.Some? && r.Some? ==>
        var c := Child(g, prm, s, s.turn, e.value.move, depth, w.0, w.1, z);
        c.Some?
        && (c.value.0 >= w.1 ==>
              r.value.0 == c.value.0
              && Retrieve(r.value.1.tt, z)
                 == Pack(Entry(depth, BoundFlag(prm.flags, c.value.0, alpha, w.1), c.value.0, e.value.move)))
    decreases depth, 2, 0
  {
    var olda := alpha;
    var e := Probe(prm, s, z);
    var w := Tighten(prm, e, depth, alpha, beta);
    if ProbeDecides(prm, e, depth, alpha, beta) then Some((e.value.value, s))
    else if depth == 0 then Some((g.eval(s.pos, s.turn), s))
    else if e.Some? then
      var ttmove := e.value.move;
      var first :- Child(g, prm, s, s.turn, ttmove, depth, w.0, w.1, z);
      if first.0 >= w.1 then
        var s2 :- StoreIn(prm, first.1, z, depth, first.0, ttmove, olda, w.1);
        Some((first.0, s2))
      else
        var s1 := first.1;
        var rest :- Loop(g, prm, s1, g.moves(s1.pos, s1.turn), 0, Some(ttmove), depth, w.0, w.1, z, olda,
                         -1000000);
        Some((rest.0, rest.1))
    else
      var rest :- Loop(g, prm, s, g.moves(s.pos, s.turn), 0, None, depth, w.0, w.1, z, olda, -1000000);
      Some((rest.0, rest.1))
  }

  /** The move loop: every move but the stored one is searched with the
      same window; a strictly better value becomes the best, and one
      reaching beta is stored, without leaving the loop. The third result
      lists the moves searched. */
  function Loop<P(!new)>(g: Game<P>, prm: Params, s: State<P>, moves: seq<Move>, i: nat,
                         ttmove: Option<Move>, depth: nat, alpha: int, beta: int, z: Bits, olda: int,
                         best: int)
    : (r: Option<(int, State<P>, seq<Move>)>)
    requires GameOk(g) && Valid(s) && depth > 0 && i <= |moves|
    requires forall m :: m in moves ==> NonNegative(m)
    ensures r.Some? ==> Restored(s, r.value.1)
    ensures r.Some? ==> r.value.2 == Without(moves[i..], ttmove)
    ensures r.Some? ==> best <= r.value.0
    decreases depth, 1, |moves| - i
  {
    if i == |moves| then Some((best, s, []))
    else
      var m := moves[i];
      assert moves[i..] == [m] + moves[i + 1..];
      if ttmove == Some(m) then
        Loop(g, prm, s, moves, i + 1, ttmove, depth, alpha, beta, z, olda, best)
      else
        var child :- Child(g, prm, s, s.turn, m, depth, alpha, beta, z);
        var s1 :- if child.0 > best && child.0 >= beta then
                    StoreIn(prm, child.1, z, depth, child.0, m, olda, beta)
                  else Some(child.1);
        var rest :- Loop(g, prm, s1, moves, i + 1, ttmove, depth, alpha, beta, z, olda,
                         if child.0 > best then child.0 else best);
        Some((rest.0, rest.1, [m] + rest.2))
  }

  /** A searched move whose value improves on the best and reaches beta is
      stored before the loop goes on: the loop fails exactly when the store
      does, the entry under the node's hash is then that move with its value
      and bound, the loop continues from the state the store leaves, and
      when it was the last move that entry is still there at the end. */
  lemma LoopFailHighStores<P(!new)>(g: Game<P>, prm: Params, s: State<P>, moves: seq<Move>, i: nat,
                                    ttmove: Option<Move>, depth: nat, alpha: int, beta: int, z: Bits,
                                    olda: int, best: int)
    requires GameOk(g) && Valid(s) && depth > 0 && i < |moves|
    requires forall m :: m in moves ==> NonNegative(m)
    requires ttmove != Some(moves[i])
    requires var c := Child(g, prm, s, s.turn, moves[i], depth, alpha, beta, z);
      c.Some? && c.value.0 > best && c.value.0 >= beta
    ensures var c := Child(g, prm, s, s.turn, moves[i], depth, alpha, beta, z).value;
      var st := StoreIn(prm, c.1, z, depth, c.0, moves[i], olda, beta);
      var r := Loop(g, prm, s, moves, i, ttmove, depth, alpha, beta, z, olda, best);
      && (st.None? ==> r.None?)
      && (st.Some? ==>
            Retrieve(st.value.tt, z) == Pack(Entry(depth, BoundFlag(prm.flags, c.0, olda, beta), c.0, moves[i]))
            && (r.Some? <==> Loop(g, prm, st.value, moves, i + 1, ttmove, depth, alpha, beta, z, olda, c.0).Some?)
            && (r.Some? ==>
                  r.value.0 == Loop(g, prm, st.value, moves, i + 1, ttmove, depth, alpha, beta, z, olda, c.0).value.0))
      && (i + 1 == |moves| && r.Some? ==>
            r.value.0 == c.0
            && Retrieve(r.value.1.tt, z) == Pack(Entry(depth, BoundFlag(prm.flags, c.0, olda, beta), c.0, moves[i])))
  {
    var c := Child(g, prm, s, s.turn, moves[i], depth, alpha, beta, z).value;
    var st := StoreIn(prm, c.1, z, depth, c.0, moves[i], olda, beta);
    if st.Some? && i + 1 == |moves| {
      assert Loop(g, prm, st.value, moves, i + 1, ttmove, depth, alpha, beta, z, olda, c.0)
          == Some((c.0, st.value, []));
    }
  }

  /** When the stored move is the only move and does not fail high, its
      value is dropped: `best_value` is reset to -1000000 after it, and the
      loop has nothing else to search. */
  lemma {:induction false} TTMoveValueDropped<P(!new)>(g: Game<P>, prm: Params, s: State<P>, depth: nat,
                                                        alpha: int, beta: int, z: Bits)
    requires GameOk(g) && Valid(s) && depth > 0
    requires Probe(prm, s, z).Some? && !ProbeDecides(prm, Probe(prm, s, z), depth, alpha, beta)
    requires g.moves(s.pos, s.turn) == [Probe(prm, s, z).value.move]
    requires var w := Tighten(prm, Probe(prm, s, z), depth, alpha, beta);
      var c := Child(g, prm, s, s.turn, Probe(prm, s, z).value.move, depth, w.0, w.1, z);
      c.Some? && c.value.0 < w.1
    ensures Negamax(g, prm, s, depth, alpha, beta, z).Some?
    ensures Negamax(g, prm, s, depth, alpha, beta, z).value.0 == -1000000
  {
    var e := Probe(prm, s, z);
    var w := Tighten(prm, e, depth, alpha, beta);
    var c := Child(g, prm, s, s.turn, e.value.move, depth, w.0, w.1, z);
    var s1 := c.value.1;
    assert g.moves(s1.pos, s1.turn) == [e.value.move];
    var moves := g.moves(s1.pos, s1.turn);
    assert Loop(g, prm, s1, moves, 1, Some(e.value.move), depth, w.0, w.1, z, alpha, -1000000)
        == Some((-1000000, s1, []));
  }

  /** The searches of one root depth: `states[k]` is the state in which the
      k-th move is searched, with alpha raised to every earlier value, and
      `states[k + 1]` the state that search leaves. */
  ghost predicate RootTrace<P(!new)>(g: Game<P>, prm: Params, player: int, z: Bits, depth: nat,
                                     moves: seq<Move>, alpha: int, beta: int,
                                     states: seq<State<P>>, values: seq<int>) {
    GameOk(g) && depth > 0
    && |states| == |values| + 1 && |values| <= |moves|
    && (forall k :: 0 <= k < |states| ==> Valid(states[k]))
    && forall k :: 0 <= k < |values| ==>
         Child(g, prm, states[k], player, moves[k], depth, Peak(alpha, values[..k]), beta, z)
         == Some((values[k], states[k + 1]))
  }

  /** One more search extends the trace. */
  lemma TraceStep<P(!new)>(g: Game<P>, prm: Params, player: int, z: Bits, depth: nat,
                           moves: seq<Move>, alpha: int, beta: int,
                           states: seq<State<P>>, values: seq<int>, v: int, s2: State<P>)
    requires RootTrace(g, prm, player, z, depth, moves, alpha, beta, states, values) && |values| < |moves|
    requires Child(g, prm, states[|values|], player, moves[|values|], depth, Peak(alpha, values), beta, z)
             == Some((v, s2))
    ensures RootTrace(g, prm, player, z, depth, moves, alpha, beta, states + [s2], values + [v])
  {
    var vs := values + [v];
    assert vs[..|values|] == values;
    assert forall k :: 0 <= k < |values| ==> vs[..k] == values[..k];
  }

  /** The variables of one depth after some of its moves: the state, alpha,
      the best move and value so far, and the values and states of the
      searches made. */
  datatype Progress<P> = Progress(s2: State<P>, alpha: int, best: Option<Move>, bestValue: int,
                                  values: seq<int>, states: seq<State<P>>)

  /** What holds after the first `|pr.values|` moves of a depth: they are
      traced from `s`, alpha is the initial alpha raised to each value, and
      the best value and move are those above -100000. */
  ghost predicate DepthInv<P(!new)>(g: Game<P>, prm: Params, player: int, z: Bits, depth: nat,
                                    moves: seq<Move>, alpha: int, beta: int, s: State<P>, pr: Progress<P>) {
    |pr.values| <= |moves| && |pr.states| == |pr.values| + 1
    && pr.states[0] == s && pr.s2 == pr.states[|pr.values|]
    && Restored(s, pr.s2) && Valid(pr.s2)
    && RootTrace(g, prm, player, z, depth, moves, alpha, beta, pr.states, pr.values)
    && alpha <= pr.alpha == Peak(alpha, pr.values)
    && pr.bestValue == Peak(-100000, pr.values)
    && pr.best == BestMove(-100000, moves, pr.values)
    && NoCutBefore(alpha, beta, pr.values)
  }

  /** The next move of a depth: make it, search it in the current window,
      keep it when its value beats the best one, raise alpha to the value.
      `ok` is false when the search raised. */
  method Visit<P(!new)>(g: Game<P>, prm: Params, player: int, z: Bits, depth: nat,
                        moves: seq<Move>, alpha: int, beta: int, s: State<P>, pr: Progress<P>)
    returns (ok: bool, pr2: Progress<P>)
    requires GameOk(g) && depth > 0 && |pr.values| < |moves|
    requires DepthInv(g, prm, player, z, depth, moves, alpha, beta, s, pr)
    requires pr.values != [] ==> pr.alpha < beta
    ensures ok ==> DepthInv(g, prm, player, z, depth, moves, alpha, beta, s, pr2)
    ensures ok ==> |pr2.values| == |pr.values| + 1
  {
    var m := moves[|pr.values|];
    var child := Child(g, prm, pr.s2, player, m, depth, pr.alpha, beta, z);
    if child.None? {
      return false, pr;
    }
    var value := child.value.0;
    TraceStep(g, prm, player, z, depth, moves, alpha, beta, pr.states, pr.values, value, child.value.1);
    PeakSnoc(alpha, pr.values, value);
    PeakSnoc(-100000, pr.values, value);
    FirstBestSnoc(-100000, pr.values, value);
    NoCutBeforeSnoc(alpha, beta, pr.values, value);
    var bestValue, best := pr.bestValue, pr.best;
    if value > bestValue {
      bestValue, best := value, Some(m);
    }
    ok := true;
    pr2 := Progress(child.value.1, Max(pr.alpha, value), best, bestValue, pr.values + [value],
                    pr.states + [child.value.1]);
  }

  /** One depth of the root: `best_value` starts at -100000; each move is
      made for the engine's player and searched with the current window;
      alpha rises to every value and the depth stops once alpha reaches
      beta. `values` are the values of the moves searched, each under the
      alpha the earlier ones produced, and the depth's best move is the
      first of greatest value above -100000. */
  method RootDepth<P(!new)>(g: Game<P>, prm: Params, s: State<P>, player: int, z: Bits, depth: nat,
                            moves: seq<Move>, alpha: int, beta: int)
    returns (ok: bool, s2: State<P>, alpha2: int, currentBest: Option<Move>, count: nat, values: seq<int>,
             ghost states: seq<State<P>>)
    requires GameOk(g) && Valid(s) && depth > 0
    ensures ok ==> Restored(s, s2)
    ensures alpha <= alpha2
    ensures count <= |moves|
    ensures alpha >= beta ==> count <= 1
    ensures ok && count < |moves| ==> alpha2 >= beta
    ensures currentBest.Some? ==> currentBest.value in moves
    ensures ok ==> |values| == count && |states| == count + 1 && states[0] == s && s2 == states[count]
    ensures ok ==> RootTrace(g, prm, player, z, depth, moves, alpha, beta, states, values)
    ensures ok ==> alpha2 == Peak(alpha, values) && NoCutBefore(alpha, beta, values)
    ensures ok ==> currentBest == BestMove(-100000, moves, values)
  {
    var pr := Progress(s, alpha, None, -100000, [], [s]);
    while |pr.values| < |moves|
      invariant DepthInv(g, prm, player, z, depth, moves, alpha, beta, s, pr)
      invariant pr.values != [] ==> pr.alpha < beta
    {
      var searched, pr2 := Visit(g, prm, player, z, depth, moves, alpha, beta, s, pr);
      if !searched {
        return false, pr.s2, pr.alpha, pr.best, |pr.values|, pr.values, pr.states;
      }
      pr := pr2;
      if pr.alpha >= beta {
        break;
      }
    }
    return true, pr.s2, pr.alpha, pr.best, |pr.values|, pr.values, pr.states;
  }

  /** The initial alpha followed by the alpha after each depth never
      decreases. */
  predicate Narrows(alpha: int, alphas: seq<int>) {
    forall d, e :: 0 <= d < e <= |alphas| ==> ([alpha] + alphas)[d] <= ([alpha] + alphas)[e]
  }

  /** A depth that starts with alpha at or above beta searches at most one
      move; no depth searches more than `n`. */
  predicate OneAfterCutoff(beta: int, alphas: seq<int>, counts: seq<nat>, n: nat) {
    |alphas| == |counts|
    && (forall d :: 1 <= d < |counts| && alphas[d - 1] >= beta ==> counts[d] <= 1)
    && (forall d :: 0 <= d < |counts| ==> counts[d] <= n)
  }

  /** Appending one depth's record keeps both predicates. */
  lemma RecordDepth(alpha: int, beta: int, alphas: seq<int>, counts: seq<nat>, n: nat, a2: int, count: nat)
    requires Narrows(alpha, alphas) && OneAfterCutoff(beta, alphas, counts, n)
    requires alpha <= a2 && (alphas != [] ==> alphas[|alphas| - 1] <= a2)
    requires alphas != [] && alphas[|alphas| - 1] >= beta ==> count <= 1
    requires count <= n
    ensures Narrows(alpha, alphas + [a2]) && OneAfterCutoff(beta, alphas + [a2], counts + [count], n)
  {
    var before := [alpha] + alphas;
    var after := [alpha] + (alphas + [a2]);
    assert after == before + [a2];
    forall d, e | 0 <= d < e <= |alphas| + 1
      ensures after[d] <= after[e]
    {
      if e <= |alphas| {
        assert after[d] == before[d] && after[e] == before[e];
      } else {
        assert after[d] == before[d] && after[e] == a2;
        if d < |alphas| {
          assert before[d] <= before[|alphas|];
        }
      }
    }
  }

  /** `negamax_iterative_deepening_root` of improvedengine.py: depths 2 to
      `max_depth` inclusive, each over the plain move list, with the best
      move of the last depth returned. `alphas` and `counts` record alpha
      after each depth and how many moves it searched: alpha never falls,
      and once it reaches beta every later depth searches at most the first
      move. */
  method Root<P(!new)>(g: Game<P>, prm: Params, s: State<P>, player: int, z: Bits, maxDepth: int,
                       alpha: int, beta: int)
    returns (ok: bool, best: Option<Move>, s2: State<P>, alphas: seq<int>, counts: seq<nat>)
    requires GameOk(g) && Valid(s)
    ensures ok ==> Restored(s, s2)
    ensures ok ==> |alphas| == (if maxDepth >= 2 then maxDepth - 1 else 0)
    ensures maxDepth < 2 ==> ok && best == None && s2 == s
    ensures Narrows(alpha, alphas)
    ensures OneAfterCutoff(beta, alphas, counts, |g.plainMoves(s.pos, player)|)
    ensures best.Some? ==> best.value in g.plainMoves(s.pos, player)
  {
    best, s2, alphas, counts := None, s, [], [];
    if maxDepth < 2 {
      return true, best, s2, alphas, counts;
    }
    var moves := g.plainMoves(s.pos, player);
    var a := alpha;
    var depth := 2;
    while depth <= maxDepth
      invariant 2 <= depth <= maxDepth + 1
      invariant |alphas| == depth - 2
      invariant Restored(s, s2) && Valid(s2)
      invariant alpha <= a && (alphas != [] ==> a == alphas[|alphas| - 1])
      invariant Narrows(alpha, alphas) && OneAfterCutoff(beta, alphas, counts, |moves|)
      invariant best.Some? ==> best.value in moves
    {
      var done, s3, a2, currentBest, count, _, _ := RootDepth(g, prm, s2, player, z, depth, moves, a, beta);
      RecordDepth(alpha, beta, alphas, counts, |moves|, a2, count);
      alphas, counts := alphas + [a2], counts + [count];
      if !done {
        return false, best, s3, alphas, counts;
      }
      s2, a, best := s3, a2, currentBest;
      depth := depth + 1;
    }
    ok := true;
  }

  /** The per-turn counters of the engine. */
  datatype Counters = Counters(turn: int, hits: nat, nodes: nat)

  /** `next_turn`: the turn advances by one and both counters restart. */
  function NextTurn(c: Counters): (r: Counters)
    ensures r.turn == c.turn + 1 && r.hits == 0 && r.nodes == 0
  {
    Counters(c.turn + 1, 0, 0)
  }
}

=== FILE: qroot.dfy ===
/** The iterative-deepening root of quiescentengine.py
    (`negamax_iterative_deepening_root`): the root moves become the keys of a
    dict of scores; each depth from 1 below `max_depth` searches them, at
    depth 1 in generation order and later by the previous depth's scores,
    descending. The wall clock is a pair of parameters answering the
    `timeup` checks made before each depth and after each searched move. */
module QuiescentRoot {
  import opened Coords
  import opened Wrappers
  import opened Bits
  import opened Sorting
  import opened Search
  import opened Best

  /** The keys of `{move: alpha for move in moves}`: each move once, in order
      of first occurrence. */
  function DictKeys(ms: seq<Move>): (r: seq<Move>)
    ensures forall m :: m in r <==> m in ms
    ensures forall i, j :: 0 <= i < j < |r| ==> r[i] != r[j]
    ensures ms != [] ==> r != [] && r[0] == ms[0]
  {
    if ms == [] then []
    else
      var rest := DictKeys(ms[..|ms| - 1]);
      assert ms == ms[..|ms| - 1] + [ms[|ms| - 1]];
      if ms[|ms| - 1] in rest then rest else rest + [ms[|ms| - 1]]
  }

  /** The sort key `item[1]`: a move's score in the dict. */
  function ByScore(scores: map<Move, int>): Move -> int {
    m => if m in scores then scores[m] else 0
  }

  /** How the root ended: with an exception, or by returning a move or
      `None`. */
  datatype RootOutcome = Raised | Returned(best: Option<Move>)

  /** `current_moves`: the dict's order at depth 1, later the items sorted
      by score, descending, with equal scores keeping dict order. */
  function RootOrder(depth: nat, keys: seq<Move>, scores: map<Move, int>): (current: seq<Move>)
    ensures depth <= 1 ==> current == keys
    ensures depth > 1 ==> SortedBy(ByScore(scores), true, current)
    ensures multiset(current) == multiset(keys)
    ensures forall m :: m in current <==> m in keys
  {
    var current := if depth <= 1 then keys else Sort(ByScore(scores), true, keys);
    assert forall m :: m in current <==> m in keys by {
      forall m ensures m in current <==> m in keys {
        assert m in current <==> m in multiset(current);
        assert m in keys <==> m in multiset(keys);
      }
    }
    current
  }

  /** The searches of one root depth: `states[k]` is the state in which the
      k-th ordered move is searched by `move_negamax`, with alpha raised to
      every earlier value (the best value so far, which starts at the
      initial alpha), and `states[k + 1]` the state that search leaves. */
  ghost predicate RootTrace<P(!new)>(g: Game<P>, prm: Params, player: int, z: Bits, depth: nat,
                                     current: seq<Move>, initA: int, initB: int,
                                     states: seq<State<P>>, values: seq<int>) {
    GameOk(g) && depth > 0
    && |states| == |values| + 1 && |values| <= |current|
    && (forall k :: 0 <= k < |states| ==> Valid(states[k]))
    && forall k :: 0 <= k < |values| ==>
         MoveNegamax(g, prm, states[k], player, current[k], depth, Peak(initA, values[..k]), initB, z)
         == Some((values[k], states[k + 1]))
  }

  /** The dict score of the k-th ordered move after a depth that searched
      the first `|values|` moves: a searched move scores its value unless
      the time was up after it (the cutoff move is not asked); a move not
      searched scores the initial alpha. */
  function ScoreAfter(k: nat, values: seq<int>, cut: nat, initA: int, timeUp: bool): int {
    if k < |values| && (k == cut || !timeUp) then values[k] else initA
  }

  /** No move appears twice. */
  predicate Distinct(ms: seq<Move>) {
    forall i, j :: 0 <= i < j < |ms| ==> ms[i] != ms[j]
  }

  /** The variables of one depth after some of its moves: the state, the
      dict of scores, the best move and value so far, the cutoff index
      (`|current|` while there is none), and the values and states of the
      searches made. */
  datatype Progress<P> = Progress(s2: State<P>, scores: map<Move, int>, best: Option<Move>, bestValue: int,
                                  cut: nat, values: seq<int>, states: seq<State<P>>)

  /** The searches after the first `i` ordered moves of a depth: the moves
      searched are those up to the cutoff, traced from `s`, and the best
      value and move are those of their values. */
  ghost predicate SearchInv<P(!new)>(g: Game<P>, prm: Params, player: int, z: Bits, depth: nat,
                                     current: seq<Move>, initA: int, initB: int, s: State<P>, i: nat,
                                     pr: Progress<P>) {
    i <= |current| && Restored(s, pr.s2) && Valid(pr.s2)
    && pr.cut <= |current| && (pr.cut < |current| ==> pr.cut < i)
    && |pr.values| == (if pr.cut < |current| then pr.cut + 1 else i)
    && |pr.states| == |pr.values| + 1 && pr.states[0] == s && pr.s2 == pr.states[|pr.values|]
    && RootTrace(g, prm, player, z, depth, current, initA, initB, pr.states, pr.values)
    && pr.bestValue == Peak(initA, pr.values)
    && (pr.cut < |current| <==> pr.values != [] && pr.bestValue >= initB)
    && NoCutBefore(initA, initB, pr.values)
    && pr.best == BestMove(initA, current, pr.values)
  }

  /** The dict after the first `i` ordered moves of a depth: it keeps its
      keys, holds every move visited, and a move after the cutoff scores
      the initial alpha; when no move repeats, each visited move scores
      `ScoreAfter`. */
  ghost predicate ScoresInv(current: seq<Move>, scores: map<Move, int>, initA: int, depth: nat,
                            moveTimeUp: (nat, nat) -> bool, i: nat, sc: map<Move, int>, values: seq<int>,
                            cut: nat) {
    i <= |current|
    && (forall k :: cut < k < i ==> current[k] in sc && sc[current[k]] == initA)
    && (forall m :: m in scores ==> m in sc)
    && (forall k :: 0 <= k < i ==> current[k] in sc)
    && (Distinct(current) ==> forall k :: 0 <= k < i ==>
          current[k] in sc && sc[current[k]] == ScoreAfter(k, values, cut, initA, moveTimeUp(depth, k)))
  }

  /** What holds after the first `i` ordered moves of a depth. */
  ghost predicate DepthInv<P(!new)>(g: Game<P>, prm: Params, player: int, z: Bits, depth: nat,
                                    current: seq<Move>, scores: map<Move, int>, initA: int, initB: int,
                                    moveTimeUp: (nat, nat) -> bool, s: State<P>, i: nat, pr: Progress<P>) {
    SearchInv(g, prm, player, z, depth, current, initA, initB, s, i, pr)
    && ScoresInv(current, scores, initA, depth, moveTimeUp, i, pr.scores, pr.values, pr.cut)
  }

  /** Searching the i-th move before any cutoff, once the trace is
      extended by its search, extends the searches: the best value and
      move, and the cutoff index move as the loop body does. */
  lemma SearchStep<P(!new)>(g: Game<P>, prm: Params, player: int, z: Bits, depth: nat,
                            current: seq<Move>, initA: int, initB: int, s: State<P>, i: nat,
                            pr: Progress<P>, v: int, s2: State<P>, sc: map<Move, int>)
    requires i < |current| && pr.cut == |current|
    requires SearchInv(g, prm, player, z, depth, current, initA, initB, s, i, pr)
    requires Restored(pr.s2, s2)
    requires RootTrace(g, prm, player, z, depth, current, initA, initB, pr.states + [s2], pr.values + [v])
    ensures var bestValue := if v > pr.bestValue then v else pr.bestValue;
      SearchInv(g, prm, player, z, depth, current, initA, initB, s, i + 1,
                Progress(s2, sc, if v > pr.bestValue then Some(current[i]) else pr.best, bestValue,
                         if bestValue >= initB then i else pr.cut, pr.values + [v], pr.states + [s2]))
  {
    assert Valid((pr.states + [s2])[|pr.values| + 1]);
    PeakSnoc(initA, pr.values, v);
    FirstBestSnoc(initA, pr.values, v);
    NoCutBeforeSnoc(initA, initB, pr.values, v);
  }

  /** The search of the i-th move before any cutoff, from the state and
      under the alpha the earlier searches left, extends their trace. */
  lemma SearchTrace<P(!new)>(g: Game<P>, prm: Params, player: int, z: Bits, depth: nat,
                             current: seq<Move>, initA: int, initB: int, s: State<P>, i: nat,
                             pr: Progress<P>, v: int, s2: State<P>)
    requires i < |current| && pr.cut == |current|
    requires SearchInv(g, prm, player, z, depth, current, initA, initB, s, i, pr)
    requires MoveNegamax(g, prm, pr.s2, player, current[i], depth, pr.bestValue, initB, z) == Some((v, s2))
    ensures Restored(pr.s2, s2)
    ensures RootTrace(g, prm, player, z, depth, current, initA, initB, pr.states + [s2], pr.values + [v])
  {
    TraceStep(g, prm, player, z, depth, current, initA, initB, pr.states, pr.values, v, s2);
  }

  /** One more search extends the trace. */
  lemma TraceStep<P(!new)>(g: Game<P>, prm: Params, player: int, z: Bits, depth: nat,
                           current: seq<Move>, initA: int, initB: int,
                           states: seq<State<P>>, values: seq<int>, v: int, s2: State<P>)
    requires RootTrace(g, prm, player, z, depth, current, initA, initB, states, values)
    requires |values| < |current|
    requires MoveNegamax(g, prm, states[|values|], player, current[|values|], depth, Peak(initA, values),
                         initB, z) == Some((v, s2))
    ensures RootTrace(g, prm, player, z, depth, current, initA, initB, states + [s2], values + [v])
  {
    var vs := values + [v];
    assert vs[..|values|] == values;
    assert forall k :: 0 <= k < |values| ==> vs[..k] == values[..k];
  }

  /** Writing the i-th move's score, whether it was skipped after a cutoff
      or searched, keeps the dict's record. */
  lemma ScoresStep(current: seq<Move>, scores: map<Move, int>, initA: int, depth: nat,
                   moveTimeUp: (nat, nat) -> bool, i: nat, sc: map<Move, int>, values: seq<int>, cut: nat,
                   x: int, values2: seq<int>, cut2: nat)
    requires i < |current|
    requires ScoresInv(current, scores, initA, depth, moveTimeUp, i, sc, values, cut)
    requires (values2 == values && cut2 == cut && |values| == cut + 1 && cut < i && x == initA)
          || (|values| == i && |values2| == i + 1 && values2[..i] == values && cut > i
              && (cut2 == i || cut2 == cut) && x == ScoreAfter(i, values2, cut2, initA, moveTimeUp(depth, i)))
    ensures ScoresInv(current, scores, initA, depth, moveTimeUp, i + 1, sc[current[i] := x], values2, cut2)
  {
    forall k | 0 <= k < i
      ensures ScoreAfter(k, values2, cut2, initA, moveTimeUp(depth, k))
           == ScoreAfter(k, values, cut, initA, moveTimeUp(depth, k))
    {
      if |values| == i {
        assert values2[k] == values2[..i][k];
      }
    }
  }

  /** The i-th move of a depth after a cutoff: not searched, it scores the
      initial alpha. */
  method Skip<P(!new)>(g: Game<P>, prm: Params, player: int, z: Bits, depth: nat,
                       current: seq<Move>, scores: map<Move, int>, initA: int, initB: int,
                       moveTimeUp: (nat, nat) -> bool, s: State<P>, i: nat, pr: Progress<P>)
    returns (pr2: Progress<P>)
    requires i < |current| && pr.cut < |current|
    requires DepthInv(g, prm, player, z, depth, current, scores, initA, initB, moveTimeUp, s, i, pr)
    ensures DepthInv(g, prm, player, z, depth, current, scores, initA, initB, moveTimeUp, s, i + 1, pr2)
  {
    ScoresStep(current, scores, initA, depth, moveTimeUp, i, pr.scores, pr.values, pr.cut,
               initA, pr.values, pr.cut);
    pr2 := pr.(scores := pr.scores[current[i] := initA]);
  }

  /** The variables after the i-th move before any cutoff is searched to
      the value `v`, leaving `s2`: the best value and move rise to `v` when
      it is greater, a best value reaching beta marks the cutoff at `i`,
      and the move's score is its value, overwritten by the initial alpha
      when there was no cutoff and the time is up. */
  function Searched<P>(current: seq<Move>, initA: int, initB: int, depth: nat, moveTimeUp: (nat, nat) -> bool,
                       i: nat, pr: Progress<P>, v: int, s2: State<P>): Progress<P>
    requires i < |current|
  {
    var bestValue := if v > pr.bestValue then v else pr.bestValue;
    var score := if bestValue >= initB || !moveTimeUp(depth, i) then v else initA;
    Progress(s2, pr.scores[current[i] := score], if v > pr.bestValue then Some(current[i]) else pr.best,
             bestValue, if bestValue >= initB then i else pr.cut, pr.values + [v], pr.states + [s2])
  }

  /** Once the trace is extended by the i-th search, the loop's record
      holds for one more move. */
  lemma VisitStep<P(!new)>(g: Game<P>, prm: Params, player: int, z: Bits, depth: nat,
                           current: seq<Move>, scores: map<Move, int>, initA: int, initB: int,
                           moveTimeUp: (nat, nat) -> bool, s: State<P>, i: nat, pr: Progress<P>,
                           v: int, s2: State<P>)
    requires i < |current| && pr.cut == |current|
    requires DepthInv(g, prm, player, z, depth, current, scores, initA, initB, moveTimeUp, s, i, pr)
    requires Restored(pr.s2, s2)
    requires RootTrace(g, prm, player, z, depth, current, initA, initB, pr.states + [s2], pr.values + [v])
    ensures DepthInv(g, prm, player, z, depth, current, scores, initA, initB, moveTimeUp, s, i + 1,
                     Searched(current, initA, initB, depth, moveTimeUp, i, pr, v, s2))
  {
    var pr2 := Searched(current, initA, initB, depth, moveTimeUp, i, pr, v, s2);
    assert pr2.values[..i] == pr.values;
    ScoresStep(current, scores, initA, depth, moveTimeUp, i, pr.scores, pr.values, pr.cut,
               pr2.scores[current[i]], pr2.values, pr2.cut);
    SearchStep(g, prm, player, z, depth, current, initA, initB, s, i, pr, v, s2, pr2.scores);
  }

  /** The i-th move of a depth before any cutoff: search it with
      `move_negamax` in the window from the best value (which alpha equals)
      to beta, and update the variables as `Searched` does. `ok` is false
      when the search raised. */
  method Visit<P(!new)>(g: Game<P>, prm: Params, player: int, z: Bits, depth: nat,
                        current: seq<Move>, scores: map<Move, int>, initA: int, initB: int,
                        moveTimeUp: (nat, nat) -> bool, s: State<P>, i: nat, pr: Progress<P>)
    returns (ok: bool, pr2: Progress<P>)
    requires GameOk(g) && depth > 0 && i < |current| && pr.cut == |current|
    requires DepthInv(g, prm, player, z, depth, current, scores, initA, initB, moveTimeUp, s, i, pr)
    ensures ok ==> DepthInv(g, prm, player, z, depth, current, scores, initA, initB, moveTimeUp, s, i + 1, pr2)
  {
    var child := MoveNegamax(g, prm, pr.s2, player, current[i], depth, pr.bestValue, initB, z);
    if child.None? {
      return false, pr;
    }
    SearchTrace(g, prm, player, z, depth, current, initA, initB, s, i, pr, child.value.0, child.value.1);
    VisitStep(g, prm, player, z, depth, current, scores, initA, initB, moveTimeUp, s, i, pr,
              child.value.0, child.value.1);
    ok, pr2 := true, Searched(current, initA, initB, depth, moveTimeUp, i, pr, child.value.0, child.value.1);
  }

  /** One depth of the root over the ordered moves `current`: reset best
      value and window to the initial ones and search the moves with
      `move_negamax` for the engine's player; a best value reaching beta
      marks a cutoff, after which every remaining move is not searched and
      scores the initial alpha, as does a move finished after the time is
      up. `values` are the values of the moves searched, each under the
      alpha the earlier ones produced; `cut` is the index of the first move
      whose value brought the best value to beta, or `|current|` when none
      did; the depth's best move is the first of greatest value above the
      initial alpha; `ok` is false when a search raised. */
  method RootDepth<P(!new)>(g: Game<P>, prm: Params, s: State<P>, player: int, z: Bits, depth: nat,
                            current: seq<Move>, scores: map<Move, int>, initA: int, initB: int,
                            moveTimeUp: (nat, nat) -> bool)
    returns (ok: bool, s2: State<P>, scores2: map<Move, int>, currentBest: Option<Move>, cut: nat,
             values: seq<int>, ghost states: seq<State<P>>)
    requires GameOk(g) && Valid(s) && depth > 0
    ensures ok ==> Restored(s, s2)
    ensures cut <= |current|
    ensures ok ==> forall k :: cut < k < |current| ==> current[k] in scores2 && scores2[current[k]] == initA
    ensures forall m :: m in scores ==> m in scores2
    ensures ok ==> forall m :: m in current ==> m in scores2
    ensures currentBest.Some? ==> currentBest.value in current
    ensures ok ==> |values| == (if cut < |current| then cut + 1 else |current|)
    ensures ok ==> |states| == |values| + 1 && states[0] == s && s2 == states[|values|]
    ensures ok ==> RootTrace(g, prm, player, z, depth, current, initA, initB, states, values)
    ensures ok ==> (cut < |current| <==> values != [] && Peak(initA, values) >= initB)
    ensures ok ==> NoCutBefore(initA, initB, values)
    ensures ok ==> currentBest == BestMove(initA, current, values)
    ensures ok && Distinct(current) ==>
      forall k :: 0 <= k < |current| ==>
        scores2[current[k]] == ScoreAfter(k, values, cut, initA, moveTimeUp(depth, k))
  {
    var pr := Progress(s, scores, None, initA, |current|, [], [s]);
    var i := 0;
    while i < |current|
      invariant DepthInv(g, prm, player, z, depth, current, scores, initA, initB, moveTimeUp, s, i, pr)
    {
      if pr.cut < |current| {
        pr := Skip(g, prm, player, z, depth, current, scores, initA, initB, moveTimeUp, s, i, pr);
      } else {
        var searched, pr2 := Visit(g, prm, player, z, depth, current, scores, initA, initB, moveTimeUp, s, i, pr);
        if !searched {
          return false, pr.s2, pr.scores, pr.best, pr.cut, pr.values, pr.states;
        }
        pr := pr2;
      }
      i := i + 1;
    }
    assert forall m :: m in current ==> exists k :: 0 <= k < |current| && current[k] == m;
    return true, pr.s2, pr.scores, pr.best, pr.cut, pr.values, pr.states;
  }

  /** What one completed depth leaves: the trace of its searches over the
      order `current`, ending in `s2`. */
  ghost predicate DepthDone<P(!new)>(g: Game<P>, prm: Params, player: int, z: Bits, depth: nat,
                                     current: seq<Move>, initA: int, initB: int,
                                     states: seq<State<P>>, values: seq<int>, s2: State<P>) {
    && RootTrace(g, prm, player, z, depth, current, initA, initB, states, values)
    && states[|values|] == s2
  }

  /** One pass of the depth loop's body: order the moves by the scores and
      search them at `depth`. */
  method DepthStep<P(!new)>(g: Game<P>, prm: Params, s: State<P>, player: int, z: Bits, depth: nat,
                            keys: seq<Move>, scores: map<Move, int>, initA: int, initB: int,
                            moveTimeUp: (nat, nat) -> bool)
    returns (ok: bool, s2: State<P>, scores2: map<Move, int>, order: seq<Move>, best: Option<Move>,
             values: seq<int>, ghost states: seq<State<P>>)
    requires GameOk(g) && Valid(s) && depth > 0
    ensures multiset(order) == multiset(keys)
    ensures best.Some? ==> best.value in keys
    ensures ok ==> Restored(s, s2) && Valid(s2)
    ensures ok ==> DepthDone(g, prm, player, z, depth, order, initA, initB, states, values, s2)
    ensures ok ==> best == BestMove(initA, order, values)
  {
    order := RootOrder(depth, keys, scores);
    var cut;
    ok, s2, scores2, best, cut, values, states :=
      RootDepth(g, prm, s, player, z, depth, order, scores, initA, initB, moveTimeUp);
    if ok {
      assert Valid(states[|values|]);
    }
  }

  /** The moves the depth loop has produced are the root moves: the order
      is a permutation of them and the best move one of them, and there is
      no best move before any order. */
  predicate KeysKept(keys: seq<Move>, bestMove: Option<Move>, current: Option<seq<Move>>) {
    && (current.None? ==> bestMove.None?)
    && (current.Some? ==> multiset(current.value) == multiset(keys))
    && (bestMove.Some? ==> bestMove.value in keys)
  }

  /** The depth loop before `depth`: the time was not up before any depth
      that ran, and when one ran, `current` is the order of the last,
      `lastDepth`, whose searches `lastStates` and `lastValues` trace, and
      the best move is that depth's. */
  ghost predicate DepthsRan<P(!new)>(g: Game<P>, prm: Params, player: int, z: Bits, initA: int, initB: int,
                                     depthTimeUp: nat -> bool, maxDepth: int, depth: nat, s2: State<P>,
                                     bestMove: Option<Move>, current: Option<seq<Move>>, lastDepth: nat,
                                     lastStates: seq<State<P>>, lastValues: seq<int>) {
    && (forall d :: 1 <= d < depth ==> !depthTimeUp(d))
    && (current.Some? ==>
          && lastDepth + 1 == depth <= maxDepth
          && DepthDone(g, prm, player, z, lastDepth, current.value, initA, initB, lastStates, lastValues, s2)
          && bestMove == BestMove(initA, current.value, lastValues))
  }

  /** A depth that ran to the end moves the loop on to the next depth. */
  lemma DepthsRanStep<P(!new)>(g: Game<P>, prm: Params, player: int, z: Bits, initA: int, initB: int,
                               depthTimeUp: nat -> bool, maxDepth: int, depth: nat, s2: State<P>,
                               bestMove: Option<Move>, current: Option<seq<Move>>, lastDepth: nat,
                               lastStates: seq<State<P>>, lastValues: seq<int>,
                               s3: State<P>, order: seq<Move>, best: Option<Move>,
                               states: seq<State<P>>, values: seq<int>)
    requires DepthsRan(g, prm, player, z, initA, initB, depthTimeUp, maxDepth, depth, s2, bestMove, current,
                       lastDepth, lastStates, lastValues)
    requires depth < maxDepth && !depthTimeUp(depth)
    requires DepthDone(g, prm, player, z, depth, order, initA, initB, states, values, s3)
    requires best == BestMove(initA, order, values)
    ensures DepthsRan(g, prm, player, z, initA, initB, depthTimeUp, maxDepth, depth + 1, s3, best, Some(order),
                      depth, states, values)
  {
  }

  /** The depth loop, `for depth in range(1, max_depth)`: stop when the time
      is up before a depth, order and search the moves, and take the depth's
      best move (possibly None) as the best move. `current` is None when no
      depth ran, the state in which the source's `current_moves` is unbound;
      otherwise it is the order of the last depth that ran, `lastDepth`,
      whose searches `lastValues` and `lastStates` trace, and the best move
      is that depth's first move of greatest value above the initial alpha.
      `ok` is false when a search raised. */
  method Deepening<P(!new)>(g: Game<P>, prm: Params, s: State<P>, player: int, z: Bits, keys: seq<Move>,
                            maxDepth: int, initA: int, initB: int,
                            depthTimeUp: nat -> bool, moveTimeUp: (nat, nat) -> bool)
    returns (ok: bool, s2: State<P>, bestMove: Option<Move>, current: Option<seq<Move>>,
             lastDepth: nat, lastValues: seq<int>, ghost lastStates: seq<State<P>>)
    requires GameOk(g) && Valid(s)
    ensures ok ==> Restored(s, s2)
    ensures ok ==> (current.None? <==> maxDepth <= 1 || depthTimeUp(1))
    ensures current.Some? ==> multiset(current.value) == multiset(keys)
    ensures current.None? ==> bestMove.None?
    ensures bestMove.Some? ==> bestMove.value in keys
    ensures ok && current.Some? ==>
      && 1 <= lastDepth < maxDepth
      && (forall d :: 1 <= d <= lastDepth ==> !depthTimeUp(d))
      && (lastDepth + 1 == maxDepth || depthTimeUp(lastDepth + 1))
    ensures ok && current.Some? ==>
      && DepthDone(g, prm, player, z, lastDepth, current.value, initA, initB, lastStates, lastValues, s2)
      && bestMove == BestMove(initA, current.value, lastValues)
  {
    var scores: map<Move, int> := map m | m in keys :: initA;
    s2, bestMove, current := s, None, None;
    lastDepth, lastValues, lastStates := 0, [], [s];
    var depth := 1;
    while depth < maxDepth
      invariant depth >= 1
      invariant Restored(s, s2) && Valid(s2)
      invariant current.None? <==> depth == 1
      invariant KeysKept(keys, bestMove, current)
      invariant DepthsRan(g, prm, player, z, initA, initB, depthTimeUp, maxDepth, depth, s2, bestMove, current,
                          lastDepth, lastStates, lastValues)
    {
      if depthTimeUp(depth) {
        break;
      }
      var done, s3, scores3, order, currentBest, values, states :=
        DepthStep(g, prm, s2, player, z, depth, keys, scores, initA, initB, moveTimeUp);
      if !done {
        return false, s3, currentBest, Some(order), depth, values, states;
      }
      DepthsRanStep(g, prm, player, z, initA, initB, depthTimeUp, maxDepth, depth, s2, bestMove, current,
                    lastDepth, lastStates, lastValues, s3, order, currentBest, states, values);
      s2, scores, bestMove, current := s3, scores3, currentBest, Some(order);
      lastDepth, lastValues, lastStates := depth, values, states;
      depth := depth + 1;
    }
    ok := true;
  }

  /** The last line, as corrected: with no best move, fall back to the first
      ordered move, or to the first root move when no depth ran. */
  function Fallback(bestMove: Option<Move>, current: Option<seq<Move>>, keys: seq<Move>): (r: RootOutcome)
    ensures r.Returned?
    ensures bestMove.Some? ==> r.best == bestMove
    ensures current.None? && bestMove.None? ==> r.best == (if keys == [] then None else Some(keys[0]))
    ensures current.Some? && bestMove.None? ==>
      r.best == (if current.value == [] then None else Some(current.value[0]))
  {
    if bestMove.Some? then Returned(bestMove)
    else
      var order := if current.Some? then current.value else keys;
      Returned(if |order| > 0 then Some(order[0]) else None)
  }

  /** The last line as written: `len(current_moves)` is evaluated whenever
      no best move was found, raising UnboundLocalError when no depth ran. */
  function FallbackAsWritten(bestMove: Option<Move>, current: Option<seq<Move>>): (r: RootOutcome)
    ensures r == Raised <==> bestMove.None? && current.None?
    ensures r.Returned? && bestMove.Some? ==> r.best == bestMove
    ensures current.Some? && bestMove.None? ==>
      r == Returned(if current.value == [] then None else Some(current.value[0]))
  {
    if bestMove.Some? then Returned(bestMove)
    else if current.None? then Raised
    else Returned(if |current.value| > 0 then Some(current.value[0]) else None)
  }

  /** `negamax_iterative_deepening_root` with the corrected fallback: a
      single root move is returned at once, untouched by search; otherwise
      the result is a root move whenever there is one, and None only when
      there is none. When a depth ran, `current` is the last depth's order
      and the move returned is that depth's best move (its first move of
      greatest value above alpha), else its first ordered move; when none
      ran, it is the first root move. */
  method Root<P(!new)>(g: Game<P>, prm: Params, s: State<P>, player: int, z: Bits, rootMoves: seq<Move>,
                       maxDepth: int, alpha: int, beta: int,
                       depthTimeUp: nat -> bool, moveTimeUp: (nat, nat) -> bool)
    returns (outcome: RootOutcome, s2: State<P>, current: Option<seq<Move>>,
             lastDepth: nat, lastValues: seq<int>, ghost lastStates: seq<State<P>>)
    requires GameOk(g) && Valid(s)
    ensures outcome.Returned? ==> Restored(s, s2)
    ensures |DictKeys(rootMoves)| == 1 ==> outcome == Returned(Some(rootMoves[0])) && s2 == s
    ensures outcome.Returned? ==> (outcome.best.Some? <==> rootMoves != [])
    ensures outcome.Returned? && outcome.best.Some? ==> outcome.best.value in rootMoves
    ensures outcome.Returned? && |DictKeys(rootMoves)| != 1 && current.None? ==>
      outcome.best == (if rootMoves == [] then None else Some(rootMoves[0]))
    ensures outcome.Returned? && current.Some? ==>
      && multiset(current.value) == multiset(DictKeys(rootMoves))
      && 1 <= lastDepth < maxDepth
      && DepthDone(g, prm, player, z, lastDepth, current.value, alpha, beta, lastStates, lastValues, s2)
      && outcome.best == (var b := BestMove(alpha, current.value, lastValues);
                          if b.Some? then b
                          else if current.value == [] then None else Some(current.value[0]))
  {
    var keys := DictKeys(rootMoves);
    current, lastDepth, lastValues, lastStates := None, 0, [], [s];
    if |keys| == 1 {
      return Returned(Some(keys[0])), s, current, lastDepth, lastValues, lastStates;
    }
    var ok, s3, bestMove;
    ok, s3, bestMove, current, lastDepth, lastValues, lastStates :=
      Deepening(g, prm, s, player, z, keys, maxDepth, alpha, beta, depthTimeUp, moveTimeUp);
    s2 := s3;
    if !ok {
      return Raised, s2, current, lastDepth, lastValues, lastStates;
    }
    if current.Some? && current.value != [] {
      assert current.value[0] in multiset(keys);
    }
    if current.Some? && current.value == [] {
      assert |multiset(keys)| == 0;
    }
    outcome := Fallback(bestMove, current, keys);
  }

  /** `negamax_iterative_deepening_root` as written: when no depth runs
      (`max_depth` of 1 or less, or the time already up) and there is not
      exactly one root move, it raises instead of returning a move. */
  method RootAsWritten<P(!new)>(g: Game<P>, prm: Params, s: State<P>, player: int, z: Bits,
                                rootMoves: seq<Move>, maxDepth: int, alpha: int, beta: int,
                                depthTimeUp: nat -> bool, moveTimeUp: (nat, nat) -> bool)
    returns (outcome: RootOutcome, s2: State<P>)
    requires GameOk(g) && Valid(s)
    ensures |DictKeys(rootMoves)| == 1 ==> outcome == Returned(Some(rootMoves[0])) && s2 == s
    ensures |DictKeys(rootMoves)| != 1 && (maxDepth <= 1 || depthTimeUp(1)) ==> outcome == Raised
  {
    var keys := DictKeys(rootMoves);
    if |keys| == 1 {
      return Returned(Some(keys[0])), s;
    }
    var ok, s3, bestMove, current, _, _, _ := Deepening(g, prm, s, player, z, keys, maxDepth, alpha, beta,
                                                        depthTimeUp, moveTimeUp);
    s2 := s3;
    if !ok {
      return Raised, s2;
    }
    outcome := FallbackAsWritten(bestMove, current);
  }
}

=== FILE: search.dfy ===
/** The search of quiescentengine.py over an abstract position: negamax with
    transposition-table bound tightening, a TT move tried first, null-move
    gating and a fail-hard capture-only quiescence search. The position is a
    type parameter `P`; everything the search asks of it is a field of
    `Game`. The search's mutable state (board, side to move, null-move flag,
    table) is threaded through explicitly, and None stands for an exception
    (the OverflowError of a table store, the UnboundLocalError of an unset
    best move), after which the source restores nothing. */
module Search {
  import opened Coords
  import opened Wrappers
  import opened Bits
  import opened TTPack
  import opened TTable

  /** The board operations the search calls: `evaluation_function`,
      `checkwin`, `generate_moves(sorted_moves=True)`, plain
      `generate_moves`, `generate_moves(capture=True)`, `move`, `undomove`,
      `zobrist_move`, and the two piece sets. */
  datatype Game<!P> = Game(
    eval: (P, int) -> int,
    winner: P -> int,
    moves: (P, int) -> seq<Move>,
    plainMoves: (P, int) -> seq<Move>,
    captures: (P, int) -> seq<Move>,
    apply: (P, int, Move) -> Option<P>,
    undo: (P, int, Move) -> Option<P>,
    rehash: (Bits, int, Move) -> Bits,
    whites: P -> set<Square>,
    blacks: P -> set<Square>)

  /** How a probe reads the stored value back: `AsWritten` is the
      expression of quiescentengine.py and improvedengine.py, which masks
      after negating; `SignMagnitude` negates the masked magnitude, as
      enginewithtt.py does, and returns every stored value unchanged. */
  datatype Decoding = AsWritten | SignMagnitude

  /** The constants the search reads from its parameter module: the bound
      flags, the null-move reduction `R`, the rows `ROW7` and `ROW1`, and
      the two side-to-move keys `zobrist_player[0]` and `[1]`; and the
      value decoding of the probe. */
  datatype Params = Params(flags: Flags, r: nat, row7: set<Square>, row1: set<Square>,
                           turnKey0: Bits, turnKey1: Bits, decoding: Decoding)

  /** `undomove` inverts every `move` that succeeds. A move that cannot be
      made (its piece missing, as board.py's `set.remove` reports with a
      `KeyError`) is None. */
  ghost predicate RoundTrip<P(!new)>(g: Game<P>) {
    forall p, player, m :: g.apply(p, player, m).Some? ==>
      g.undo(g.apply(p, player, m).value, player, m) == Some(p)
  }

  /** Generated moves have non-negative coordinates, as board squares do. */
  ghost predicate MovesNonNegative<P(!new)>(g: Game<P>) {
    forall p, player, m :: m in g.moves(p, player) ==> NonNegative(m)
  }

  ghost predicate GameOk<P(!new)>(g: Game<P>) {
    RoundTrip(g) && MovesNonNegative(g)
  }

  /** The engine's mutable state: board, `player_at_turn`, `self.null`, and
      the table. */
  datatype State<P> = State(pos: P, turn: int, nullMove: bool, tt: Table)

  /** The side to move is a player id, so `^= 3` is `3 - turn`. */
  predicate Valid<P>(s: State<P>) {
    s.turn == White || s.turn == Black
  }

  /** Board, side to move and null-move flag are as they were. */
  ghost predicate Restored<P>(s: State<P>, s2: State<P>) {
    s2.pos == s.pos && s2.turn == s.turn && s2.nullMove == s.nullMove
  }

  function Min(a: int, b: int): int { if a < b then a else b }
  function Max(a: int, b: int): int { if a < b then b else a }

  /** `store_tt`, with `storett`'s semantics; None is its OverflowError. */
  function StoreIn<P>(prm: Params, s: State<P>, z: Bits, depth: nat, value: int, m: Move,
                      olda: int, beta: int): (r: Option<State<P>>)
    requires NonNegative(m)
    ensures r.Some? <==> StoreTT(s.tt, prm.flags, z, depth, value, m, olda, beta).Some?
    ensures r.Some? ==> r.value == s.(tt := r.value.tt)
    ensures r.Some? ==>
      Retrieve(r.value.tt, z) == Pack(Entry(depth, BoundFlag(prm.flags, value, olda, beta), value, m))
  {
    var t := StoreTT(s.tt, prm.flags, z, depth, value, m, olda, beta);
    if t.Some? then
      StoreTTRetrieve(s.tt, prm.flags, z, depth, value, m, olda, beta);
      Some(s.(tt := t.value))
    else None
  }

  /** The leaf rule of enginewithtt.py's `negamax`: at depth 0, or when
      `checkwin()` reports any winner, the static evaluation for the side to
      move is the result; None means the search goes on. */
  function WithTTLeaf<P>(g: Game<P>, s: State<P>, depth: nat): (r: Option<int>)
    ensures r.Some? <==> depth == 0 || g.winner(s.pos) != 0
    ensures r.Some? ==> r.value == g.eval(s.pos, s.turn)
  {
    if depth == 0 || g.winner(s.pos) != 0 then Some(g.eval(s.pos, s.turn)) else None
  }

  // ---------------------------------------------------------------------------
  // quiescent_search (quiescentengine.py:112-147)
  // ---------------------------------------------------------------------------

  /** `quiescent_search`: stand pat on the evaluation; at depth 0 store and
      return it; fail hard at beta; otherwise raise alpha to the stand-pat
      value and try the captures. */
  function Quiesce<P(!new)>(g: Game<P>, prm: Params, s: State<P>, alpha: int, beta: int, md: nat, z: Bits)
    : (r: Option<(int, State<P>)>)
    requires GameOk(g) && Valid(s)
    ensures r.Some? ==> Restored(s, r.value.1)
    ensures r.Some? && md == 0 ==> r.value.0 == g.eval(s.pos, s.turn)
    ensures r.Some? && md == 0 ==>
      Retrieve(r.value.1.tt, z)
      == Pack(Entry(0, BoundFlag(prm.flags, g.eval(s.pos, s.turn), alpha, beta), g.eval(s.pos, s.turn),
                    Move(0, 0, 0, 0)))
    ensures r.Some? && md > 0 && g.eval(s.pos, s.turn) >= beta ==> r.value.0 == beta
    ensures r.Some? && md > 0 && alpha < beta ==> r.value.0 <= beta
    ensures r.Some? && md > 0 && g.eval(s.pos, s.turn) < beta && alpha < beta ==>
      Max(alpha, g.eval(s.pos, s.turn)) <= r.value.0
    decreases md, 1, 0
  {
    var standPat := g.eval(s.pos, s.turn);
    if md == 0 then
      var s1 := StoreIn(prm, s, z, 0, standPat, Move(0, 0, 0, 0), alpha, beta);
      if s1.Some? then Some((standPat, s1.value)) else None
    else if standPat >= beta then
      var s1 := StoreIn(prm, s, z, 0, beta, Move(0, 0, 0, 0), alpha, beta);
      if s1.Some? then Some((beta, s1.value)) else None
    else
      QuiesceLoop(g, prm, s, g.captures(s.pos, s.turn), 0, Max(alpha, standPat), beta, md, z)
  }

  /** The capture loop of `quiescent_search`: make the capture, toggle the
      side, search the reply with the negated window, toggle back, undo;
      alpha rises to each value and a value reaching beta returns beta. */
  function QuiesceLoop<P(!new)>(g: Game<P>, prm: Params, s: State<P>, moves: seq<Move>, i: nat,
                                alpha: int, beta: int, md: nat, z: Bits)
    : (r: Option<(int, State<P>)>)
    requires GameOk(g) && Valid(s) && md > 0 && i <= |moves|
    ensures r.Some? ==> Restored(s, r.value.1)
    ensures r.Some? && alpha < beta ==> alpha <= r.value.0 <= beta
    decreases md, 0, |moves| - i
  {
    if i == |moves| then Some((alpha, s))
    else
      var m := moves[i];
      var p1 :- g.apply(s.pos, s.turn, m);
      var s1 := s.(pos := p1, turn := 3 - s.turn);
      var child :- Quiesce(g, prm, s1, -beta, -alpha, md - 1, g.rehash(z, s1.turn, m));
      var value := -child.0;
      var s2 := child.1.(turn := 3 - child.1.turn);
      var p3 := g.undo(s2.pos, s2.turn, m);
      if p3.None? then None
      else
        var s3 := s2.(pos := p3.value);
        assert s3.pos == s.pos;
        if value >= beta then Some((beta, s3))
        else QuiesceLoop(g, prm, s3, moves, i + 1, Max(alpha, value), beta, md, z)
  }

  // ---------------------------------------------------------------------------
  // negamax and nullsearch (quiescentengine.py:24-70, 150-163)
  // ---------------------------------------------------------------------------

  /** The probe's result, decoded: present only on a hit; the value is read
      back with the decoding `prm` selects. */
  function Probe<P>(prm: Params, s: State<P>, z: Bits): (e: Option<Entry>)
    ensures e.Some? <==> Retrieve(s.tt, z).Some?
    ensures e.Some? && prm.decoding == AsWritten ==>
      e.value.value == DecodeValueAsWritten(Retrieve(s.tt, z).value)
    ensures e.Some? && prm.decoding == SignMagnitude ==>
      e.value.value == DecodeValue(Retrieve(s.tt, z).value)
  {
    var p :- Retrieve(s.tt, z);
    var e := Decode(p);
    Some(if prm.decoding == AsWritten then e.(value := DecodeValueAsWritten(p)) else e)
  }

  /** The window after the TT probe: a usable entry (stored depth at least the
      requested one) that is a lower bound raises alpha, any other non-exact
      one lowers beta. */
  function Tighten(prm: Params, probe: Option<Entry>, depth: nat, alpha: int, beta: int): (w: (int, int))
    ensures alpha <= w.0 && w.1 <= beta
    ensures probe.None? || probe.value.depth < depth ==> w == (alpha, beta)
  {
    if probe.Some? && probe.value.depth >= depth then
      if probe.value.flag == prm.flags.lower then (Max(alpha, probe.value.value), beta)
      else (alpha, Min(beta, probe.value.value))
    else (alpha, beta)
  }

  /** `move_negamax`: make `m` for `player`, toggle the side, search the child
      at one ply less with the negated window and the incrementally updated
      hash, toggle back, undo `m` for `player`. `Improved.Child` has the same
      shape over the other engine's `Negamax`. */
  function MoveNegamax<P(!new)>(g: Game<P>, prm: Params, s: State<P>, player: int, m: Move, depth: nat,
                                alpha: int, beta: int, z: Bits)
    : (r: Option<(int, State<P>)>)
    requires GameOk(g) && Valid(s) && depth > 0
    ensures r.Some? ==> Restored(s, r.value.1)
    decreases depth, 1, 0
  {
    var p1 :- g.apply(s.pos, player, m);
    var s1 := s.(pos := p1, turn := 3 - s.turn);
    var child :- Negamax(g, prm, s1, depth - 1, -beta, -alpha, g.rehash(z, s1.turn, m));
    var s2 := child.1.(turn := 3 - child.1.turn);
    var p3 := g.undo(s2.pos, player, m);
    if p3.None? then None else Some((-child.0, s2.(pos := p3.value)))
  }

  /** `negamax`: TT probe and window tightening, the win test, quiescence at
      depth 0, the stored move first, then null-move pruning and the move
      loop. */
  function Negamax<P(!new)>(g: Game<P>, prm: Params, s: State<P>, depth: nat, alpha: int, beta: int, z: Bits)
    : (r: Option<(int, State<P>)>)
    requires GameOk(g) && Valid(s)
    ensures r.Some? ==> Restored(s, r.value.1)
    ensures var e := Probe(prm, s, z);
      e.Some? && e.value.depth >= depth && e.value.flag == prm.flags.exact ==> r == Some((e.value.value, s))
    ensures var e := Probe(prm, s, z);
      var w := Tighten(prm, e, depth, alpha, beta);
      e.Some? && e.value.depth >= depth && e.value.flag != prm.flags.exact && w.0 >= w.1
      ==> r == Some((e.value.value, s))
    ensures var e := Probe(prm, s, z);
      var w := Tighten(prm, e, depth, alpha, beta);
      !(e.Some? && e.value.depth >= depth && (e.value.flag == prm.flags.exact || w.0 >= w.1))
      && ((g.winner(s.pos) == 1 && s.turn == White) || (g.winner(s.pos) == 2 && s.turn == Black))
      ==> r == Some((1000, s))
    ensures var e := Probe(prm, s, z);
      var w := Tighten(prm, e, depth, alpha, beta);
      !(e.Some? && e.value.depth >= depth && (e.value.flag == prm.flags.exact || w.0 >= w.1))
      && !((g.winner(s.pos) == 1 && s.turn == White) || (g.winner(s.pos) == 2 && s.turn == Black))
      && depth == 0
      ==> r == Quiesce(g, prm, s, w.0, w.1, 2, z)
    decreases depth, 5, 0
  {
    var olda := alpha;
    var e := Probe(prm, s, z);
    var w := Tighten(prm, e, depth, alpha, beta);
    if e.Some? && e.value.depth >= depth && e.value.flag == prm.flags.exact then Some((e.value.value, s))
    else if e.Some? && e.value.depth >= depth && w.0 >= w.1 then Some((e.value.value, s))
    else if (g.winner(s.pos) == 1 && s.turn == White) || (g.winner(s.pos) == 2 && s.turn == Black) then
      Some((1000, s))
    else if depth == 0 then Quiesce(g, prm, s, w.0, w.1, 2, z)
    else if e.Some? && e.value.depth > 0 then
      var ttmove := e.value.move;
      var first :- MoveNegamax(g, prm, s, s.turn, ttmove, depth, w.0, w.1, z);
      if first.0 >= w.1 then
        var s2 :- StoreIn(prm, first.1, z, depth, first.0, ttmove, olda, w.1);
        Some((first.0, s2))
      else
        NegamaxRest(g, prm, first.1, depth, w.0, w.1, z, olda, Some(ttmove))
    else
      NegamaxRest(g, prm, s, depth, w.0, w.1, z, olda, None)
  }

  /** The as-written probe decides a depth-1 search in the window
      (-100, 100) from a stored lower bound of -5: the bound is read back as
      2^40 - 5, closes the window and is returned. */
  lemma NegamaxAsWrittenCounterexample<P(!new)>(g: Game<P>, prm: Params, s: State<P>, z: Bits)
    requires GameOk(g) && Valid(s)
    requires prm.flags == EngineFlags && prm.decoding == AsWritten
    requires Retrieve(s.tt, z) == Pack(Entry(1, EngineFlags.lower, -5, Move(0, 0, 0, 0)))
    ensures Negamax(g, prm, s, 1, -100, 100, z) == Some((1099511627771, s))
  {
    DecodeValueAsWrittenCounterexample();
    DecodePack(Entry(1, EngineFlags.lower, -5, Move(0, 0, 0, 0)));
  }

  /** With the sign-magnitude decoding the same entry is read back as -5:
      it raises alpha to -5 and decides nothing. */
  lemma NegamaxSignMagnitudeProbe<P>(prm: Params, s: State<P>, z: Bits)
    requires prm.flags == EngineFlags && prm.decoding == SignMagnitude
    requires Retrieve(s.tt, z) == Pack(Entry(1, EngineFlags.lower, -5, Move(0, 0, 0, 0)))
    ensures Probe(prm, s, z) == Some(Entry(1, EngineFlags.lower, -5, Move(0, 0, 0, 0)))
    ensures Tighten(prm, Probe(prm, s, z), 1, -100, 100) == (-5, 100)
  {
    DecodePack(Entry(1, EngineFlags.lower, -5, Move(0, 0, 0, 0)));
  }

  /** From `best_value = -1000000` on: the null-move search, whose value is
      returned when it cuts off, then the move loop. `ttmove` is the stored
      move already searched, which also serves as the best move so far. */
  function NegamaxRest<P(!new)>(g: Game<P>, prm: Params, s: State<P>, depth: nat, alpha: int, beta: int,
                                z: Bits, olda: int, ttmove: Option<Move>)
    : (r: Option<(int, State<P>)>)
    requires GameOk(g) && Valid(s) && depth > 0
    requires ttmove.Some? ==> NonNegative(ttmove.value)
    ensures r.Some? ==> Restored(s, r.value.1)
    decreases depth, 4, 0
  {
    var nullResult :- NullSearch(g, prm, s, depth, alpha, beta, z);
    if nullResult.0.Some? then Some((nullResult.0.value, nullResult.1))
    else
      var s1 := nullResult.1;
      NegamaxLoop(g, prm, s1, g.moves(s1.pos, s1.turn), 0, ttmove, depth, alpha, beta, z, olda,
                  -1000000, ttmove)
  }

  /** `nullsearch`: only when `self.null` is set, the depth exceeds `R`, both
      sides have at least five pieces and no white piece is on `ROW7` nor a
      black one on `ROW1`; then pass the move (clear the flag, toggle the
      side and the side-to-move keys in the hash), search at depth
      `depth - 1 - R` with the null window `(-beta, -beta + 1)`, restore side
      and flag, and return beta on a fail high. */
  function NullSearch<P(!new)>(g: Game<P>, prm: Params, s: State<P>, depth: nat, alpha: int, beta: int, z: Bits)
    : (r: Option<(Option<int>, State<P>)>)
    requires GameOk(g) && Valid(s) && depth > 0
    ensures r.Some? ==> Restored(s, r.value.1)
    ensures r.Some? ==> r.value.0 == None || r.value.0 == Some(beta)
    ensures !NullAllowed(g, prm, s, depth) ==> r == Some((None, s))
    decreases depth, 3, 0
  {
    if NullAllowed(g, prm, s, depth) then
      var s1 := s.(nullMove := false, turn := 3 - s.turn);
      var child :- Negamax(g, prm, s1, depth - 1 - prm.r, -beta, -beta + 1,
                           Xor(Xor(z, prm.turnKey0), prm.turnKey1));
      var s2 := child.1.(turn := 3 - child.1.turn, nullMove := true);
      if -child.0 >= beta then Some((Some(beta), s2)) else Some((None, s2))
    else Some((None, s))
  }

  /** The gate of `nullsearch`. */
  predicate NullAllowed<P>(g: Game<P>, prm: Params, s: State<P>, depth: nat) {
    var endgame := |g.whites(s.pos)| < 5 || |g.blacks(s.pos)| < 5;
    var critical := g.whites(s.pos) * prm.row7 != {} || g.blacks(s.pos) * prm.row1 != {};
    s.nullMove && depth > prm.r && !endgame && !critical
  }

  /** The sorted move loop of `negamax`: skip the stored move, search each
      other move, keep the best value and move, raise alpha to the best value,
      and on `best_value >= beta` store the entry and stop. Storing with no
      best move yet is the source's UnboundLocalError. */
  function NegamaxLoop<P(!new)>(g: Game<P>, prm: Params, s: State<P>, moves: seq<Move>, i: nat,
                                ttmove: Option<Move>, depth: nat, alpha: int, beta: int, z: Bits,
                                olda: int, best: int, bestmove: Option<Move>)
    : (r: Option<(int, State<P>)>)
    requires GameOk(g) && Valid(s) && depth > 0 && i <= |moves|
    requires moves == g.moves(s.pos, s.turn)
    requires bestmove.Some? ==> NonNegative(bestmove.value)
    ensures r.Some? ==> Restored(s, r.value.1)
    ensures r.Some? ==> best <= r.value.0
    ensures r.Some? && best < beta && r.value.0 >= beta ==> Retrieve(r.value.1.tt, z).Some?
    decreases depth, 2, |moves| - i
  {
    if i == |moves| then Some((best, s))
    else if ttmove == Some(moves[i]) then
      NegamaxLoop(g, prm, s, moves, i + 1, ttmove, depth, alpha, beta, z, olda, best, bestmove)
    else
      var m := moves[i];
      assert NonNegative(m);
      var child :- MoveNegamax(g, prm, s, s.turn, m, depth, alpha, beta, z);
      var best2 := if child.0 > best then child.0 else best;
      var bestmove2 := if child.0 > best then Some(m) else bestmove;
      if best2 >= beta then
        if bestmove2.None? then None
        else
          var s2 :- StoreIn(prm, child.1, z, depth, best2, bestmove2.value, olda, beta);
          StoreThenRetrieve(child.1.tt, z, Retrieve(s2.tt, z).value);
          Some((best2, s2))
      else
        NegamaxLoop(g, prm, child.1, moves, i + 1, ttmove, depth, Max(alpha, best2), beta, z, olda,
                    best2, bestmove2)
  }
}

=== FILE: setboard.dfy ===
/** The set-of-coordinates position of board.py: two piece sets, the side to
    move, mandatory-capture move generation, apply/undo and the win test. */
module SetBoard {
  import opened Coords
  import opened Wrappers
  import Sorting

  /** The constants board.py takes from its parameter module: the forward step
      of each side, the diagonal capture offsets of each side (the captured
      piece sits at `piece + offset`, the landing square at `piece + 2*offset`),
      the lateral steps, the squares on which each side wins, and `ALL_CELLS`. */
  datatype Rules = Rules(
    forwardWhite: Square, forwardBlack: Square,
    capturesWhite: seq<Square>, capturesBlack: seq<Square>,
    lateral: seq<Square>,
    winWhite: set<Square>, winBlack: set<Square>,
    allCells: set<Square>)

  /** The obvious instance: WHITE steps to the next row, BLACK to the previous
      one, both sideways by one column, captures jump one diagonal square, and
      each side wins on the opponent's back rank. */
  function StandardRules(): Rules {
    Rules(Square(1, 0), Square(-1, 0),
          [Square(1, 1), Square(1, -1)], [Square(-1, 1), Square(-1, -1)],
          [Square(0, 1), Square(0, -1)],
          RowSquares(BoardSize - 1), RowSquares(0), AllSquares())
  }

  /** The column indices of the board. */
  function Columns(): set<int> {
    {0, 1, 2, 3, 4, 5, 6, 7, 8}
  }

  /** The nine squares of row `y`. */
  function RowSquares(y: int): set<Square> {
    set c | c in Columns() :: Square(y, c)
  }

  /** The 81 squares of the board (`ALL_CELLS`). */
  function AllSquares(): set<Square> {
    set y, x | y in Columns() && x in Columns() :: Square(y, x)
  }

  /** Rules whose steps are single squares: a capture offset changes the row by
      one and the column by one, the forward step changes only the row by one,
      a lateral step changes only the column by one. */
  predicate WellFormed(r: Rules) {
    && Abs(r.forwardWhite.row) == 1 && r.forwardWhite.col == 0
    && Abs(r.forwardBlack.row) == 1 && r.forwardBlack.col == 0
    && (forall i :: 0 <= i < |r.capturesWhite| ==>
          Abs(r.capturesWhite[i].row) == 1 && Abs(r.capturesWhite[i].col) == 1)
    && (forall i :: 0 <= i < |r.capturesBlack| ==>
          Abs(r.capturesBlack[i].row) == 1 && Abs(r.capturesBlack[i].col) == 1)
    && (forall i :: 0 <= i < |r.lateral| ==>
          r.lateral[i].row == 0 && Abs(r.lateral[i].col) == 1)
  }

  lemma StandardRulesWellFormed()
    ensures WellFormed(StandardRules())
  {
  }

  predicate ValidPlayer(p: int) { p == White || p == Black }

  function Forward(r: Rules, p: int): Square
    requires ValidPlayer(p)
  {
    if p == White then r.forwardWhite else r.forwardBlack
  }

  function Captures(r: Rules, p: int): seq<Square>
    requires ValidPlayer(p)
  {
    if p == White then r.capturesWhite else r.capturesBlack
  }

  /** The position: the two piece sets and the side to move (`self.player`). */
  datatype Board = Board(white: set<Square>, black: set<Square>, player: int)

  /** The starting layout of `Board.__init__`: the back rank plus six outposts. */
  function InitialBoard(): Board {
    Board({Square(0,0), Square(0,1), Square(0,2), Square(0,3), Square(0,4), Square(0,5),
           Square(0,6), Square(0,7), Square(0,8), Square(1,1), Square(1,7), Square(2,2),
           Square(2,6), Square(3,3), Square(3,5)},
          {Square(8,0), Square(8,1), Square(8,2), Square(8,3), Square(8,4), Square(8,5),
           Square(8,6), Square(8,7), Square(8,8), Square(7,1), Square(7,7), Square(6,2),
           Square(6,6), Square(5,3), Square(5,5)},
          White)
  }

  /** The pieces of `p`; any id other than WHITE selects the black set, as the
      source's `if player == WHITE else` does. */
  function Mine(b: Board, p: int): set<Square> {
    if p == White then b.white else b.black
  }

  function Theirs(b: Board, p: int): set<Square> {
    if p == White then b.black else b.white
  }

  /** Both piece sets are disjoint and lie on the board. */
  predicate Consistent(b: Board) {
    && b.white !! b.black
    && (forall s :: s in b.white ==> OnBoard(s))
    && (forall s :: s in b.black ==> OnBoard(s))
  }

  function MoveTo(piece: Square, land: Square): Move {
    Move(piece.row, piece.col, land.row, land.col)
  }

  // ---------------------------------------------------------------------------
  // Move generation, one piece at a time (board.py:20-37)
  // ---------------------------------------------------------------------------

  /** The jump of `piece` along capture offset `off`. */
  function JumpTo(piece: Square, off: Square): Move {
    MoveTo(piece, AddTuples(piece, AddTuples(off, off)))
  }

  /** The capture test of board.py:24: landing square on the board and free,
      and an opponent piece on the square in between. */
  predicate JumpOk(b: Board, p: int, piece: Square, off: Square) {
    var land := AddTuples(piece, AddTuples(off, off));
    && 0 <= land.row < BoardSize && 0 <= land.col < BoardSize
    && AddTuples(piece, off) in Theirs(b, p)
    && land !in Mine(b, p) && land !in Theirs(b, p)
  }

  /** The forward test of board.py:32: only the row is bounds-checked. */
  predicate ForwardOk(r: Rules, b: Board, p: int, piece: Square)
    requires ValidPlayer(p)
  {
    var land := AddTuples(piece, Forward(r, p));
    0 <= land.row < BoardSize && land !in Mine(b, p) && land !in Theirs(b, p)
  }

  /** The lateral test of board.py:36: only the column is bounds-checked. */
  predicate LateralOk(b: Board, p: int, piece: Square, off: Square) {
    var land := AddTuples(piece, off);
    0 <= land.col < BoardSize && land !in Mine(b, p) && land !in Theirs(b, p)
  }

  /** The jumps of one piece, offsets in order. */
  function PieceJumps(b: Board, p: int, piece: Square, offs: seq<Square>): seq<Move>
  {
    if offs == [] then []
    else
      PieceJumps(b, p, piece, offs[..|offs| - 1])
      + (if JumpOk(b, p, piece, offs[|offs| - 1]) then [JumpTo(piece, offs[|offs| - 1])] else [])
  }

  /** The lateral steps of one piece, offsets in order. */
  function PieceLaterals(b: Board, p: int, piece: Square, offs: seq<Square>): seq<Move>
  {
    if offs == [] then []
    else
      PieceLaterals(b, p, piece, offs[..|offs| - 1])
      + (if LateralOk(b, p, piece, offs[|offs| - 1])
         then [MoveTo(piece, AddTuples(piece, offs[|offs| - 1]))] else [])
  }

  /** The quiet moves of one piece: the forward step, then the lateral steps. */
  function PieceQuiet(r: Rules, b: Board, p: int, piece: Square): seq<Move>
    requires ValidPlayer(p)
  {
    (if ForwardOk(r, b, p, piece) then [MoveTo(piece, AddTuples(piece, Forward(r, p)))] else [])
    + PieceLaterals(b, p, piece, r.lateral)
  }

  /** All jumps of the pieces in `pieces`, in enumeration order. */
  function JumpSeq(r: Rules, b: Board, p: int, pieces: seq<Square>): seq<Move>
    requires ValidPlayer(p)
  {
    if pieces == [] then []
    else JumpSeq(r, b, p, pieces[..|pieces| - 1]) + PieceJumps(b, p, pieces[|pieces| - 1], Captures(r, p))
  }

  /** All quiet moves of the pieces in `pieces`, in enumeration order. */
  function QuietSeq(r: Rules, b: Board, p: int, pieces: seq<Square>): seq<Move>
    requires ValidPlayer(p)
  {
    if pieces == [] then []
    else QuietSeq(r, b, p, pieces[..|pieces| - 1]) + PieceQuiet(r, b, p, pieces[|pieces| - 1])
  }

  // ---------------------------------------------------------------------------
  // The move sets
  // ---------------------------------------------------------------------------

  /** Every jump available to `p`. */
  function Jumps(r: Rules, b: Board, p: int): set<Move>
    requires ValidPlayer(p)
  {
    set piece, off | piece in Mine(b, p) && off in Captures(r, p) && JumpOk(b, p, piece, off)
      :: JumpTo(piece, off)
  }

  /** Every single forward or lateral step available to `p`. */
  function Quiet(r: Rules, b: Board, p: int): set<Move>
    requires ValidPlayer(p)
  {
    (set piece | piece in Mine(b, p) && ForwardOk(r, b, p, piece)
       :: MoveTo(piece, AddTuples(piece, Forward(r, p))))
    + (set piece, off | piece in Mine(b, p) && off in r.lateral && LateralOk(b, p, piece, off)
       :: MoveTo(piece, AddTuples(piece, off)))
  }

  /** The legal moves under the mandatory-capture rule. */
  function Legal(r: Rules, b: Board, p: int): set<Move>
    requires ValidPlayer(p)
  {
    if Jumps(r, b, p) != {} then Jumps(r, b, p) else Quiet(r, b, p)
  }

  /** `generate_moves` over a given enumeration of the mover's pieces: every
      jump, then the quiet moves only if no jump was found and the caller did
      not ask for captures only. */
  function GenerateMoves(r: Rules, b: Board, p: int, pieces: seq<Square>, captureOnly: bool): seq<Move>
    requires ValidPlayer(p)
  {
    var js := JumpSeq(r, b, p, pieces);
    if captureOnly || js != [] then js else js + QuietSeq(r, b, p, pieces)
  }

  /** `generate_moves_unordered`: one pass over the pieces that, on the first
      jump found, clears the moves collected so far and from then on collects
      jumps only. */
  method GenerateMovesUnordered(r: Rules, b: Board, p: int, order: seq<Square>) returns (moves: seq<Move>)
    requires ValidPlayer(p)
    ensures moves == GenerateMoves(r, b, p, order, false)
  {
    moves := [];
    var capture := false;
    var i := 0;
    while i < |order|
      invariant 0 <= i <= |order|
      invariant capture == (JumpSeq(r, b, p, order[..i]) != [])
      invariant moves == if capture then JumpSeq(r, b, p, order[..i]) else QuietSeq(r, b, p, order[..i])
    {
      assert order[..i + 1][..i] == order[..i];
      moves, capture := CollectJumps(b, p, order[i], Captures(r, p), moves, capture,
                                     JumpSeq(r, b, p, order[..i]), QuietSeq(r, b, p, order[..i]));
      if !capture {
        var quiet := CollectQuiet(r, b, p, order[i]);
        moves := moves + quiet;
      }
      i := i + 1;
    }
    assert order[..|order|] == order;
  }

  /** The capture loop of one piece (board.py:21-28). */
  method CollectJumps(b: Board, p: int, piece: Square, caps: seq<Square>, moves0: seq<Move>, capture0: bool,
                      ghost before: seq<Move>, ghost quietSoFar: seq<Move>)
    returns (moves: seq<Move>, capture: bool)
    requires capture0 == (before != [])
    requires moves0 == if capture0 then before else quietSoFar
    ensures capture == (before + PieceJumps(b, p, piece, caps) != [])
    ensures moves == if capture then before + PieceJumps(b, p, piece, caps) else quietSoFar
  {
    moves, capture := moves0, capture0;
    ghost var jumps: seq<Move> := [];
    var j := 0;
    while j < |caps|
      invariant 0 <= j <= |caps|
      invariant jumps == PieceJumps(b, p, piece, caps[..j])
      invariant capture == (before + jumps != [])
      invariant moves == if capture then before + jumps else quietSoFar
    {
      assert caps[..j + 1][..j] == caps[..j];
      var off := caps[j];
      var newPos := AddTuples(piece, AddTuples(off, off));
      if 0 <= newPos.row < BoardSize && 0 <= newPos.col < BoardSize
         && AddTuples(piece, off) in Theirs(b, p)
         && newPos !in Mine(b, p) && newPos !in Theirs(b, p)
      {
        assert JumpOk(b, p, piece, off) && JumpTo(piece, off) == MoveTo(piece, newPos);
        if !capture {
          capture := true;
          moves := [];
        }
        moves := moves + [MoveTo(piece, newPos)];
        assert before + (jumps + [MoveTo(piece, newPos)]) == before + jumps + [MoveTo(piece, newPos)];
        jumps := jumps + [MoveTo(piece, newPos)];
      } else {
        assert !JumpOk(b, p, piece, off);
      }
      j := j + 1;
    }
    assert caps[..|caps|] == caps;
  }

  /** The forward and lateral steps of one piece (board.py:30-37). */
  method CollectQuiet(r: Rules, b: Board, p: int, piece: Square) returns (quiet: seq<Move>)
    requires ValidPlayer(p)
    ensures quiet == PieceQuiet(r, b, p, piece)
  {
    var fwd := AddTuples(piece, Forward(r, p));
    var head: seq<Move> := [];
    if 0 <= fwd.row < BoardSize && fwd !in Mine(b, p) && fwd !in Theirs(b, p) {
      head := [MoveTo(piece, fwd)];
    }
    var lateral: seq<Move> := [];
    var k := 0;
    while k < |r.lateral|
      invariant 0 <= k <= |r.lateral|
      invariant lateral == PieceLaterals(b, p, piece, r.lateral[..k])
    {
      assert r.lateral[..k + 1][..k] == r.lateral[..k];
      var land := AddTuples(piece, r.lateral[k]);
      if 0 <= land.col < BoardSize && land !in Mine(b, p) && land !in Theirs(b, p) {
        lateral := lateral + [MoveTo(piece, land)];
      }
      k := k + 1;
    }
    assert r.lateral[..|r.lateral|] == r.lateral;
    quiet := head + lateral;
  }

  // ---------------------------------------------------------------------------
  // The generators agree with the move sets
  // ---------------------------------------------------------------------------

  function Elems(s: seq<Move>): set<Move> {
    set m | m in s
  }

  lemma ElemsAppend(a: seq<Move>, b: seq<Move>)
    ensures Elems(a + b) == Elems(a) + Elems(b)
  {
    forall m | m in Elems(a + b) ensures m in Elems(a) + Elems(b) {
      var i :| 0 <= i < |a + b| && (a + b)[i] == m;
      if i < |a| { assert a[i] == m; } else { assert b[i - |a|] == m; }
    }
  }

  /** The jumps of `piece` along the offsets of `offs`. */
  function JumpSetOf(b: Board, p: int, piece: Square, offs: seq<Square>): set<Move> {
    set off | off in offs && JumpOk(b, p, piece, off) :: JumpTo(piece, off)
  }

  /** The lateral steps of `piece` along the offsets of `offs`. */
  function LateralSetOf(b: Board, p: int, piece: Square, offs: seq<Square>): set<Move> {
    set off | off in offs && LateralOk(b, p, piece, off) :: MoveTo(piece, AddTuples(piece, off))
  }

  lemma {:induction false} PieceJumpsElems(b: Board, p: int, piece: Square, offs: seq<Square>)
    ensures Elems(PieceJumps(b, p, piece, offs)) == JumpSetOf(b, p, piece, offs)
    decreases |offs|
  {
    if offs != [] {
      var init, last := offs[..|offs| - 1], offs[|offs| - 1];
      PieceJumpsElems(b, p, piece, init);
      assert offs == init + [last];
      var tail := if JumpOk(b, p, piece, last) then [JumpTo(piece, last)] else [];
      ElemsAppend(PieceJumps(b, p, piece, init), tail);
      assert Elems(tail) == if JumpOk(b, p, piece, last) then {JumpTo(piece, last)} else {};
      forall m | m in JumpSetOf(b, p, piece, offs)
        ensures m in JumpSetOf(b, p, piece, init) + Elems(tail)
      {
        var off :| off in offs && JumpOk(b, p, piece, off) && m == JumpTo(piece, off);
        if off !in init { assert off == last; }
      }
    }
  }

  lemma {:induction false} PieceLateralsElems(b: Board, p: int, piece: Square, offs: seq<Square>)
    ensures Elems(PieceLaterals(b, p, piece, offs)) == LateralSetOf(b, p, piece, offs)
    decreases |offs|
  {
    if offs != [] {
      var init, last := offs[..|offs| - 1], offs[|offs| - 1];
      PieceLateralsElems(b, p, piece, init);
      assert offs == init + [last];
      var tail := if LateralOk(b, p, piece, last) then [MoveTo(piece, AddTuples(piece, last))] else [];
      ElemsAppend(PieceLaterals(b, p, piece, init), tail);
      assert Elems(tail) == if LateralOk(b, p, piece, last) then {MoveTo(piece, AddTuples(piece, last))} else {};
      forall m | m in LateralSetOf(b, p, piece, offs)
        ensures m in LateralSetOf(b, p, piece, init) + Elems(tail)
      {
        var off :| off in offs && LateralOk(b, p, piece, off) && m == MoveTo(piece, AddTuples(piece, off));
        if off !in init { assert off == last; }
      }
    }
  }

  /** The jumps of the pieces listed in `pieces`. */
  function JumpsOfPieces(r: Rules, b: Board, p: int, pieces: seq<Square>): set<Move>
    requires ValidPlayer(p)
  {
    set piece, off | piece in pieces && off in Captures(r, p) && JumpOk(b, p, piece, off)
      :: JumpTo(piece, off)
  }

  /** The forward steps of the pieces listed in `pieces`. */
  function ForwardsOfPieces(r: Rules, b: Board, p: int, pieces: seq<Square>): set<Move>
    requires ValidPlayer(p)
  {
    set piece | piece in pieces && ForwardOk(r, b, p, piece) :: MoveTo(piece, AddTuples(piece, Forward(r, p)))
  }

  /** The lateral steps of the pieces listed in `pieces`. */
  function LateralsOfPieces(r: Rules, b: Board, p: int, pieces: seq<Square>): set<Move> {
    set piece, off | piece in pieces && off in r.lateral && LateralOk(b, p, piece, off)
      :: MoveTo(piece, AddTuples(piece, off))
  }

  /** The jumps found by one pass over an enumeration are those of its pieces. */
  lemma {:induction false} JumpSeqElems(r: Rules, b: Board, p: int, pieces: seq<Square>)
    requires ValidPlayer(p)
    ensures Elems(JumpSeq(r, b, p, pieces)) == JumpsOfPieces(r, b, p, pieces)
    decreases |pieces|
  {
    if pieces != [] {
      var init, last := pieces[..|pieces| - 1], pieces[|pieces| - 1];
      JumpSeqElems(r, b, p, init);
      PieceJumpsElems(b, p, last, Captures(r, p));
      ElemsAppend(JumpSeq(r, b, p, init), PieceJumps(b, p, last, Captures(r, p)));
      assert pieces == init + [last];
      forall m | m in JumpsOfPieces(r, b, p, pieces)
        ensures m in JumpsOfPieces(r, b, p, init) + JumpSetOf(b, p, last, Captures(r, p))
      {
        var piece, off :| piece in pieces && off in Captures(r, p) && JumpOk(b, p, piece, off)
                          && m == JumpTo(piece, off);
        if piece !in init { assert piece == last; }
      }
    }
  }

  /** Adding a piece to an enumeration adds its forward step, if any. */
  lemma ForwardsSnoc(r: Rules, b: Board, p: int, init: seq<Square>, last: Square)
    requires ValidPlayer(p)
    ensures ForwardsOfPieces(r, b, p, init + [last])
         == ForwardsOfPieces(r, b, p, init)
            + (if ForwardOk(r, b, p, last) then {MoveTo(last, AddTuples(last, Forward(r, p)))} else {})
  {
    forall m | m in ForwardsOfPieces(r, b, p, init + [last])
      ensures m in ForwardsOfPieces(r, b, p, init)
    || (ForwardOk(r, b, p, last) && m == MoveTo(last, AddTuples(last, Forward(r, p))))
    {
      var piece :| piece in init + [last] && ForwardOk(r, b, p, piece)
                   && m == MoveTo(piece, AddTuples(piece, Forward(r, p)));
      if piece !in init { assert piece == last; }
    }
  }

  /** Adding a piece to an enumeration adds its lateral steps. */
  lemma LateralsSnoc(r: Rules, b: Board, p: int, init: seq<Square>, last: Square)
    ensures LateralsOfPieces(r, b, p, init + [last])
         == LateralsOfPieces(r, b, p, init) + LateralSetOf(b, p, last, r.lateral)
  {
    forall m | m in LateralsOfPieces(r, b, p, init + [last])
      ensures m in LateralsOfPieces(r, b, p, init) + LateralSetOf(b, p, last, r.lateral)
    {
      var piece, off :| piece in init + [last] && off in r.lateral && LateralOk(b, p, piece, off)
                        && m == MoveTo(piece, AddTuples(piece, off));
      if piece !in init { assert piece == last; }
    }
  }

  /** The quiet moves found by one pass over an enumeration are those of its pieces. */
  lemma {:induction false} QuietSeqElems(r: Rules, b: Board, p: int, pieces: seq<Square>)
    requires ValidPlayer(p)
    ensures Elems(QuietSeq(r, b, p, pieces))
         == ForwardsOfPieces(r, b, p, pieces) + LateralsOfPieces(r, b, p, pieces)
    decreases |pieces|
  {
    if pieces != [] {
      var init, last := pieces[..|pieces| - 1], pieces[|pieces| - 1];
      assert pieces == init + [last];
      QuietSeqElems(r, b, p, init);
      PieceLateralsElems(b, p, last, r.lateral);
      var fwd := if ForwardOk(r, b, p, last) then [MoveTo(last, AddTuples(last, Forward(r, p)))] else [];
      ElemsAppend(QuietSeq(r, b, p, init), PieceQuiet(r, b, p, last));
      ElemsAppend(fwd, PieceLaterals(b, p, last, r.lateral));
      ForwardsSnoc(r, b, p, init, last);
      LateralsSnoc(r, b, p, init, last);
      assert Elems(fwd) == (if ForwardOk(r, b, p, last) then {MoveTo(last, AddTuples(last, Forward(r, p)))} else {});
    }
  }

  /** Whatever order the pieces are visited in, `generate_moves` yields exactly
      the legal moves, and only the jumps when asked for captures. */
  lemma GenerateMovesIsLegal(r: Rules, b: Board, p: int, order: seq<Square>)
    requires ValidPlayer(p)
    requires forall s :: s in order <==> s in Mine(b, p)
    ensures Elems(GenerateMoves(r, b, p, order, false)) == Legal(r, b, p)
    ensures Elems(GenerateMoves(r, b, p, order, true)) == Jumps(r, b, p)
  {
    JumpSeqElems(r, b, p, order);
    QuietSeqElems(r, b, p, order);
    var js := JumpSeq(r, b, p, order);
    assert JumpsOfPieces(r, b, p, order) == Jumps(r, b, p);
    assert ForwardsOfPieces(r, b, p, order) + LateralsOfPieces(r, b, p, order) == Quiet(r, b, p);
    assert Elems(js) == Jumps(r, b, p);
    ElemsAppend(js, QuietSeq(r, b, p, order));
    if js != [] {
      assert js[0] in Elems(js);
    }
  }

  /** The row of a square, the sort key of `sorted_moves`. */
  function RowKey(s: Square): int { s.row }

  /** `generate_moves(player, sorted_moves, capture, reverse)` over an
      enumeration of the mover's pieces: with `sorted_moves` the pieces are
      visited by row, descending for WHITE when `reverse` holds and for BLACK
      when it does not. */
  function GenerateMovesOrdered(r: Rules, b: Board, p: int, enumeration: seq<Square>,
                                sortedMoves: bool, captureOnly: bool, reverse: bool): seq<Move>
    requires ValidPlayer(p)
  {
    var order := if sortedMoves then Sorting.Sort(RowKey, if p == White then reverse else !reverse, enumeration)
                 else enumeration;
    GenerateMoves(r, b, p, order, captureOnly)
  }

  /** Sorting the pieces changes only the order of the moves: the generated
      set is the legal set (or the jump set) whatever the flags. */
  lemma OrderedGenerationSameMoves(r: Rules, b: Board, p: int, enumeration: seq<Square>,
                                   sortedMoves: bool, captureOnly: bool, reverse: bool)
    requires ValidPlayer(p)
    requires forall s :: s in enumeration <==> s in Mine(b, p)
    ensures Elems(GenerateMovesOrdered(r, b, p, enumeration, sortedMoves, captureOnly, reverse))
         == if captureOnly then Jumps(r, b, p) else Legal(r, b, p)
  {
    var desc := if p == White then reverse else !reverse;
    var order := if sortedMoves then Sorting.Sort(RowKey, desc, enumeration) else enumeration;
    forall s ensures s in order <==> s in Mine(b, p) {
      Sorting.SortKeepsElements(RowKey, desc, enumeration, s);
    }
    GenerateMovesIsLegal(r, b, p, order);
  }

  /** Mandatory capture: when a jump exists the legal moves are exactly the
      jumps, each changing the row by two; otherwise none of them is a jump. */
  lemma MandatoryCapture(r: Rules, b: Board, p: int)
    requires ValidPlayer(p) && WellFormed(r)
    ensures Jumps(r, b, p) != {} ==> Legal(r, b, p) == Jumps(r, b, p)
    ensures forall m :: m in Jumps(r, b, p) ==> IsJump(m)
    ensures Jumps(r, b, p) == {} ==> forall m :: m in Legal(r, b, p) ==> !IsJump(m)
  {
    forall m | m in Jumps(r, b, p)
      ensures IsJump(m)
    {
      var piece, off :| piece in Mine(b, p) && off in Captures(r, p) && JumpOk(b, p, piece, off)
                        && m == JumpTo(piece, off);
      var i :| 0 <= i < |Captures(r, p)| && Captures(r, p)[i] == off;
    }
    forall m | m in Quiet(r, b, p)
      ensures !IsJump(m)
    {
      if piece :| piece in Mine(b, p) && ForwardOk(r, b, p, piece)
                  && m == MoveTo(piece, AddTuples(piece, Forward(r, p))) {
      } else {
        var piece, off :| piece in Mine(b, p) && off in r.lateral && LateralOk(b, p, piece, off)
                          && m == MoveTo(piece, AddTuples(piece, off));
        var i :| 0 <= i < |r.lateral| && r.lateral[i] == off;
      }
    }
  }

  /** Every legal move starts on one of the mover's pieces and lands on a free
      square of the board; a jump passes over an opponent piece. */
  lemma LegalMoveValid(r: Rules, b: Board, p: int, m: Move)
    requires ValidPlayer(p) && WellFormed(r) && Consistent(b)
    requires m in Legal(r, b, p)
    ensures m.From() in Mine(b, p)
    ensures OnBoard(m.To())
    ensures m.To() !in Mine(b, p) && m.To() !in Theirs(b, p)
    ensures IsJump(m) ==> Mid(m) in Theirs(b, p)
  {
    MandatoryCapture(r, b, p);
    if m in Jumps(r, b, p) {
      var piece, off :| piece in Mine(b, p) && off in Captures(r, p) && JumpOk(b, p, piece, off)
                        && m == JumpTo(piece, off);
      assert Mid(m) == AddTuples(piece, off);
    } else {
      assert m in Quiet(r, b, p);
      if piece :| piece in Mine(b, p) && ForwardOk(r, b, p, piece)
                  && m == MoveTo(piece, AddTuples(piece, Forward(r, p))) {
        assert OnBoard(piece);
      } else {
        var piece, off :| piece in Mine(b, p) && off in r.lateral && LateralOk(b, p, piece, off)
                          && m == MoveTo(piece, AddTuples(piece, off));
        var i :| 0 <= i < |r.lateral| && r.lateral[i] == off;
        assert OnBoard(piece);
      }
    }
  }

  // ---------------------------------------------------------------------------
  // Apply and undo (board.py:66-73, board.py:106-113)
  // ---------------------------------------------------------------------------

  /** The board with `mine` as the pieces of `p` and `theirs` as the others. */
  function Rebuild(b: Board, p: int, mine: set<Square>, theirs: set<Square>): Board {
    if p == White then Board(mine, theirs, b.player) else Board(theirs, mine, b.player)
  }

  /** `move`: the piece leaves its square and lands on the target; a jump
      removes the opponent piece it passes over. `set.remove` of a missing
      element raises, which is `None` here. */
  function ApplyMove(b: Board, p: int, m: Move): (res: Option<Board>)
    ensures res.Some? <==> m.From() in Mine(b, p) && (IsJump(m) ==> Mid(m) in Theirs(b, p))
    ensures res.Some? ==> m.To() in Mine(res.value, p) && res.value.player == b.player
  {
    if m.From() !in Mine(b, p) then None
    else
      var mine := Mine(b, p) - {m.From()} + {m.To()};
      if !IsJump(m) then Some(Rebuild(b, p, mine, Theirs(b, p)))
      else if Mid(m) !in Theirs(b, p) then None
      else Some(Rebuild(b, p, mine, Theirs(b, p) - {Mid(m)}))
  }

  /** `undomove`: the piece goes back and a jumped piece is restored. */
  function UndoMove(b: Board, p: int, m: Move): (res: Option<Board>)
    ensures res.Some? <==> m.To() in Mine(b, p)
    ensures res.Some? ==> m.From() in Mine(res.value, p) && res.value.player == b.player
  {
    if m.To() !in Mine(b, p) then None
    else
      var mine := Mine(b, p) - {m.To()} + {m.From()};
      Some(Rebuild(b, p, mine, if IsJump(m) then Theirs(b, p) + {Mid(m)} else Theirs(b, p)))
  }

  /** The preconditions under which apply/undo are meant to be used: the piece
      exists, the target is free, and a jump passes over an opponent piece. */
  predicate Applicable(b: Board, p: int, m: Move) {
    && m.From() in Mine(b, p)
    && m.To() !in Mine(b, p) && m.To() !in Theirs(b, p)
    && (IsJump(m) ==> Mid(m) in Theirs(b, p))
  }

  /** Undo after apply restores both piece sets exactly. */
  lemma MoveUndoRoundTrip(b: Board, p: int, m: Move)
    requires Applicable(b, p, m)
    ensures ApplyMove(b, p, m).Some?
    ensures UndoMove(ApplyMove(b, p, m).value, p, m) == Some(b)
  {
    var after := ApplyMove(b, p, m).value;
    assert Mine(after, p) == Mine(b, p) - {m.From()} + {m.To()};
    assert Mine(b, p) - {m.From()} + {m.To()} - {m.To()} + {m.From()} == Mine(b, p);
    if IsJump(m) {
      assert Theirs(b, p) - {Mid(m)} + {Mid(m)} == Theirs(b, p);
    }
  }

  /** Apply keeps the sets disjoint and on the board, keeps the mover's count,
      and removes exactly one opponent piece iff the move is a jump. */
  lemma MovePreservesCounts(b: Board, p: int, m: Move)
    requires Consistent(b) && Applicable(b, p, m) && OnBoard(m.To())
    ensures ApplyMove(b, p, m).Some?
    ensures Consistent(ApplyMove(b, p, m).value)
    ensures |Mine(ApplyMove(b, p, m).value, p)| == |Mine(b, p)|
    ensures |Theirs(ApplyMove(b, p, m).value, p)| == |Theirs(b, p)| - 1 <==> IsJump(m)
    ensures !IsJump(m) ==> Theirs(ApplyMove(b, p, m).value, p) == Theirs(b, p)
  {
    var after := ApplyMove(b, p, m).value;
    assert m.From() != m.To();
    assert |Mine(b, p) - {m.From()}| == |Mine(b, p)| - 1;
    if IsJump(m) {
      assert |Theirs(b, p) - {Mid(m)}| == |Theirs(b, p)| - 1;
    }
  }

  /** Every legal move can be applied and undone again. */
  lemma LegalMoveRoundTrip(r: Rules, b: Board, p: int, m: Move)
    requires ValidPlayer(p) && WellFormed(r) && Consistent(b)
    requires m in Legal(r, b, p)
    ensures ApplyMove(b, p, m).Some? && Consistent(ApplyMove(b, p, m).value)
    ensures UndoMove(ApplyMove(b, p, m).value, p, m) == Some(b)
  {
    LegalMoveValid(r, b, p, m);
    MoveUndoRoundTrip(b, p, m);
    MovePreservesCounts(b, p, m);
  }

  // ---------------------------------------------------------------------------
  // Win test, checked move, and the promotion-path test
  // ---------------------------------------------------------------------------

  /** `checkwin`: 1 if a white piece stands on a white winning square (checked
      first), else 2 if a black piece stands on a black winning square, else 0.
      Piece counts are not consulted. */
  function CheckWin(r: Rules, b: Board): (w: int)
    ensures w == 1 <==> exists s :: s in b.white && s in r.winWhite
    ensures w == 2 <==> ((forall s :: s in b.white ==> s !in r.winWhite)
                         && (exists s :: s in b.black && s in r.winBlack))
    ensures w == 0 || w == 1 || w == 2
  {
    IntersectionWitness(b.white, r.winWhite);
    IntersectionWitness(b.black, r.winBlack);
    if b.white * r.winWhite != {} then 1
    else if b.black * r.winBlack != {} then 2
    else 0
  }

  lemma IntersectionWitness(a: set<Square>, b: set<Square>)
    ensures a * b != {} <==> exists s :: s in a && s in b
  {
    if a * b != {} {
      var s :| s in a * b;
      assert s in a && s in b;
    } else {
      forall s | s in a ensures s !in b {
        assert s !in a * b;
      }
    }
  }

  /** A side with no pieces left has not lost as far as `checkwin` can tell. */
  lemma CheckWinIgnoresElimination()
    ensures var b := Board({Square(0, 0)}, {}, Black);
            b.black == {} && CheckWin(StandardRules(), b) == 0
  {
    var b := Board({Square(0, 0)}, {}, Black);
    assert Square(0, 0) !in RowSquares(BoardSize - 1);
  }

  /** `movecheck`: applies the move and passes the turn iff the move is among
      the moves generated for the side to move; otherwise nothing changes. The
      move is applied for `p`, which the source does not compare with
      `self.player`; `None` is the `KeyError` that can then follow. */
  function MoveCheck(r: Rules, b: Board, p: int, m: Move): (res: Option<(bool, Board)>)
    requires ValidPlayer(b.player)
    ensures m !in Legal(r, b, b.player) ==> res == Some((false, b))
    ensures res.Some? && res.value.0 ==> (m in Legal(r, b, b.player)
                                          && res.value.1.player == Opponent(b.player))
    ensures res.Some? && res.value.0 ==>
      ApplyMove(b, p, m).Some? && res.value.1 == ApplyMove(b, p, m).value.(player := Opponent(b.player))
    ensures m in Legal(r, b, b.player) && ApplyMove(b, p, m).Some? ==> res.Some? && res.value.0
    ensures res.None? <==> m in Legal(r, b, b.player) && ApplyMove(b, p, m).None?
  {
    if m !in Legal(r, b, b.player) then Some((false, b))
    else
      match ApplyMove(b, p, m)
      case None => None
      case Some(after) => Some((true, after.(player := Opponent(b.player))))
  }

  /** A checked move by the side to move never fails and is undone by `undomove`. */
  lemma MoveCheckLegal(r: Rules, b: Board, m: Move)
    requires ValidPlayer(b.player) && WellFormed(r) && Consistent(b)
    requires m in Legal(r, b, b.player)
    ensures MoveCheck(r, b, b.player, m).Some?
    ensures var after := MoveCheck(r, b, b.player, m).value.1;
            after.player == Opponent(b.player)
            && UndoMove(after, b.player, m) == Some(b.(player := Opponent(b.player)))
  {
    LegalMoveRoundTrip(r, b, b.player, m);
    var moved := ApplyMove(b, b.player, m).value;
    assert UndoMove(moved.(player := Opponent(b.player)), b.player, m)
        == Some(b.(player := Opponent(b.player)));
  }

  /** The squares `second_last_but_win` requires to be free for a piece of `p`
      on row `y`, column `x`. */
  function FreeCellsNeeded(p: int, y: int, x: int): set<Square> {
    var row := if p == White then 8 else 0;
    var row1 := if p == White then 7 else 1;
    var row2 := if p == White then 6 else 2;
    if (y == 5 && p == White) || (y == 3 && p == Black) then
      {Square(row, x), Square(row, x + 1), Square(row, x - 1),
       Square(row1, x), Square(row1, x + 1), Square(row1, x - 1),
       Square(row, x + 2), Square(row, x - 2),
       Square(row1, x + 2), Square(row1, x - 2),
       Square(row, x + 3), Square(row, x - 3),
       Square(row2, x), Square(row2, x + 1), Square(row2, x - 1)}
    else if (y == 6 && p == White) || (y == 2 && p == Black) then
      {Square(row, x), Square(row, x + 1), Square(row, x - 1),
       Square(row1, x), Square(row1, x + 1), Square(row1, x - 1),
       Square(row, x + 2), Square(row, x - 2)}
    else if (y == 7 && p == White) || (y == 1 && p == Black) then
      {Square(row, x), Square(row, x + 1), Square(row, x - 1)}
    else {}
  }

  /** `second_last_but_win`: every square of the piece's promotion cone is an
      empty cell of `ALL_CELLS`. */
  function SecondLastButWin(r: Rules, b: Board, p: int, y: int, x: int): (ok: bool)
    ensures ok <==> forall s :: s in FreeCellsNeeded(p, y, x) ==>
                      s in r.allCells && s !in b.white && s !in b.black
  {
    FreeCellsNeeded(p, y, x) <= r.allCells - b.white - b.black
  }

  /** The cones are nested: a piece that passes the test passes it again one
      row nearer its goal, on the same column. */
  lemma SecondLastButWinNested(r: Rules, b: Board, p: int, x: int)
    requires ValidPlayer(p)
    ensures var (y5, y6, y7) := if p == White then (5, 6, 7) else (3, 2, 1);
      && (SecondLastButWin(r, b, p, y5, x) ==> SecondLastButWin(r, b, p, y6, x))
      && (SecondLastButWin(r, b, p, y6, x) ==> SecondLastButWin(r, b, p, y7, x))
  {
    var (y5, y6, y7) := if p == White then (5, 6, 7) else (3, 2, 1);
    assert FreeCellsNeeded(p, y7, x) <= FreeCellsNeeded(p, y6, x) <= FreeCellsNeeded(p, y5, x);
  }

  /** Outside the three rows before its goal row a piece needs no free
      cell, so the test passes whatever the board. */
  lemma SecondLastButWinOutsideCone(r: Rules, b: Board, p: int, y: int, x: int)
    requires !(p == White && 5 <= y <= 7) && !(p == Black && 1 <= y <= 3)
    ensures SecondLastButWin(r, b, p, y, x)
  {
    assert FreeCellsNeeded(p, y, x) == {};
  }

  /** A square of the standard board has both coordinates among the nine
      columns. */
  lemma AllSquaresBounds(s: Square)
    ensures s in AllSquares() <==> s.row in Columns() && s.col in Columns()
  {
    if s.row in Columns() && s.col in Columns() {
      assert s == Square(s.row, s.col);
    }
  }

  /** With the standard cells, a piece that passes the test on the row
      before its goal row may step forward onto an empty winning square, and
      one that passes it three rows away stands on one of the three middle
      columns, since its cone reaches three columns to either side. */
  lemma SecondLastButWinStandard(b: Board, p: int, x: int)
    requires ValidPlayer(p)
    ensures var (y5, y7, goal) := if p == White then (5, 7, 8) else (3, 1, 0);
      var win := if p == White then StandardRules().winWhite else StandardRules().winBlack;
      && (SecondLastButWin(StandardRules(), b, p, y7, x) ==>
            1 <= x <= 7 && Square(goal, x) in win
            && Square(goal, x) !in b.white && Square(goal, x) !in b.black)
      && (SecondLastButWin(StandardRules(), b, p, y5, x) ==> 3 <= x <= 5)
  {
    if p == White {
      LastRowCone(b, White, 7, 8, x);
      FarCone(b, White, 5, 8, x);
    } else {
      LastRowCone(b, Black, 1, 0, x);
      FarCone(b, Black, 3, 0, x);
    }
  }

  lemma LastRowCone(b: Board, p: int, y: int, goal: int, x: int)
    requires (p == White && y == 7 && goal == 8) || (p == Black && y == 1 && goal == 0)
    ensures SecondLastButWin(StandardRules(), b, p, y, x) ==>
      1 <= x <= 7 && Square(goal, x) in RowSquares(goal)
      && Square(goal, x) !in b.white && Square(goal, x) !in b.black
  {
    if SecondLastButWin(StandardRules(), b, p, y, x) {
      var cone := FreeCellsNeeded(p, y, x);
      assert Square(goal, x - 1) in cone && Square(goal, x + 1) in cone && Square(goal, x) in cone;
      AllSquaresBounds(Square(goal, x - 1));
      AllSquaresBounds(Square(goal, x + 1));
      assert x in Columns();
    }
  }

  lemma FarCone(b: Board, p: int, y: int, goal: int, x: int)
    requires (p == White && y == 5 && goal == 8) || (p == Black && y == 3 && goal == 0)
    ensures SecondLastButWin(StandardRules(), b, p, y, x) ==> 3 <= x <= 5
  {
    if SecondLastButWin(StandardRules(), b, p, y, x) {
      var cone := FreeCellsNeeded(p, y, x);
      assert Square(goal, x - 3) in cone && Square(goal, x + 3) in cone;
      AllSquaresBounds(Square(goal, x - 3));
      AllSquaresBounds(Square(goal, x + 3));
    }
  }

  /** With the standard cells, a white piece on row 7 near the edge fails the
      test because its cone reaches off the board. */
  lemma SecondLastButWinOffBoard()
    ensures !SecondLastButWin(StandardRules(), Board({}, {}, White), White, 7, 0)
  {
    assert Square(8, -1) in FreeCellsNeeded(White, 7, 0);
    assert Square(8, -1) !in AllSquares();
  }
}

=== FILE: sorting.dfy ===
/** Python's `sorted(items, key=..., reverse=...)` on integer keys: a stable
    insertion sort. Used for the row-ordered move generation of board.py and
    for re-ordering root moves by score in quiescentengine.py. */
module Sorting {

  /** `a` may precede `b` in the output: ascending keys, or descending ones
      when `desc` holds. */
  predicate Precedes<T>(key: T -> int, desc: bool, a: T, b: T) {
    if desc then key(a) >= key(b) else key(a) <= key(b)
  }

  predicate SortedBy<T>(key: T -> int, desc: bool, s: seq<T>) {
    forall i, j :: 0 <= i < j < |s| ==> Precedes(key, desc, s[i], s[j])
  }

  /** Inserts `x` in front of the first element it may precede. */
  function Insert<T>(key: T -> int, desc: bool, x: T, s: seq<T>): (r: seq<T>)
    ensures multiset(r) == multiset(s) + multiset{x}
  {
    if s == [] || Precedes(key, desc, x, s[0]) then [x] + s
    else
      assert s == [s[0]] + s[1..];
      [s[0]] + Insert(key, desc, x, s[1..])
  }

  /** A sorted sequence stays sorted behind an element that may precede
      each of its elements. */
  lemma ConsSorted<T>(key: T -> int, desc: bool, a: T, s: seq<T>)
    requires SortedBy(key, desc, s)
    requires forall k :: 0 <= k < |s| ==> Precedes(key, desc, a, s[k])
    ensures SortedBy(key, desc, [a] + s)
  {
    var r := [a] + s;
    forall i, j | 0 <= i < j < |r|
      ensures Precedes(key, desc, r[i], r[j])
    {
      if i == 0 { assert r[j] == s[j - 1]; }
      else { assert r[i] == s[i - 1] && r[j] == s[j - 1]; }
    }
  }

  lemma {:induction false} InsertSorted<T>(key: T -> int, desc: bool, x: T, s: seq<T>)
    requires SortedBy(key, desc, s)
    ensures SortedBy(key, desc, Insert(key, desc, x, s))
  {
    if s == [] || Precedes(key, desc, x, s[0]) {
      forall k | 0 <= k < |s| ensures Precedes(key, desc, x, s[k]) {
        if k > 0 { assert Precedes(key, desc, s[0], s[k]); }
      }
      ConsSorted(key, desc, x, s);
    } else {
      var rest := Insert(key, desc, x, s[1..]);
      InsertSorted(key, desc, x, s[1..]);
      forall k | 0 <= k < |rest|
        ensures Precedes(key, desc, s[0], rest[k])
      {
        assert rest[k] in multiset(rest);
        if rest[k] in multiset(s[1..]) {
          var i :| 0 <= i < |s[1..]| && s[1..][i] == rest[k];
          assert s[i + 1] == rest[k];
        }
      }
      ConsSorted(key, desc, s[0], rest);
    }
  }

  /** The stable sort: earlier elements are inserted in front of equal ones. */
  function Sort<T>(key: T -> int, desc: bool, s: seq<T>): (r: seq<T>)
    ensures multiset(r) == multiset(s)
    ensures SortedBy(key, desc, r)
  {
    if s == [] then []
    else
      assert s == [s[0]] + s[1..];
      var rest := Sort(key, desc, s[1..]);
      InsertSorted(key, desc, s[0], rest);
      Insert(key, desc, s[0], rest)
  }

  /** Sorting keeps exactly the elements it was given. */
  lemma SortKeepsElements<T>(key: T -> int, desc: bool, s: seq<T>, x: T)
    ensures x in Sort(key, desc, s) <==> x in s
  {
    var r := Sort(key, desc, s);
    assert x in r <==> x in multiset(r);
    assert x in s <==> x in multiset(s);
  }

  /** The elements of `s` whose key is `k`, in their order in `s`. */
  function WithKey<T>(key: T -> int, k: int, s: seq<T>): seq<T> {
    if s == [] then []
    else (if key(s[0]) == k then [s[0]] else []) + WithKey(key, k, s[1..])
  }

  /** `Insert` passes only elements of other keys, so among the elements of
      its key `x` comes first. */
  lemma {:induction false} InsertWithKey<T>(key: T -> int, desc: bool, x: T, s: seq<T>, k: int)
    ensures WithKey(key, k, Insert(key, desc, x, s))
         == (if key(x) == k then [x] else []) + WithKey(key, k, s)
  {
    if s == [] || Precedes(key, desc, x, s[0]) {
      assert ([x] + s)[1..] == s;
    } else {
      var rest := Insert(key, desc, x, s[1..]);
      InsertWithKey(key, desc, x, s[1..], k);
      assert ([s[0]] + rest)[1..] == rest;
      assert key(s[0]) != key(x);
    }
  }

  /** The sort is stable: the elements of each key keep their relative
      order. */
  lemma {:induction false} SortStable<T>(key: T -> int, desc: bool, s: seq<T>, k: int)
    ensures WithKey(key, k, Sort(key, desc, s)) == WithKey(key, k, s)
  {
    if s != [] {
      SortStable(key, desc, s[1..], k);
      InsertWithKey(key, desc, s[0], Sort(key, desc, s[1..]), k);
    }
  }
}

=== FILE: ttable.dfy ===
/** The direct-mapped transposition tables of enginewithtt.py (2^23 slots of
    two uint64 words: full hash and packed entry) and of engine.py (2^23
    slots of three uint16 words, the first a tag holding the hash bits above
    the index). A hash is the set of its 1-bits, as in the Bits module. */
module TTable {
  import opened Wrappers
  import opened Coords
  import opened Bits
  import opened TTPack

  /** `int(zobrist) & 0x7FFFFF`: the low 23 bits select the slot. */
  function Index(z: Bits): (i: Bits)
    ensures Below(i, 23)
    ensures forall k :: k < 23 ==> (k in i <==> k in z)
  {
    z * Range(0, 23)
  }

  /** One slot of `np.zeros((2**23, 2), dtype=np.uint64)`. */
  datatype Slot = Slot(hash: Bits, packed: nat)

  /** The table holds a slot for every index; slots never written are the
      zero slot the array starts with. */
  type Table = map<Bits, Slot>

  const ZeroSlot: Slot := Slot({}, 0)

  function SlotAt(t: Table, i: Bits): Slot {
    if i in t then t[i] else ZeroSlot
  }

  /** `retrieve_tt`: the packed word of the slot whose stored hash equals the
      query in full, and nothing otherwise. */
  function Retrieve(t: Table, z: Bits): (r: Option<nat>)
    ensures r.Some? <==> SlotAt(t, Index(z)).hash == z
    ensures r.Some? ==> r.value == SlotAt(t, Index(z)).packed
  {
    var slot := SlotAt(t, Index(z));
    if slot.hash == z then Some(slot.packed) else None
  }

  /** The two writes of `storett`: hash and packed word, overwriting the slot
      unconditionally. */
  function Store(t: Table, z: Bits, packed: nat): (r: Table)
    ensures SlotAt(r, Index(z)) == Slot(z, packed)
    ensures forall i :: i != Index(z) ==> SlotAt(r, i) == SlotAt(t, i)
  {
    t[Index(z) := Slot(z, packed)]
  }

  /** Storing then probing with the same hash returns the word just written. */
  lemma StoreThenRetrieve(t: Table, z: Bits, packed: nat)
    ensures Retrieve(Store(t, z, packed), z) == Some(packed)
  {
  }

  /** A store leaves the probes of every hash with another index unchanged. */
  lemma StoreKeepsOtherProbes(t: Table, z: Bits, packed: nat, z2: Bits)
    requires Index(z2) != Index(z)
    ensures Retrieve(Store(t, z, packed), z2) == Retrieve(t, z2)
  {
  }

  /** A different hash with the same low 23 bits misses after the store. */
  lemma CollisionMisses(t: Table, z: Bits, packed: nat, z2: Bits)
    requires Index(z2) == Index(z) && z2 != z
    ensures Retrieve(Store(t, z, packed), z2) == None
  {
  }

  /** On the fresh zero table the all-zero hash "hits" and decodes as depth 0,
      flag 0 (EXACT in engine.py), value 0 and move (0, 0, 0, 0). */
  lemma FreshTableHitsZero()
    ensures Retrieve(map[], {}) == Some(0)
    ensures Decode(0) == Entry(0, EngineFlags.exact, 0, Move(0, 0, 0, 0))
  {
    Pow2Values();
  }

  /** `storett`: flag chosen against the original alpha and beta, fields
      packed, both words written. None is the OverflowError `np.uint64`
      raises for a hash or a word that does not fit 64 bits. */
  function StoreTT(t: Table, f: Flags, z: Bits, depth: nat, value: int, bestmove: Move,
                   olda: int, beta: int): (r: Option<Table>)
    requires NonNegative(bestmove)
    ensures r.Some? ==> Below(z, 64)
    ensures depth >= 16 ==> r == None
  {
    var e := Entry(depth, BoundFlag(f, value, olda, beta), value, bestmove);
    var packed :- Pack(e);
    if Below(z, 64) then Some(Store(t, z, packed)) else None
  }

  /** A successful `storett` leaves the probe of its hash answering the
      packed entry it built. */
  lemma StoreTTRetrieve(t: Table, f: Flags, z: Bits, depth: nat, value: int, bestmove: Move,
                        olda: int, beta: int)
    requires NonNegative(bestmove)
    requires StoreTT(t, f, z, depth, value, bestmove, olda, beta).Some?
    ensures Retrieve(StoreTT(t, f, z, depth, value, bestmove, olda, beta).value, z)
         == Pack(Entry(depth, BoundFlag(f, value, olda, beta), value, bestmove))
  {
    var packed := Pack(Entry(depth, BoundFlag(f, value, olda, beta), value, bestmove));
    StoreThenRetrieve(t, z, packed.value);
  }

  /** Store then probe through the packing: a 64-bit hash and fields that
      fit their widths come back as they went in, with the bound flag
      `storett` chose. */
  lemma StoreTTThenProbe(t: Table, f: Flags, z: Bits, depth: nat, value: int, bestmove: Move,
                         olda: int, beta: int)
    requires NonNegative(bestmove) && Nibbles(bestmove) && FlagsOk(f)
    requires Below(z, 64) && depth < 16 && Abs(value) < P40
    ensures StoreTT(t, f, z, depth, value, bestmove, olda, beta).Some?
    ensures var t2 := StoreTT(t, f, z, depth, value, bestmove, olda, beta).value;
      Retrieve(t2, z).Some?
      && Decode(Retrieve(t2, z).value) == Entry(depth, BoundFlag(f, value, olda, beta), value, bestmove)
  {
    DecodePack(Entry(depth, BoundFlag(f, value, olda, beta), value, bestmove));
  }

  /** `zobrist >> 23`: the hash bits above the index. */
  function Tag(z: Bits): (tag: Bits)
    ensures forall k: nat :: k in tag <==> k + 23 in z
  {
    var tag := set i | i in z && i >= 23 :: (i - 23) as nat;
    assert forall k: nat :: k + 23 in z ==> k in tag by {
      forall k: nat | k + 23 in z ensures k in tag {
        assert ((k + 23) - 23) as nat == k;
      }
    }
    assert forall k :: k in tag ==> k + 23 in z;
    tag
  }

  /** Index and tag together determine the hash. */
  lemma IndexAndTagDetermineHash(z1: Bits, z2: Bits)
    requires Index(z1) == Index(z2) && Tag(z1) == Tag(z2)
    ensures z1 == z2
  {
    forall k | k in z1 ensures k in z2 {
      if k >= 23 {
        assert (k - 23) in Tag(z1);
      } else {
        assert k in Index(z1);
      }
    }
    forall k | k in z2 ensures k in z1 {
      if k >= 23 {
        assert (k - 23) in Tag(z2);
      } else {
        assert k in Index(z2);
      }
    }
  }

  /** One slot of engine.py's `np.zeros((2**23, 3), dtype=np.uint16)`: a tag
      word and two payload words. */
  datatype TagSlot = TagSlot(tag: Bits, info: Bits, move: Bits)

  type TagTable = map<Bits, TagSlot>

  function TagSlotAt(t: TagTable, i: Bits): TagSlot {
    if i in t then t[i] else TagSlot({}, {}, {})
  }

  /** engine.py's `retrieve_tt`: the slot at the low 23 bits, when its tag
      equals the hash shifted right by 23. */
  function TagRetrieve(t: TagTable, z: Bits): (r: Option<TagSlot>)
    ensures r.Some? <==> TagSlotAt(t, Index(z)).tag == Tag(z)
    ensures r.Some? ==> r.value == TagSlotAt(t, Index(z))
  {
    var slot := TagSlotAt(t, Index(z));
    if slot.tag == Tag(z) then Some(slot) else None
  }

  /** A uint16 tag can only match a hash below 2^39: hashes with any of
      their top 25 bits set always miss. */
  lemma TagRetrieveNeedsShortHash(t: TagTable, z: Bits)
    requires Below(TagSlotAt(t, Index(z)).tag, 16)
    requires TagRetrieve(t, z).Some?
    ensures Below(z, 39)
  {
    forall k | k in z ensures k < 39 {
      if k >= 23 {
        assert k - 23 in Tag(z);
      }
    }
  }

  /** The zero tag table hits exactly the hashes below 2^23. */
  lemma FreshTagTableHits(z: Bits)
    ensures TagRetrieve(map[], z).Some? <==> Below(z, 23)
  {
    if Below(z, 23) {
      assert Tag(z) == {};
    } else {
      var k :| k in z && k >= 23;
      assert k - 23 in Tag(z);
    }
  }
}

=== FILE: ttpack.dfy ===
/** The 64-bit transposition-table word of enginewithtt.py:
    `|4 depth|3 flag|1 sign|40 value|16 move|`, its packing in `storett`, the
    unpacking in `negamax`, and the shorter value decoding of
    quiescentengine.py and improvedengine.py. */
module TTPack {
  import opened Wrappers
  import opened Coords

  function Pow2(k: nat): (r: nat)
    ensures r > 0
  {
    if k == 0 then 1 else 2 * Pow2(k - 1)
  }

  lemma {:induction false} Pow2Add(a: nat, b: nat)
    ensures Pow2(a + b) == Pow2(a) * Pow2(b)
  {
    if a > 0 {
      Pow2Add(a - 1, b);
      assert Pow2(a + b) == 2 * Pow2(a - 1 + b);
    }
  }

  /** Quotient and remainder of `q * m + r` for `r < m`. */
  lemma DivModBy(q: nat, r: nat, m: nat)
    requires r < m
    ensures (q * m + r) / m == q && (q * m + r) % m == r
  {
    var x := q * m + r;
    var d, rr := x / m, x % m;
    assert x == d * m + rr && 0 <= rr < m;
    if d > q {
      MulMono(q + 1, d, m);
    } else if d < q {
      MulMono(d + 1, q, m);
    }
  }

  lemma MulMono(a: nat, b: nat, m: nat)
    requires a <= b
    ensures a * m <= b * m
  {
  }

  const P4: nat := 0x10
  const P8: nat := 0x100
  const P12: nat := 0x1000
  const P16: nat := 0x1_0000
  const P40: nat := 0x100_0000_0000
  const P56: nat := 0x100_0000_0000_0000
  const P57: nat := 0x200_0000_0000_0000
  const P60: nat := 0x1000_0000_0000_0000
  const P64: nat := 0x1_0000_0000_0000_0000

  lemma Pow2Low()
    ensures Pow2(1) == 2 && Pow2(3) == 8 && Pow2(4) == P4 && Pow2(8) == P8
    ensures Pow2(12) == P12 && Pow2(16) == P16
  {
    assert Pow2(2) == 4;
    assert Pow2(4) == 16;
    Pow2Add(4, 4);
    Pow2Add(8, 4);
    Pow2Add(8, 8);
  }

  lemma Pow2Mid()
    ensures Pow2(40) == P40
  {
    Pow2Low();
    Pow2Add(16, 16);
    Pow2Add(32, 8);
  }

  lemma Pow2High()
    ensures Pow2(56) == P56 && Pow2(57) == P57 && Pow2(60) == P60 && Pow2(64) == P64
  {
    Pow2Low();
    Pow2Mid();
    Pow2Add(40, 16);
    Pow2Add(56, 1);
    Pow2Add(56, 4);
    Pow2Add(60, 4);
  }

  /** The powers of two the word's field boundaries use. */
  lemma Pow2Values()
    ensures Pow2(1) == 2 && Pow2(3) == 8 && Pow2(4) == P4 && Pow2(8) == P8
    ensures Pow2(12) == P12 && Pow2(16) == P16 && Pow2(40) == P40
    ensures Pow2(56) == P56 && Pow2(57) == P57 && Pow2(60) == P60 && Pow2(64) == P64
  {
    Pow2Low();
    Pow2Mid();
    Pow2High();
  }

  /** Python's `x << k` on a non-negative integer. */
  function Shl(x: nat, k: nat): nat {
    x * Pow2(k)
  }

  /** Euclidean division keeps a non-negative dividend non-negative. */
  lemma DivNonNeg(x: nat, d: nat)
    requires d > 0
    ensures x / d >= 0
  {
    var q := x / d;
    assert x == q * d + x % d;
  }

  /** Python's `x >> k` on a non-negative integer. */
  function Shr(x: nat, k: nat): nat {
    DivNonNeg(x, Pow2(k));
    x / Pow2(k)
  }

  /** Python's `x & (2**w - 1)`: the low `w` bits, also of a negative `x`
      (Python's two's-complement view; Dafny's `%` by a positive divisor is
      never negative, as Python's `&` with a non-negative mask is not). */
  function Low(x: int, w: nat): nat {
    x % Pow2(w)
  }

  /** Python's `a | b` on non-negative integers, bit by bit from the lowest. */
  function Or(a: nat, b: nat): (r: nat)
    ensures a <= r && b <= r
    ensures r <= a + b
    decreases a + b
  {
    if a == 0 then b
    else if b == 0 then a
    else 2 * Or(a / 2, b / 2) + (if a % 2 == 1 || b % 2 == 1 then 1 else 0)
  }

  /** OR of a field shifted left by `k` with a value below `2^k` is their sum. */
  lemma {:induction false} OrShift(a: nat, k: nat, b: nat)
    requires b < Pow2(k)
    ensures Or(a * Pow2(k), b) == a * Pow2(k) + b
  {
    if k == 0 || a == 0 || b == 0 {
    } else {
      var h := a * Pow2(k - 1);
      assert a * Pow2(k) == 2 * h;
      assert (2 * h) / 2 == h && (2 * h) % 2 == 0;
      OrShift(a, k - 1, b / 2);
    }
  }

  /** The bound flags, whose values the model leaves open; engine.py:12-14
      fixes them as 0, 1 and 2. */
  datatype Flags = Flags(exact: nat, lower: nat, upper: nat)

  const EngineFlags: Flags := Flags(0, 1, 2)

  /** Three distinct flags, each fitting the word's 3-bit field. */
  predicate FlagsOk(f: Flags) {
    f.exact != f.lower && f.exact != f.upper && f.lower != f.upper
    && f.exact < 8 && f.lower < 8 && f.upper < 8
  }

  /** `storett`'s choice of flag: an upper bound when the value failed low
      against the original alpha (checked first), a lower bound when it failed
      high, exact otherwise. */
  function BoundFlag(f: Flags, value: int, olda: int, beta: int): (flag: nat)
    ensures FlagsOk(f) ==> (flag == f.upper <==> value <= olda)
    ensures FlagsOk(f) ==> (flag == f.lower <==> olda < value && beta <= value)
    ensures FlagsOk(f) ==> (flag == f.exact <==> olda < value < beta)
  {
    if value <= olda then f.upper
    else if value >= beta then f.lower
    else f.exact
  }

  /** A decoded table entry: search depth, bound flag, signed value, best move. */
  datatype Entry = Entry(depth: nat, flag: nat, value: int, move: Move)

  predicate NonNegative(m: Move) {
    m.y1 >= 0 && m.x1 >= 0 && m.y2 >= 0 && m.x2 >= 0
  }

  /** Every field fits the width the word reserves for it. */
  predicate Fits(e: Entry) {
    e.depth < 16 && e.flag < 8 && Abs(e.value) < P40 && Nibbles(e.move)
  }

  /** The integer `storett` computes: each field shifted into place and
      OR-ed, the value as sign and magnitude. A field wider than its slot
      bleeds into the next one, exactly as Python's `|` does. */
  function PackWord(e: Entry): nat
    requires NonNegative(e.move)
  {
    var m := e.move;
    Or(Or(Or(Or(PackHigh(e), Shl(m.y1, 12)), Shl(m.x1, 8)), Shl(m.y2, 4)), m.x2)
  }

  /** The first three ORs: depth, flag, sign and magnitude. */
  function PackHigh(e: Entry): nat {
    var sign := if e.value < 0 then 1 else 0;
    Or(Or(Or(Shl(e.depth, 60), Shl(e.flag, 57)), Shl(sign, 56)), Shl(Abs(e.value), 16))
  }

  /** `np.uint64(packed)`: None stands for the OverflowError a word of 2^64 or
      more raises. */
  function Pack(e: Entry): (r: Option<nat>)
    requires NonNegative(e.move)
    ensures r.Some? ==> r.value < P64
    ensures e.depth >= 16 ==> r == None
  {
    var p := PackWord(e);
    PackWordOverflow(e);
    if p < P64 then Some(p) else None
  }

  /** A depth of 16 or more alone pushes the word to 2^64 or beyond. */
  lemma PackWordOverflow(e: Entry)
    requires NonNegative(e.move)
    ensures e.depth >= 16 ==> PackWord(e) >= P64
  {
    Pow2Values();
    var sign := if e.value < 0 then 1 else 0;
    var m := e.move;
    var a0 := Shl(e.depth, 60);
    assert e.depth >= 16 ==> a0 >= P64;
    var a1 := Or(a0, Shl(e.flag, 57));
    var a2 := Or(a1, Shl(sign, 56));
    assert PackHigh(e) == Or(a2, Shl(Abs(e.value), 16));
    var a4 := Or(PackHigh(e), Shl(m.y1, 12));
    var a5 := Or(a4, Shl(m.x1, 8));
    var a6 := Or(a5, Shl(m.y2, 4));
    assert PackWord(e) == Or(a6, m.x2);
  }

  /** The fields laid side by side without overlap. */
  function FieldSum(e: Entry): nat
    requires NonNegative(e.move)
  {
    var sign := if e.value < 0 then 1 else 0;
    e.depth * P60 + e.flag * P57 + sign * P56 + Abs(e.value) * P16
    + e.move.y1 * P12 + e.move.x1 * P8 + e.move.y2 * P4 + e.move.x2
  }

  /** One OR of the packing: the accumulated high fields, shifted by `k`,
      and a lower field below `2^k`. */
  lemma OrStep(hi: nat, k: nat, lo: nat, m: nat)
    requires m == Pow2(k) && lo < m
    ensures Or(hi * m, lo) == hi * m + lo
  {
    OrShift(hi, k, lo);
  }

  /** The high ORs add up when depth, flag and magnitude fit. */
  lemma PackHighIsSum(e: Entry)
    requires Fits(e)
    ensures PackHigh(e)
         == (((e.depth * 8 + e.flag) * 2 + (if e.value < 0 then 1 else 0)) * P40 + Abs(e.value)) * P16
  {
    Pow2Values();
    var sign := if e.value < 0 then 1 else 0;
    var w1 := e.depth * 8 + e.flag;
    var w2 := w1 * 2 + sign;
    OrStep(e.depth, 60, Shl(e.flag, 57), P60);
    var a1 := Or(Shl(e.depth, 60), Shl(e.flag, 57));
    assert a1 == w1 * P57;
    OrStep(w1, 57, Shl(sign, 56), P57);
    var a2 := Or(a1, Shl(sign, 56));
    assert a2 == w2 * P56;
    OrStep(w2, 56, Shl(Abs(e.value), 16), P56);
  }

  /** The four ORs of the move's coordinates onto the high word. */
  lemma MoveOrs(h: nat, y1: nat, x1: nat, y2: nat, x2: nat)
    requires y1 < 16 && x1 < 16 && y2 < 16 && x2 < 16
    ensures Or(Or(Or(Or(h * P16, Shl(y1, 12)), Shl(x1, 8)), Shl(y2, 4)), x2)
         == h * P16 + y1 * P12 + x1 * P8 + y2 * P4 + x2
  {
    Pow2Low();
    var w4 := h * 16 + y1;
    var w5 := w4 * 16 + x1;
    var w6 := w5 * 16 + y2;
    OrStep(h, 16, Shl(y1, 12), P16);
    var a4 := Or(h * P16, Shl(y1, 12));
    assert a4 == w4 * P12;
    OrStep(w4, 12, Shl(x1, 8), P12);
    var a5 := Or(a4, Shl(x1, 8));
    assert a5 == w5 * P8;
    OrStep(w5, 8, Shl(y2, 4), P8);
    var a6 := Or(a5, Shl(y2, 4));
    assert a6 == w6 * P4;
    OrStep(w6, 4, x2, P4);
  }

  /** When every field fits, the ORs add up and the word stays below 2^64. */
  lemma PackWordIsSum(e: Entry)
    requires NonNegative(e.move) && Fits(e)
    ensures PackWord(e) == FieldSum(e) < P64
  {
    PackHighIsSum(e);
    var sign := if e.value < 0 then 1 else 0;
    var m := e.move;
    var w3 := ((e.depth * 8 + e.flag) * 2 + sign) * P40 + Abs(e.value);
    assert PackHigh(e) == w3 * P16;
    assert PackWord(e) == Or(Or(Or(Or(w3 * P16, Shl(m.y1, 12)), Shl(m.x1, 8)), Shl(m.y2, 4)), m.x2);
    MoveOrs(w3, m.y1, m.x1, m.y2, m.x2);
    assert w3 * P16 + m.y1 * P12 + m.x1 * P8 + m.y2 * P4 + m.x2 == FieldSum(e);
  }

  /** The unpacking in enginewithtt.py's `negamax`: each field shifted down
      and masked; the magnitude negated when the sign bit is set. */
  function Decode(p: nat): (e: Entry)
    ensures Fits(e) && NonNegative(e.move)
  {
    Pow2Values();
    var depth := Low(Shr(p, 60), 4);
    var flag := Low(Shr(p, 57), 3);
    var sign := Low(Shr(p, 56), 1);
    var magnitude := Low(Shr(p, 16), 40);
    var move := Move(Low(Shr(p, 12), 4), Low(Shr(p, 8), 4), Low(Shr(p, 4), 4), Low(p, 4));
    var value: int := if sign == 1 then -(magnitude as int) else magnitude;
    Entry(depth, flag, value, move)
  }

  /** The words above the cut of each shift of a packed entry, read as one
      number. */
  function Above(e: Entry, k: nat): nat
    requires NonNegative(e.move)
  {
    var sign := if e.value < 0 then 1 else 0;
    var w1 := e.depth * 8 + e.flag;
    var w2 := w1 * 2 + sign;
    var w3 := w2 * P40 + Abs(e.value);
    var w4 := w3 * 16 + e.move.y1;
    var w5 := w4 * 16 + e.move.x1;
    if k == 60 then e.depth else if k == 57 then w1 else if k == 56 then w2
    else if k == 16 then w3 else if k == 12 then w4 else if k == 8 then w5
    else w5 * 16 + e.move.y2
  }

  /** The shifts down to the depth and flag fields. */
  lemma ShiftsTop(e: Entry)
    requires NonNegative(e.move) && Fits(e)
    ensures var p := FieldSum(e);
      Shr(p, 60) == Above(e, 60) && Shr(p, 57) == Above(e, 57)
  {
    Pow2Values();
    var p := FieldSum(e);
    DivModBy(e.depth, p - e.depth * P60, P60);
    DivModBy(Above(e, 57), p - Above(e, 57) * P57, P57);
  }

  /** The shifts down to the sign and magnitude fields. */
  lemma ShiftsValue(e: Entry)
    requires NonNegative(e.move) && Fits(e)
    ensures var p := FieldSum(e);
      Shr(p, 56) == Above(e, 56) && Shr(p, 16) == Above(e, 16)
  {
    Pow2Values();
    var p := FieldSum(e);
    var m := e.move;
    DivModBy(Above(e, 56), p - Above(e, 56) * P56, P56);
    DivModBy(Above(e, 16), m.y1 * P12 + m.x1 * P8 + m.y2 * P4 + m.x2, P16);
  }

  /** The shifts down to the value field. */
  lemma ShiftsHigh(e: Entry)
    requires NonNegative(e.move) && Fits(e)
    ensures var p := FieldSum(e);
      Shr(p, 60) == Above(e, 60) && Shr(p, 57) == Above(e, 57) && Shr(p, 56) == Above(e, 56)
      && Shr(p, 16) == Above(e, 16)
  {
    ShiftsTop(e);
    ShiftsValue(e);
  }

  /** The shifts within the move field. */
  lemma ShiftsLow(e: Entry)
    requires NonNegative(e.move) && Fits(e)
    ensures var p := FieldSum(e);
      Shr(p, 12) == Above(e, 12) && Shr(p, 8) == Above(e, 8) && Shr(p, 4) == Above(e, 4)
      && p % 16 == e.move.x2
  {
    Pow2Values();
    var p := FieldSum(e);
    var m := e.move;
    assert p == Above(e, 16) * P16 + m.y1 * P12 + m.x1 * P8 + m.y2 * P4 + m.x2;
    DivModBy(Above(e, 12), m.x1 * P8 + m.y2 * P4 + m.x2, P12);
    DivModBy(Above(e, 8), m.y2 * P4 + m.x2, P8);
    DivModBy(Above(e, 4), m.x2, P4);
  }

  /** The depth and flag fields of a packed entry are the ones that went in. */
  lemma FieldsTop(e: Entry)
    requires NonNegative(e.move) && Fits(e)
    ensures var p := FieldSum(e);
      Low(Shr(p, 60), 4) == e.depth && Low(Shr(p, 57), 3) == e.flag
  {
    ShiftsHigh(e);
    Pow2Values();
    var p := FieldSum(e);
    assert Low(Shr(p, 60), 4) == e.depth by { DivModBy(0, e.depth, 16); }
    assert Low(Shr(p, 57), 3) == e.flag by { DivModBy(e.depth, e.flag, 8); }
  }

  /** The sign and magnitude fields of a packed entry are those of its value. */
  lemma FieldsValue(e: Entry)
    requires NonNegative(e.move) && Fits(e)
    ensures var p := FieldSum(e);
      Low(Shr(p, 56), 1) == (if e.value < 0 then 1 else 0) && Low(Shr(p, 16), 40) == Abs(e.value)
  {
    ShiftsHigh(e);
    Pow2Values();
    var p := FieldSum(e);
    var sign := if e.value < 0 then 1 else 0;
    assert Low(Shr(p, 56), 1) == sign by { DivModBy(Above(e, 57), sign, 2); }
    assert Low(Shr(p, 16), 40) == Abs(e.value) by { DivModBy(Above(e, 56), Abs(e.value), P40); }
  }

  /** Each masked field above the move of a packed entry is the field that
      went in. */
  lemma FieldsHigh(e: Entry)
    requires NonNegative(e.move) && Fits(e)
    ensures var p := FieldSum(e);
      Low(Shr(p, 60), 4) == e.depth && Low(Shr(p, 57), 3) == e.flag
      && Low(Shr(p, 56), 1) == (if e.value < 0 then 1 else 0) && Low(Shr(p, 16), 40) == Abs(e.value)
  {
    FieldsTop(e);
    FieldsValue(e);
  }

  /** The origin coordinates of a packed entry are the ones that went in. */
  lemma FieldsFrom(e: Entry)
    requires NonNegative(e.move) && Fits(e)
    ensures var p := FieldSum(e);
      Low(Shr(p, 12), 4) == e.move.y1 && Low(Shr(p, 8), 4) == e.move.x1
  {
    ShiftsLow(e);
    Pow2Values();
    var p := FieldSum(e);
    var m := e.move;
    assert Low(Shr(p, 12), 4) == m.y1 by { DivModBy(Above(e, 16), m.y1, 16); }
    assert Low(Shr(p, 8), 4) == m.x1 by { DivModBy(Above(e, 12), m.x1, 16); }
  }

  /** The target coordinates of a packed entry are the ones that went in. */
  lemma FieldsTo(e: Entry)
    requires NonNegative(e.move) && Fits(e)
    ensures var p := FieldSum(e);
      Low(Shr(p, 4), 4) == e.move.y2 && Low(p, 4) == e.move.x2
  {
    ShiftsLow(e);
    Pow2Values();
    var p := FieldSum(e);
    assert Low(Shr(p, 4), 4) == e.move.y2 by { DivModBy(Above(e, 8), e.move.y2, 16); }
  }

  /** Each masked coordinate of a packed entry is the one that went in. */
  lemma FieldsLow(e: Entry)
    requires NonNegative(e.move) && Fits(e)
    ensures var p := FieldSum(e);
      Low(Shr(p, 12), 4) == e.move.y1 && Low(Shr(p, 8), 4) == e.move.x1
      && Low(Shr(p, 4), 4) == e.move.y2 && Low(p, 4) == e.move.x2
  {
    FieldsFrom(e);
    FieldsTo(e);
  }

  /** Each masked field of a packed entry is the field that went in. */
  lemma FieldsOfSum(e: Entry)
    requires NonNegative(e.move) && Fits(e)
    ensures var p := FieldSum(e);
      Low(Shr(p, 60), 4) == e.depth && Low(Shr(p, 57), 3) == e.flag
      && Low(Shr(p, 56), 1) == (if e.value < 0 then 1 else 0) && Low(Shr(p, 16), 40) == Abs(e.value)
      && Low(Shr(p, 12), 4) == e.move.y1 && Low(Shr(p, 8), 4) == e.move.x1
      && Low(Shr(p, 4), 4) == e.move.y2 && Low(p, 4) == e.move.x2
  {
    FieldsHigh(e);
    FieldsLow(e);
  }

  /** Pack then unpack: every field that fits its width comes back unchanged,
      the signed value included. */
  lemma DecodePack(e: Entry)
    requires NonNegative(e.move) && Fits(e)
    ensures Pack(e).Some? && Decode(Pack(e).value) == e
  {
    PackWordIsSum(e);
    FieldsOfSum(e);
    var p := FieldSum(e);
    assert Pack(e) == Some(p);
    var d := Decode(p);
    assert d.depth == e.depth && d.flag == e.flag;
    assert d.value == e.value;
    assert d.move == e.move;
  }

  /** The value decoding of quiescentengine.py and improvedengine.py as
      written: Python parses `-(p >> 16) & 0xFFFFFFFFFF` as
      `(-(p >> 16)) & 0xFFFFFFFFFF`, the low 40 bits of the negated shift.
      On a numpy `uint64` the negation wraps modulo 2^64 first, which leaves
      the same low 40 bits. */
  function DecodeValueAsWritten(p: nat): (v: nat)
    ensures v < P40
  {
    Pow2Values();
    var negated: int := -(Shr(p, 16) as int);
    if Low(Shr(p, 56), 1) == 1 then Low(negated, 40) else Low(Shr(p, 16), 40)
  }

  /** The low 40 bits of `-(h * 2^40 + m)` for a magnitude `0 < m < 2^40`. */
  lemma LowOfNegated(h: nat, m: nat)
    requires 0 < m < P40
    ensures Low(-(h * P40 + m), 40) == P40 - m
  {
    Pow2Values();
    var x := -(h * P40 + m);
    assert x == (-(h as int) - 1) * P40 + (P40 - m);
  }

  lemma AsWrittenOfSum(e: Entry)
    requires NonNegative(e.move) && Fits(e)
    ensures e.value >= 0 ==> DecodeValueAsWritten(FieldSum(e)) == e.value
    ensures e.value < 0 ==> DecodeValueAsWritten(FieldSum(e)) == P40 + e.value
  {
    FieldsHigh(e);
    if e.value < 0 {
      AsWrittenOfNegative(e);
    }
  }

  /** A stored negative value comes back as the low 40 bits of the negated
      shift, `2^40 - |value|`. */
  lemma AsWrittenOfNegative(e: Entry)
    requires NonNegative(e.move) && Fits(e) && e.value < 0
    ensures DecodeValueAsWritten(FieldSum(e)) == P40 + e.value
  {
    FieldsValue(e);
    ShiftsHigh(e);
    var p := FieldSum(e);
    var h := Shr(p, 16);
    assert h == Above(e, 56) * P40 + Abs(e.value);
    LowOfNegated(Above(e, 56), Abs(e.value));
    assert Low(Shr(p, 56), 1) == 1;
    assert DecodeValueAsWritten(p) == Low(-(h as int), 40);
  }

  /** The as-written decoding returns `2^40 + value` for every stored
      negative value, and agrees with `Decode` on the others. */
  lemma DecodeValueAsWrittenShifts(e: Entry)
    requires NonNegative(e.move) && Fits(e)
    ensures Pack(e).Some?
    ensures e.value >= 0 ==> DecodeValueAsWritten(Pack(e).value) == e.value
    ensures e.value < 0 ==> DecodeValueAsWritten(Pack(e).value) == P40 + e.value
  {
    PackWordIsSum(e);
    assert Pack(e) == Some(FieldSum(e));
    AsWrittenOfSum(e);
  }

  /** A lower bound of -5 stored at depth 1 with move (0, 0, 0, 0) comes
      back as 1099511627771 through the as-written expression, but as -5
      through `Decode`. */
  lemma DecodeValueAsWrittenCounterexample()
    ensures Pack(Entry(1, EngineFlags.lower, -5, Move(0, 0, 0, 0))).Some?
    ensures DecodeValueAsWritten(Pack(Entry(1, EngineFlags.lower, -5, Move(0, 0, 0, 0))).value) == 1099511627771
    ensures Decode(Pack(Entry(1, EngineFlags.lower, -5, Move(0, 0, 0, 0))).value).value == -5
  {
    DecodeValueAsWrittenShifts(Entry(1, EngineFlags.lower, -5, Move(0, 0, 0, 0)));
    DecodePack(Entry(1, EngineFlags.lower, -5, Move(0, 0, 0, 0)));
  }

  /** The value decoding with the negation applied to the masked magnitude,
      as enginewithtt.py writes it. */
  function DecodeValue(p: nat): (v: int)
    ensures Abs(v) < P40
    ensures Low(Shr(p, 56), 1) == 0 ==> v >= 0
  {
    Pow2Values();
    var magnitude := Low(Shr(p, 16), 40);
    var v: int := if Low(Shr(p, 56), 1) == 1 then -(magnitude as int) else magnitude;
    v
  }

  /** The corrected value decoding returns every stored value unchanged. */
  lemma DecodeValuePack(e: Entry)
    requires NonNegative(e.move) && Fits(e)
    ensures Pack(e).Some? && DecodeValue(Pack(e).value) == e.value
  {
    DecodePack(e);
  }
}

=== FILE: utilshash.dfy ===
/** The standalone Zobrist helpers of utils.py: a key generator, the
    2 x 9 x 9 key table, and a hash over a board given as rows of cells
    (0 empty, 1 white, 2 black). Python integers are sets of bit positions. */
module UtilsHash {
  import opened Wrappers
  import opened Bits

  const Seed: int := 420
  const Players: nat := 2
  const Size: nat := 9

  /** Python's generator, seen from outside: `Draws(seed, n)` is the `n`-th
      value `randint(0, 2**64 - 1)` yields after `random.seed(seed)`. */
  type Generator = (int, nat) -> Bits

  /** The value of `n` as the set of its 1-bits. */
  function BitsOf(n: nat): (r: Bits)
    ensures forall i :: i in r ==> i < n
    decreases n
  {
    if n == 0 then {}
    else
      var high := BitsOf(n / 2);
      var shifted := set i | i in high :: i + 1;
      if n % 2 == 1 then shifted + {0} else shifted
  }

  /** `random_int`: reseeds with `SEED`, then draws once. */
  function RandomInt(g: Generator): Bits {
    g(Seed, 0)
  }

  /** `init_table` as written: every entry is a fresh call of `random_int`. */
  function InitTable(g: Generator): (t: seq<seq<seq<Bits>>>)
    ensures |t| == Players
    ensures forall k :: 0 <= k < |t| ==> |t[k]| == Size
    ensures forall k, y :: 0 <= k < |t| && 0 <= y < |t[k]| ==> |t[k][y]| == Size
  {
    seq(Players, k => seq(Size, y => seq(Size, x => RandomInt(g))))
  }

  /** Because the generator is reseeded before every draw, all 162 keys are
      the same value. */
  lemma InitTableConstant(g: Generator, k: int, y: int, x: int, k2: int, y2: int, x2: int)
    requires 0 <= k < Players && 0 <= y < Size && 0 <= x < Size
    requires 0 <= k2 < Players && 0 <= y2 < Size && 0 <= x2 < Size
    ensures InitTable(g)[k][y][x] == InitTable(g)[k2][y2][x2] == g(Seed, 0)
  {
  }

  /** The table the code evidently intends: one seeding, then 162 successive
      draws, in the order the comprehension evaluates them. */
  function InitTableSeededOnce(g: Generator): (t: seq<seq<seq<Bits>>>)
    ensures |t| == Players
    ensures forall k :: 0 <= k < |t| ==> |t[k]| == Size
    ensures forall k, y :: 0 <= k < |t| && 0 <= y < |t[k]| ==> |t[k][y]| == Size
  {
    seq(Players, (k: nat) => seq(Size, (y: nat) => seq(Size, (x: nat) => g(Seed, k * 81 + y * 9 + x))))
  }

  /** Distinct entries of the seeded-once table are distinct draws, so they
      differ whenever the generator's draws do. */
  lemma SeededOnceDistinctDraws(g: Generator, k: int, y: int, x: int, k2: int, y2: int, x2: int)
    requires 0 <= k < Players && 0 <= y < Size && 0 <= x < Size
    requires 0 <= k2 < Players && 0 <= y2 < Size && 0 <= x2 < Size
    requires (k, y, x) != (k2, y2, x2)
    requires forall n, n2 :: 0 <= n < n2 < 162 ==> g(Seed, n) != g(Seed, n2)
    ensures InitTableSeededOnce(g)[k][y][x] != InitTableSeededOnce(g)[k2][y2][x2]
  {
    var n, n2 := k * 81 + y * 9 + x, k2 * 81 + y2 * 9 + x2;
    assert n != n2;
    if n < n2 {
      assert g(Seed, n) != g(Seed, n2);
    } else {
      assert g(Seed, n2) != g(Seed, n);
    }
  }

  /** Python's `seq[k]` for a possibly negative `k`: negative indices count
      from the end, out-of-range ones raise `IndexError`. */
  function PyIndex(len: nat, k: int): (r: Option<nat>)
    ensures r.Some? <==> -(len as int) <= k < len
    ensures r.Some? ==> r.value < len && (r.value == k || r.value == k + len)
  {
    if 0 <= k < len then Some(k)
    else if -(len as int) <= k < 0 then Some((k + len) as nat)
    else None
  }

  /** The key of cell `(i, j)` holding `piece`: nothing for an empty cell,
      else `zobrist_table[piece - 1][i][j]`. */
  function CellKey(table: seq<seq<seq<Bits>>>, piece: int, i: nat, j: nat): Option<Bits> {
    if piece == 0 then Some({})
    else
      var k :- PyIndex(|table|, piece - 1);
      if i < |table[k]| && j < |table[k][i]| then Some(table[k][i][j]) else None
  }

  /** The XOR over the cells of row `i`. */
  function RowHash(table: seq<seq<seq<Bits>>>, i: nat, row: seq<int>): Option<Bits> {
    if row == [] then Some({})
    else
      var h :- RowHash(table, i, row[..|row| - 1]);
      var key :- CellKey(table, row[|row| - 1], i, |row| - 1);
      Some(Xor(h, key))
  }

  function BoardHash(table: seq<seq<seq<Bits>>>, board: seq<seq<int>>): Option<Bits> {
    if board == [] then Some({})
    else
      var h :- BoardHash(table, board[..|board| - 1]);
      var r :- RowHash(table, |board| - 1, board[|board| - 1]);
      Some(Xor(h, r))
  }

  /** `compute_hash(board, zobrist_table, player)`: the keys of the occupied
      cells, then the raw integer `player`. An index error is `None`. */
  function ComputeHash(board: seq<seq<int>>, table: seq<seq<seq<Bits>>>, player: nat): Option<Bits> {
    var h :- BoardHash(table, board);
    Some(Xor(h, BitsOf(player)))
  }

  predicate EmptyBoard(board: seq<seq<int>>) {
    forall i, j :: 0 <= i < |board| && 0 <= j < |board[i]| ==> board[i][j] == 0
  }

  lemma {:induction false} EmptyRowHash(table: seq<seq<seq<Bits>>>, i: nat, row: seq<int>)
    requires forall j :: 0 <= j < |row| ==> row[j] == 0
    ensures RowHash(table, i, row) == Some({})
  {
    if row != [] {
      var n := |row| - 1;
      assert forall j :: 0 <= j < n ==> row[..n][j] == row[j];
      EmptyRowHash(table, i, row[..n]);
      XorZero({});
    }
  }

  /** A board without pieces hashes to the side to move itself, whatever the
      table. */
  lemma EmptyBoardHash(board: seq<seq<int>>, table: seq<seq<seq<Bits>>>, player: nat)
    requires EmptyBoard(board)
    ensures ComputeHash(board, table, player) == Some(BitsOf(player))
  {
    EmptyBoardCells(board, table);
    XorZero(BitsOf(player));
  }

  lemma {:induction false} EmptyBoardCells(board: seq<seq<int>>, table: seq<seq<seq<Bits>>>)
    requires EmptyBoard(board)
    ensures BoardHash(table, board) == Some({})
  {
    if board != [] {
      var n := |board| - 1;
      assert forall i :: 0 <= i < n ==> board[..n][i] == board[i];
      EmptyBoardCells(board[..n], table);
      assert forall j :: 0 <= j < |board[n]| ==> board[n][j] == 0;
      EmptyRowHash(table, n, board[n]);
      XorZero({});
    }
  }

  /** Filling one empty cell of a row XORs that cell's key into the row hash. */
  lemma {:induction false} RowHashSet(table: seq<seq<seq<Bits>>>, i: nat, row: seq<int>, j: nat, piece: int, key: Bits)
    requires j < |row| && row[j] == 0
    requires CellKey(table, piece, i, j) == Some(key)
    ensures RowHash(table, i, row[j := piece]).Some? <==> RowHash(table, i, row).Some?
    ensures RowHash(table, i, row).Some? ==>
              RowHash(table, i, row[j := piece]).value == Xor(RowHash(table, i, row).value, key)
  {
    var n := |row| - 1;
    var row' := row[j := piece];
    if j == n {
      assert row'[..n] == row[..n];
      if RowHash(table, i, row).Some? {
        XorZero(RowHash(table, i, row[..n]).value);
      }
    } else {
      assert row'[..n] == row[..n][j := piece];
      RowHashSet(table, i, row[..n], j, piece, key);
      if RowHash(table, i, row).Some? {
        var h := RowHash(table, i, row[..n]).value;
        XorSwap(h, key, CellKey(table, row[n], i, n).value);
      }
    }
  }

  /** Filling one empty cell of the board XORs exactly that cell's key,
      `zobrist_table[piece - 1][i][j]`, into the hash; clearing it again XORs
      the same key out. */
  lemma {:induction false} ComputeHashSetCell(board: seq<seq<int>>, table: seq<seq<seq<Bits>>>, player: nat,
                                              i: nat, j: nat, piece: int, key: Bits)
    requires i < |board| && j < |board[i]| && board[i][j] == 0
    requires CellKey(table, piece, i, j) == Some(key)
    ensures ComputeHash(board[i := board[i][j := piece]], table, player).Some?
        <==> ComputeHash(board, table, player).Some?
    ensures ComputeHash(board, table, player).Some? ==>
              ComputeHash(board[i := board[i][j := piece]], table, player).value
              == Xor(ComputeHash(board, table, player).value, key)
    ensures ComputeHash(board, table, player).Some? ==>
              ComputeHash(board, table, player).value
              == Xor(ComputeHash(board[i := board[i][j := piece]], table, player).value, key)
  {
    BoardHashSet(board, table, i, j, piece, key);
    if BoardHash(table, board).Some? {
      var h := BoardHash(table, board).value;
      XorSwap(h, key, BitsOf(player));
      XorAssoc(Xor(h, BitsOf(player)), key, key);
      XorSelf(key);
      XorZero(Xor(h, BitsOf(player)));
    }
  }

  lemma {:induction false} BoardHashSet(board: seq<seq<int>>, table: seq<seq<seq<Bits>>>,
                                        i: nat, j: nat, piece: int, key: Bits)
    requires i < |board| && j < |board[i]| && board[i][j] == 0
    requires CellKey(table, piece, i, j) == Some(key)
    ensures BoardHash(table, board[i := board[i][j := piece]]).Some? <==> BoardHash(table, board).Some?
    ensures BoardHash(table, board).Some? ==>
              BoardHash(table, board[i := board[i][j := piece]]).value == Xor(BoardHash(table, board).value, key)
  {
    var n := |board| - 1;
    var board' := board[i := board[i][j := piece]];
    if i == n {
      assert board'[..n] == board[..n];
      RowHashSet(table, i, board[i], j, piece, key);
      if BoardHash(table, board).Some? {
        var h := BoardHash(table, board[..n]).value;
        XorAssoc(h, RowHash(table, n, board[n]).value, key);
      }
    } else {
      assert board'[..n] == board[..n][i := board[i][j := piece]];
      BoardHashSet(board[..n], table, i, j, piece, key);
      if BoardHash(table, board).Some? {
        var h := BoardHash(table, board[..n]).value;
        XorSwap(h, key, RowHash(table, n, board[n]).value);
      }
    }
  }

  /** With the table as written, the hash of a board only depends on the side
      to move and on whether the number of pieces is odd. */
  function PieceCount(board: seq<seq<int>>): nat {
    if board == [] then 0
    else PieceCount(board[..|board| - 1]) + RowPieces(board[|board| - 1])
  }

  function RowPieces(row: seq<int>): nat {
    if row == [] then 0
    else RowPieces(row[..|row| - 1]) + (if row[|row| - 1] != 0 then 1 else 0)
  }

  /** Every cell lies within the 9 columns and holds 0, 1 or 2. */
  predicate RowInRange(row: seq<int>) {
    |row| <= Size && forall j :: 0 <= j < |row| ==> 0 <= row[j] <= Players
  }

  predicate CellsInRange(board: seq<seq<int>>) {
    |board| <= Size && forall i :: 0 <= i < |board| ==> RowInRange(board[i])
  }

  function Parity(n: nat, v: Bits): Bits {
    if n % 2 == 1 then v else {}
  }

  /** XOR of two parities of the same value is the parity of the sum. */
  lemma ParityXor(a: nat, b: nat, v: Bits)
    ensures Xor(Parity(a, v), Parity(b, v)) == Parity(a + b, v)
  {
    XorSelf(v);
    XorZero(v);
    XorZero({});
  }

  /** Every in-range cell key of `t` is `v` for a piece and nothing for an
      empty cell. */
  ghost predicate KeysAll(t: seq<seq<seq<Bits>>>, v: Bits) {
    forall piece, i: nat, j: nat :: 0 <= piece <= Players && i < Size && j < Size ==>
      CellKey(t, piece, i, j) == Some(Parity(if piece != 0 then 1 else 0, v))
  }

  lemma InitTableKeysAll(g: Generator)
    ensures KeysAll(InitTable(g), RandomInt(g))
  {
    var t, v := InitTable(g), RandomInt(g);
    forall piece, i: nat, j: nat | 0 <= piece <= Players && i < Size && j < Size
      ensures CellKey(t, piece, i, j) == Some(Parity(if piece != 0 then 1 else 0, v))
    {
      if piece != 0 {
        InitTableConstant(g, piece - 1, i, j, 0, 0, 0);
      }
    }
  }

  lemma {:induction false} RowHashConstant(t: seq<seq<seq<Bits>>>, v: Bits, i: nat, row: seq<int>)
    requires KeysAll(t, v)
    requires i < Size
    requires RowInRange(row)
    ensures RowHash(t, i, row) == Some(Parity(RowPieces(row), v))
  {
    if row != [] {
      var n := |row| - 1;
      var cell := if row[n] != 0 then 1 else 0;
      RowHashConstant(t, v, i, row[..n]);
      assert CellKey(t, row[n], i, n) == Some(Parity(cell, v));
      ParityXor(RowPieces(row[..n]), cell, v);
    }
  }

  lemma {:induction false} BoardHashConstant(t: seq<seq<seq<Bits>>>, v: Bits, board: seq<seq<int>>)
    requires KeysAll(t, v)
    requires CellsInRange(board)
    ensures BoardHash(t, board) == Some(Parity(PieceCount(board), v))
  {
    if board != [] {
      var n := |board| - 1;
      assert CellsInRange(board[..n]);
      BoardHashConstant(t, v, board[..n]);
      RowHashConstant(t, v, n, board[n]);
      ParityXor(PieceCount(board[..n]), RowPieces(board[n]), v);
    }
  }

  /** The consequence of reseeding on every draw: any two boards with the same
      side to move and the same parity of piece counts collide. */
  lemma InitTableHashCollides(g: Generator, b1: seq<seq<int>>, b2: seq<seq<int>>, player: nat)
    requires CellsInRange(b1) && CellsInRange(b2)
    requires PieceCount(b1) % 2 == PieceCount(b2) % 2
    ensures ComputeHash(b1, InitTable(g), player) == ComputeHash(b2, InitTable(g), player)
    ensures ComputeHash(b1, InitTable(g), player).Some?
  {
    InitTableKeysAll(g);
    BoardHashConstant(InitTable(g), RandomInt(g), b1);
    BoardHashConstant(InitTable(g), RandomInt(g), b2);
  }
}

=== FILE: wrappers.dfy ===
/** Failure-compatible result types shared by the modules of the Fianco model. */
module Wrappers {

  /** A value that may be missing: Python's `None` return, or an operation that
      would raise (`set.remove` of a missing element, an unbound local). */
  datatype Option<+T> = None | Some(value: T) {

    predicate IsFailure() {
      None?
    }

    function PropagateFailure<U>(): Option<U>
      requires None?
    {
      None
    }

    function Extract(): T
      requires Some?
    {
      value
    }
  }
}

=== FILE: zobrist.dfy ===
/** Zobrist hashing of the set board (board.py:124-144): a full recomputation
    and the incremental update the search applies after each move. Hashes and
    keys are unsigned 64-bit words, written as sets of bit positions. */
module Zobrist {
  import opened Coords
  import opened Bits
  import opened SetBoard

  /** The key tables: `zobrist[y, x, side]` (side 0 for white pieces, 1 for
      black ones) and `zobrist_player[0]`, `zobrist_player[1]`. The source
      draws them from a seeded generator; here they are arbitrary words. */
  datatype Keys = Keys(square: (int, int, int) -> Bits, turn0: Bits, turn1: Bits)

  function Turn(keys: Keys, idx: int): Bits {
    if idx == 0 then keys.turn0 else keys.turn1
  }

  function KeyOf(keys: Keys, s: Square, idx: int): Bits {
    keys.square(s.row, s.col, idx)
  }

  /** Every key is a 64-bit word. */
  ghost predicate Words(keys: Keys) {
    && Below(keys.turn0, 64) && Below(keys.turn1, 64)
    && forall y, x, i :: Below(keys.square(y, x, i), 64)
  }

  /** What square `s` contributes to a side's hash. */
  function Term(keys: Keys, pieces: set<Square>, idx: int, s: Square): Bits {
    if s in pieces then KeyOf(keys, s, idx) else {}
  }

  /** XOR of the side-`idx` keys of the pieces met along `order`. XOR is
      associative and commutative, so the order in which the source walks the
      set does not matter; the model fixes one. */
  function SideHash(keys: Keys, pieces: set<Square>, idx: int, order: seq<Square>): Bits {
    if order == [] then {}
    else Xor(SideHash(keys, pieces, idx, order[..|order| - 1]), Term(keys, pieces, idx, order[|order| - 1]))
  }

  /** `zobrist_hash(player)`: all white keys, all black keys, and the key of
      the side to move, `zobrist_player[player - 1]`. */
  function ZobristHash(keys: Keys, b: Board, p: int): (z: Bits)
    requires ValidPlayer(p)
    ensures Words(keys) ==> Below(z, 64)
  {
    var w := SideHash(keys, b.white, 0, BoardOrder());
    var k := SideHash(keys, b.black, 1, BoardOrder());
    SideHashWord(keys, b.white, 0, BoardOrder());
    SideHashWord(keys, b.black, 1, BoardOrder());
    XorWord(keys, w, k, Turn(keys, p - 1));
    Xor(Xor(w, k), Turn(keys, p - 1))
  }

  lemma XorWord(keys: Keys, w: Bits, k: Bits, t: Bits)
    requires Words(keys) ==> Below(w, 64) && Below(k, 64)
    requires Words(keys) ==> Below(t, 64)
    ensures Words(keys) ==> Below(Xor(Xor(w, k), t), 64)
  {
    if Words(keys) {
      XorBelow(w, k, 64);
      XorBelow(Xor(w, k), t, 64);
    }
  }

  lemma {:induction false} SideHashWord(keys: Keys, pieces: set<Square>, idx: int, order: seq<Square>)
    ensures Words(keys) ==> Below(SideHash(keys, pieces, idx, order), 64)
  {
    if order != [] && Words(keys) {
      SideHashWord(keys, pieces, idx, order[..|order| - 1]);
      XorBelow(SideHash(keys, pieces, idx, order[..|order| - 1]), Term(keys, pieces, idx, order[|order| - 1]), 64);
    }
  }

  /** The keys `zobrist_move` XORs into the hash, combined: both side-to-move
      keys, the mover's keys of the from- and to-square, and for a jump the
      opponent's key of the square jumped over. `player` is the side to move
      after the move, so the mover's tables are those of the other side. */
  function MoveDelta(keys: Keys, player: int, m: Move): Bits {
    var playerIdx := if player == White then 1 else 0;
    var opponentIdx := 1 - playerIdx;
    var d := Xor(Xor(Xor(Turn(keys, opponentIdx), Turn(keys, playerIdx)),
                     keys.square(m.y1, m.x1, playerIdx)), keys.square(m.y2, m.x2, playerIdx));
    if m.y1 - m.y2 == 2 || m.y1 - m.y2 == -2 then
      Xor(d, keys.square((m.y1 + m.y2) / 2, (m.x1 + m.x2) / 2, opponentIdx))
    else d
  }

  /** `zobrist_move(zobrist, player, move)`. */
  function ZobristMove(keys: Keys, z: Bits, player: int, m: Move): (r: Bits)
    ensures Xor(r, MoveDelta(keys, player, m)) == z
  {
    XorAssoc(z, MoveDelta(keys, player, m), MoveDelta(keys, player, m));
    XorSelf(MoveDelta(keys, player, m));
    Xor(z, MoveDelta(keys, player, m))
  }

  function AddEffect(keys: Keys, s: Square, idx: int, order: seq<Square>): Bits {
    if s in order then KeyOf(keys, s, idx) else {}
  }

  /** Adding one piece changes a side's hash by that square's key, if the
      square is among those walked. */
  lemma {:induction false} SideHashAdd(keys: Keys, pieces: set<Square>, idx: int, s: Square, order: seq<Square>)
    requires s !in pieces && Distinct(order)
    ensures SideHash(keys, pieces + {s}, idx, order)
         == Xor(SideHash(keys, pieces, idx, order), AddEffect(keys, s, idx, order))
  {
    if order != [] {
      var init, last := order[..|order| - 1], order[|order| - 1];
      assert order == init + [last];
      assert Distinct(init);
      SideHashAdd(keys, pieces, idx, s, init);
      var before := SideHash(keys, pieces, idx, init);
      var e := AddEffect(keys, s, idx, init);
      if last == s {
        assert s !in init;
        XorSwap(before, e, Term(keys, pieces + {s}, idx, last));
      } else {
        XorSwap(before, e, Term(keys, pieces, idx, last));
      }
    }
  }

  /** Removing one on-board piece changes a side's hash by its key. */
  lemma SideHashRemove(keys: Keys, pieces: set<Square>, idx: int, s: Square)
    requires s in pieces && OnBoard(s)
    ensures SideHash(keys, pieces - {s}, idx, BoardOrder())
         == Xor(SideHash(keys, pieces, idx, BoardOrder()), KeyOf(keys, s, idx))
  {
    BoardOrderDistinct();
    BoardOrderComplete(s);
    SideHashAdd(keys, pieces - {s}, idx, s, BoardOrder());
    assert pieces - {s} + {s} == pieces;
    var h := SideHash(keys, pieces - {s}, idx, BoardOrder());
    XorAssoc(h, KeyOf(keys, s, idx), KeyOf(keys, s, idx));
    XorSelf(KeyOf(keys, s, idx));
  }

  /** Moving one piece from `f` to a free on-board square `t`. */
  lemma SideHashMove(keys: Keys, pieces: set<Square>, idx: int, f: Square, t: Square)
    requires f in pieces && t !in pieces && OnBoard(f) && OnBoard(t)
    ensures SideHash(keys, pieces - {f} + {t}, idx, BoardOrder())
         == Xor(Xor(SideHash(keys, pieces, idx, BoardOrder()), KeyOf(keys, f, idx)), KeyOf(keys, t, idx))
  {
    SideHashRemove(keys, pieces, idx, f);
    BoardOrderDistinct();
    BoardOrderComplete(t);
    SideHashAdd(keys, pieces - {f}, idx, t, BoardOrder());
  }

  /** The rearrangement behind the update of a move: `w` is the mover's side
      hash, `k` the other side's, `a`/`c` the from/to keys, `x` the key of a
      jumped piece; the side-to-move key passes from `t0` to `t1`. */
  lemma Regroup(w: Bits, k: Bits, t0: Bits, t1: Bits, a: Bits, c: Bits, x: Bits)
    ensures Xor(Xor(Xor(w, k), t0), Xor(Xor(Xor(Xor(t1, t0), a), c), x))
         == Xor(Xor(Xor(Xor(w, a), c), Xor(k, x)), t1)
    ensures Xor(Xor(Xor(k, w), t0), Xor(Xor(Xor(Xor(t1, t0), a), c), x))
         == Xor(Xor(Xor(k, x), Xor(Xor(w, a), c)), t1)
  {
  }

  /** Hash consistency: the incremental update of the hash before a move
      equals the full hash of the position after it, with the turn passed. */
  lemma ZobristMoveConsistent(keys: Keys, b: Board, p: int, m: Move)
    requires ValidPlayer(p) && Consistent(b) && Applicable(b, p, m) && OnBoard(m.To())
    ensures ApplyMove(b, p, m).Some?
    ensures ZobristMove(keys, ZobristHash(keys, b, p), Opponent(p), m)
         == ZobristHash(keys, ApplyMove(b, p, m).value, Opponent(p))
  {
    if IsJump(m) {
      ZobristJumpConsistent(keys, b, p, m);
    } else {
      ZobristStepConsistent(keys, b, p, m);
    }
  }

  /** A jump also XORs out the captured piece's key. */
  lemma ZobristJumpConsistent(keys: Keys, b: Board, p: int, m: Move)
    requires ValidPlayer(p) && Consistent(b) && Applicable(b, p, m) && OnBoard(m.To()) && IsJump(m)
    ensures ApplyMove(b, p, m).Some?
    ensures ZobristMove(keys, ZobristHash(keys, b, p), Opponent(p), m)
         == ZobristHash(keys, ApplyMove(b, p, m).value, Opponent(p))
  {
    var after := ApplyMove(b, p, m).value;
    var idx := p - 1;
    var mine, theirs := Mine(b, p), Theirs(b, p);
    assert OnBoard(m.From());
    SideHashMove(keys, mine, idx, m.From(), m.To());
    var hm := SideHash(keys, mine, idx, BoardOrder());
    var ht := SideHash(keys, theirs, 1 - idx, BoardOrder());
    var a, c := KeyOf(keys, m.From(), idx), KeyOf(keys, m.To(), idx);
    var t0, t1 := Turn(keys, p - 1), Turn(keys, 2 - p);
    var d := Xor(Xor(Xor(t1, t0), a), c);
    assert OnBoard(Mid(m));
    SideHashRemove(keys, theirs, 1 - idx, Mid(m));
    var x := KeyOf(keys, Mid(m), 1 - idx);
    assert MoveDelta(keys, Opponent(p), m) == Xor(d, x);
    Regroup(hm, ht, t0, t1, a, c, x);
  }

  /** A step leaves the opponent's pieces and their keys alone. */
  lemma ZobristStepConsistent(keys: Keys, b: Board, p: int, m: Move)
    requires ValidPlayer(p) && Consistent(b) && Applicable(b, p, m) && OnBoard(m.To()) && !IsJump(m)
    ensures ApplyMove(b, p, m).Some?
    ensures ZobristMove(keys, ZobristHash(keys, b, p), Opponent(p), m)
         == ZobristHash(keys, ApplyMove(b, p, m).value, Opponent(p))
  {
    var after := ApplyMove(b, p, m).value;
    var idx := p - 1;
    var mine, theirs := Mine(b, p), Theirs(b, p);
    assert OnBoard(m.From());
    SideHashMove(keys, mine, idx, m.From(), m.To());
    var hm := SideHash(keys, mine, idx, BoardOrder());
    var ht := SideHash(keys, theirs, 1 - idx, BoardOrder());
    var a, c := KeyOf(keys, m.From(), idx), KeyOf(keys, m.To(), idx);
    var t0, t1 := Turn(keys, p - 1), Turn(keys, 2 - p);
    var d := Xor(Xor(Xor(t1, t0), a), c);
    var x: Bits := {};
    XorZero(d);
    XorZero(ht);
    assert MoveDelta(keys, Opponent(p), m) == Xor(d, x);
    assert SideHash(keys, Theirs(after, p), 1 - idx, BoardOrder()) == Xor(ht, x);
    Regroup(hm, ht, t0, t1, a, c, x);
  }

  /** Applying the same update twice gives back the original hash. */
  lemma ZobristMoveInvolution(keys: Keys, z: Bits, player: int, m: Move)
    ensures ZobristMove(keys, ZobristMove(keys, z, player, m), player, m) == z
  {
    var d := MoveDelta(keys, player, m);
    XorAssoc(Xor(z, d), d, d);
  }

  /** Undo for hashes: the update maps the hash after a move back to the hash
      before it. */
  lemma ZobristUndoConsistent(keys: Keys, b: Board, p: int, m: Move)
    requires ValidPlayer(p) && Consistent(b) && Applicable(b, p, m) && OnBoard(m.To())
    ensures ApplyMove(b, p, m).Some?
    ensures ZobristMove(keys, ZobristHash(keys, ApplyMove(b, p, m).value, Opponent(p)), Opponent(p), m)
         == ZobristHash(keys, b, p)
  {
    ZobristMoveConsistent(keys, b, p, m);
    ZobristMoveInvolution(keys, ZobristHash(keys, b, p), Opponent(p), m);
  }

  /** Every legal move keeps the incremental hash in step with the full one. */
  lemma LegalMoveHashConsistent(keys: Keys, r: Rules, b: Board, p: int, m: Move)
    requires ValidPlayer(p) && WellFormed(r) && Consistent(b)
    requires m in Legal(r, b, p)
    ensures ApplyMove(b, p, m).Some?
    ensures ZobristMove(keys, ZobristHash(keys, b, p), Opponent(p), m)
         == ZobristHash(keys, ApplyMove(b, p, m).value, Opponent(p))
  {
    LegalMoveValid(r, b, p, m);
    ZobristMoveConsistent(keys, b, p, m);
  }
}
